=== FILE: README.md ===
# Mentor platform: a verified model of its business rules

The mentor platform links mentees with mentors. A mentee books paid sessions
in a mentor's weekly availability, pays through a card processor, rates the
session afterwards, asks for a longer mentorship and chats with the people
they are linked to. An intake conversation collects the mentee's goals, and
a scoring function ranks the mentors against them. The web client splits
comma-separated skill lists, filters the mentor directory, sorts the blog,
builds the sitemap and sums money on the two dashboards.

This project models those rules in Dafny, one module per source file:

- `BookingRoutes`, `BookingSchema`: bookings, availability, blocked dates and open slots.
- `PaymentRoutes` (10% fee) and `PaymentsRoutes` (20% fee): checkout, processor webhooks, commission and mentor credit.
- `MentorshipRoutes`: mentorship requests and mentorships.
- `FeedbackRoutes`, `FeedbackSchema`: session completion, ratings and their summary.
- `ChatRoutes`: the chat permission, the conversation list and messages.
- `AiAgent`, `AiAgentRoutes`: the intake flow, match scoring and match ranking.
- `Sitemap`, `MentorList`, `BlogStore`, `Dashboards`: the client helpers.

Shared pieces live in four more modules:

- `Models`: the records, and a `Database` class with one sequence field per table. The route methods update its fields in place.
- `Common`: Option/Result, the HTTP errors and the string helpers (strip, lower, split, join, find-first).
- `Money`: integer pence and the commission rounding.
- `Sorting`: the stable sort with `reverse=True` on an integer key.

Modelling choices:

- Money is whole pence. Dates are day ordinals and times are minutes since midnight.
- A handler that reads and writes tables is a method on the `Database`. Its `ensures` ties the new state and the reply to a pure outcome function, and lemmas prove properties of that function.
- Loops in the source (slot generation, conflict scan, match collection, counterpart collection, sitemap URL list, score accumulation) are `for` loops over an index range or `while` loops, each with its invariants.

## Model

| member | source | states |
|---|---|---|
| `Models.Weekday` | backend/app/routes/booking_routes.py:398 | A date's weekday lies in 0..6. |
| `Models.WeekdayNext` | backend/app/routes/booking_routes.py:426 | The weekday advances by one each day and wraps from Sunday (6) to Monday (0). |
| `Models.Database.FreshId` | backend/app/models/booking.py:11 | Every inserted row gets a new primary key, one past the previous one. |
| `Money.PercentOf` | backend/app/routes/payment_routes.py:23 | The fee is the exact share rounded to the nearest penny: within half a penny, up or down. |
| `Money.PercentOfNearest` | backend/app/routes/payment_routes.py:23 | No other whole-penny amount is closer to the exact share. |
| `Money.PercentOfBounds` | backend/app/routes/payment_routes.py:23 | For a rate between 0 and 100%, the fee lies between 0 and the amount. |
| `Money.Commission` | backend/app/routes/payment_routes.py:21-25 | The fee and the payout add up to the amount exactly. The fee is the rounded share, and for a rate between 0 and 100% neither part is negative. |
| `BookingSchema.ValidateBookingCreate` | backend/app/schemas/booking_schema.py:12 | A booking request is accepted if and only if its duration is between 30 and 240 minutes. Otherwise the reply is 422. |
| `BookingSchema.ParseStatusTarget` | backend/app/schemas/booking_schema.py:53 | A status is accepted if and only if it is exactly "confirmed", "cancelled" or "completed". "requested" is never a target. |
| `BookingSchema.ParseStatusName` | backend/app/schemas/booking_schema.py:53 | Every status except "requested" round-trips through its name. |
| `BookingSchema.ValidateStatusUpdate` | backend/app/schemas/booking_schema.py:52-55 | A status update is accepted exactly when its status parses. The cancellation reason and mentor notes pass through unchanged, either may be absent. |
| `BookingSchema.ValidateAvailabilityCreate` | backend/app/schemas/booking_schema.py:61 | A weekly slot is accepted if and only if day_of_week is in 0..6. |
| `BookingSchema.WeekdayIsValidDay` | backend/app/schemas/booking_schema.py:61 | The weekday of every date is an acceptable day_of_week. |
| `BookingSchema.ToBookingOut` | backend/app/schemas/booking_schema.py:28-33 | The booking is carried over and every session close-out field is absent. |
| `BookingRoutes.CalculateEndTime` | backend/app/routes/booking_routes.py:56-60 | The end time is start plus duration modulo 24 hours. It equals the plain sum before midnight and the sum less a day after it. |
| `BookingRoutes.CheckBookingConflict` | backend/app/routes/booking_routes.py:63-88 | True if and only if some booking of the same mentor, date and active status, other than the excluded id, overlaps the half-open interval. A conflict names an overlapping active booking. |
| `BookingRoutes.NeverConflicting` | backend/app/routes/booking_routes.py:75-85 | Cancelled or completed bookings, and intervals that only touch, never conflict. |
| `BookingRoutes.MidnightWrapHidesOverlap` | backend/app/routes/booking_routes.py:56-88 | A 23:00 two-hour booking ends at 01:00, so it does not collide with a confirmed 23:30 booking on the same date. |
| `BookingRoutes.SpanConflictCatchesWrap` | backend/app/routes/booking_routes.py:56-88 | Comparing absolute minutes from the start of day 0 finds the overlap of a 23:00 two-hour request with a booking from 23:30 to 23:45 on the same date. |
| `BookingRoutes.SpanConflictAgreesWithoutWrap` | backend/app/routes/booking_routes.py:56-88 | When neither the request nor any stored booking crosses midnight, the absolute-minute check and the source's check give the same answer. |
| `BookingRoutes.SessionAmount` | backend/app/routes/booking_routes.py:149 | The price is hourly rate times minutes over 60, rounded down to the penny. It is non-negative, and one hour costs the hourly rate. |
| `BookingRoutes.NewBooking` | backend/app/routes/booking_routes.py:148-161 | The inserted booking belongs to the caller and the requested mentor, keeps the requested date, start, duration and message, and ends at start plus duration modulo a day. It is requested, unpaid, without intent, notes or reason, and priced at the hourly rate for the duration, rounded down to the penny. |
| `BookingRoutes.CreateBookingOutcome` | backend/app/routes/booking_routes.py:94-168 | Non-mentees get 403. A booking is created if and only if the caller is a mentee, the mentor exists with role mentor and has a profile, no active booking conflicts and the date is not blocked. A missing mentor or profile gives 404, a conflict 409 even on a blocked date, and a blocked date otherwise 400. The new booking is `NewBooking` for the new id, the caller and the request, priced at the hourly rate of the mentor's first profile row. So it is requested, its payment is pending, the message is copied, and the notes, cancellation reason and intent id are absent. |
| `BookingRoutes.CreateBooking` | backend/app/routes/booking_routes.py:94-168 | The reply is the outcome above. A success appends exactly that booking and consumes one id; an error changes nothing. |
| `BookingRoutes.CreateKeepsNoDoubleBooking` | backend/app/routes/booking_routes.py:128-135 | A successful booking keeps the invariant that no two active bookings of a mentor on the same date overlap, comparing their stored start and end times (the end wrapped at midnight). |
| `BookingRoutes.ApplyStatusUpdate` | backend/app/routes/booking_routes.py:248-282 | Outsiders get 403. Confirm succeeds exactly for the mentor, whatever the prior status. Cancel succeeds unless the booking is completed. Complete succeeds only for the mentor and only from confirmed. The reason is recorded on cancel, notes change only for the mentor, and no other field changes. |
| `BookingRoutes.UpdateBookingStatus` | backend/app/routes/booking_routes.py:240-288 | A missing booking gives 404. Otherwise the reply is the update above, and only that booking is replaced, and only on success. |
| `BookingRoutes.StatusUpdateKeepsNoDoubleBooking` | backend/app/routes/booking_routes.py:266-279 | Cancelling or completing keeps the no-overlap invariant. |
| `BookingRoutes.ConfirmCanReviveCancelled` | backend/app/routes/booking_routes.py:260-264 | Confirming a cancelled booking is allowed and can create two overlapping active bookings. |
| `BookingRoutes.BookingKeyOrder` | backend/app/routes/booking_routes.py:192 | The sort key orders by date, then by start time, both descending. |
| `BookingRoutes.GetMyBookings` | backend/app/routes/booking_routes.py:172-208 | A role other than mentee or mentor gets 403. Otherwise the result is a permutation of exactly the caller's bookings with the requested status, newest date and start first. |
| `BookingRoutes.CreateAvailability` | backend/app/routes/booking_routes.py:294-330 | Only mentors may add a slot. It is refused (400) if and only if it overlaps an active slot of theirs on the same weekday. A success appends an active slot. |
| `BookingRoutes.AddSlotKeepsNoOverlap` | backend/app/routes/booking_routes.py:305-317 | Adding a slot that passed the check keeps active weekly slots pairwise disjoint. |
| `BookingRoutes.UpdateAvailabilitySlot` | backend/app/routes/booking_routes.py:435-456 | 404 for a missing slot, 403 for another mentor's slot. Otherwise only is_active changes. |
| `BookingRoutes.ReactivationCanOverlap` | backend/app/routes/booking_routes.py:447-450 | Reactivating a slot is not checked, so it can make two active slots overlap. |
| `BookingRoutes.CreateBlockedDate` | backend/app/routes/booking_routes.py:483-512 | Only mentors may block a date. Blocking a date they already blocked gives 400. A success appends the date and keeps blocked dates unique per mentor. |
| `BookingRoutes.DaySlotsSound` | backend/app/routes/booking_routes.py:398-424 | Every slot offered on a day comes from an availability of that weekday that no booking overlaps. Its duration is end minus start. |
| `BookingRoutes.DaySlotsComplete` | backend/app/routes/booking_routes.py:398-424 | Every such availability yields its slot. |
| `BookingRoutes.DaySlotsDates` | backend/app/routes/booking_routes.py:419-424 | Slots generated for a day carry that day's date. |
| `BookingRoutes.SlotsBetweenSound` | backend/app/routes/booking_routes.py:391-426 | Every slot lies in the date range on an unblocked date, and comes from a matching free availability. |
| `BookingRoutes.SlotsBetweenComplete` | backend/app/routes/booking_routes.py:391-426 | Every free matching availability on every unblocked date of the range appears. |
| `BookingRoutes.SlotsBetweenAscending` | backend/app/routes/booking_routes.py:391-426 | Slots come in ascending date order, within the range. |
| `BookingRoutes.NoAvailabilityNoSlots` | backend/app/routes/booking_routes.py:365-371 | Without active availability there are no slots. |
| `BookingRoutes.BlockedBetween` | backend/app/routes/booking_routes.py:374-378 | The blocked dates are exactly those of this mentor within the range. |
| `BookingRoutes.IsSlotBooked` | backend/app/routes/booking_routes.py:403-411 | The inner loop answers whether some booking that day overlaps the slot. |
| `BookingRoutes.OpenSlotsOn` | backend/app/routes/booking_routes.py:401-424 | The loop over one day builds exactly that day's free slots. |
| `BookingRoutes.OpenSlotsBetween` | backend/app/routes/booking_routes.py:391-426 | The date loop builds exactly the slot list specified above. |
| `BookingRoutes.GetMentorAvailableSlots` | backend/app/routes/booking_routes.py:351-431 | 404 exactly when no user with that id has the role mentor. Otherwise the result is the slot list over that mentor's active availability, blocked dates and active bookings in range. |
| `PaymentRoutes.CalculateCommission` | backend/app/routes/payment_routes.py:16-25 | The fee is 10% rounded to the nearest penny, and fee plus payout is exactly the amount. |
| `PaymentRoutes.CheckoutGuard` | backend/app/routes/payment_routes.py:39-55 | 404 exactly for a missing booking, and 403 when the caller is not its mentee. Otherwise checkout is allowed exactly for a confirmed, unpaid booking whose first payment row, if any, has not succeeded. A later succeeded row is not looked at, as the source's `.first()` does not. |
| `PaymentRoutes.CheckoutRequestFor` | backend/app/routes/payment_routes.py:59-80 | The processor is charged the booking amount in pence, with the booking's ids as metadata. |
| `PaymentRoutes.CreateCheckoutSession` | backend/app/routes/payment_routes.py:28-93 | A refusal or a processor error changes nothing. Success stores the processor's intent id on that booking only. |
| `PaymentRoutes.EventBooking` | backend/app/routes/payment_routes.py:141-148 | The paid booking is found by metadata id, or else by the stored intent id. |
| `PaymentRoutes.BalanceOf` | backend/app/routes/payment_routes.py:184-196 | A mentor's balance row, or a zero row when none exists. |
| `PaymentRoutes.CreditPending` | backend/app/routes/payment_routes.py:188-200 | total_earned and pending_balance rise by the payout. The available balance, the withdrawn amount and every other mentor's balance are unchanged. |
| `PaymentRoutes.ProcessWebhook` | backend/app/routes/payment_routes.py:96-216 | Events other than payment_intent.succeeded answer received and change nothing. Only a succeeded reply changes a table. The reply is 404 if and only if the event is a success, its id is on no payment, the intent's payment is not processed and no booking matches. |
| `PaymentRoutes.Settle` | backend/app/routes/payment_routes.py:150-213 | The reply carries the 10% fee and payout. The booking becomes paid and the mentor's pending credit is applied. An existing payment for the intent becomes succeeded, processed and commission-paid with the event id, and no id is consumed. Without one, a new succeeded payment with the split is appended under the next id. |
| `PaymentRoutes.SuccessRecordsEvent` | backend/app/routes/payment_routes.py:158-181 | First processing leaves a succeeded, processed payment that carries the event id. The booking the event names becomes paid, and no other booking changes. |
| `PaymentRoutes.ReplayIsIgnored` | backend/app/routes/payment_routes.py:122-129 | Replaying a processed event answers already_processed and changes nothing, so the mentor is never credited twice. |
| `PaymentRoutes.SecondEventForIntentIgnored` | backend/app/routes/payment_routes.py:131-138 | A new event for an intent already processed answers payment_already_processed and changes nothing. |
| `PaymentRoutes.SuccessCreditsPending` | backend/app/routes/payment_routes.py:183-200 | First processing credits the booking's mentor in total_earned and pending_balance only, and no other mentor. |
| `PaymentRoutes.StripeWebhook` | backend/app/routes/payment_routes.py:96-216 | The handler's reply and new tables are those of the webhook specification above. |
| `PaymentRoutes.SettleOn` | backend/app/routes/payment_routes.py:157-213 | The in-place updates of payment, booking and balance produce the specified settled state. |
| `PaymentRoutes.GetMentorBalance` | backend/app/routes/payment_routes.py:219-246 | Non-mentors get 403. A mentor sees their balance. A zero row is appended if and only if the mentor had none, and nothing else is added. |
| `PaymentsRoutes.PendingAttempt` | backend/app/routes/payments_routes.py:38-44 | A new payment row is pending, for the requested booking and amount, with no fee yet. |
| `PaymentsRoutes.CreateCheckoutSession` | backend/app/routes/payments_routes.py:30-69 | 404 for a missing booking, with nothing stored. Otherwise a pending row is stored first, and a processor failure still leaves it stored. |
| `PaymentsRoutes.CreatePaymentIntent` | backend/app/routes/payments_routes.py:72-106 | As checkout. The intent id is stored on the new row only when the processor answers. |
| `PaymentsRoutes.CreditMentor` | backend/app/routes/payments_routes.py:222-225 | The mentor's balance rises by the payout, and no other user's balance changes. A missing mentor is not credited. |
| `PaymentsRoutes.CreditFor` | backend/app/routes/payments_routes.py:219-225 | When the payment's booking exists and names a mentor, that mentor's balance rises by the payout if they have a user row, and nothing changes if not. No other balance changes. Without a booking or mentor, nothing changes. |
| `PaymentsRoutes.Finalize` | backend/app/routes/payments_routes.py:209-225 | The payment ends succeeded, and bookings and events are untouched. A payment that had succeeded leaves everything unchanged. Otherwise only that payment changes: it gets a 20% fee rounded to the penny and a payout that sum to the amount, and the users are credited as `CreditFor` says. |
| `PaymentsRoutes.FinalizeAsWritten` | backend/app/routes/payments_routes.py:209-228 | As run, the payment rows end as in `Finalize`, but no user's balance changes. |
| `PaymentsRoutes.AsWrittenCreditsNobody` | backend/app/routes/payments_routes.py:218-228 | For a pending 1000-pence payment whose booking's mentor has a user row, the intended finalisation credits 800 and the one as run credits nothing. |
| `PaymentsRoutes.FinalizeIdempotent` | backend/app/routes/payments_routes.py:209-212 | Finalizing twice is the same as finalizing once. |
| `PaymentsRoutes.FinalizeSettled` | backend/app/routes/payments_routes.py:209-212 | A succeeded payment is not finalized, or credited, again. |
| `PaymentsRoutes.MarkPaid` | backend/app/routes/payments_routes.py:245-251 | The booking becomes paid and confirmed whatever its status, and no other booking changes. |
| `PaymentsRoutes.NamedAttempt` | backend/app/routes/payments_routes.py:238-239 | The payment named by the event metadata, when it exists. |
| `PaymentsRoutes.ApplyEvent` | backend/app/routes/payments_routes.py:230-276 | Other event types change nothing. A checkout.session.completed or payment_intent.succeeded event that names no payment changes no payment or user. One that names a payment makes it succeeded with the event's intent id, and no other payment changes. A newly succeeded payment gets the 20% split and credits its mentor; one already succeeded credits nobody. The named booking becomes paid and confirmed, or the bookings are unchanged. |
| `PaymentsRoutes.ProcessEvent` | backend/app/routes/payments_routes.py:194-204 | The reply is already_processed if and only if the event carries an id already in the event table, and that reply comes with no change at all. An event without an id is applied and not recorded. A new id is appended to the event table, and every other table ends as applying the event to the store would leave it. |
| `PaymentsRoutes.ReplayIgnored` | backend/app/routes/payments_routes.py:194-204 | An event with an id is recorded, so replaying it is already_processed and changes nothing. |
| `PaymentsRoutes.SettledEventNoCredit` | backend/app/routes/payments_routes.py:209-212 | An event for a payment that already succeeded, or names none, credits nobody. |
| `PaymentsRoutes.SecondEventNoCredit` | backend/app/routes/payments_routes.py:209-212 | A second event for the same payment, even with a new event id, credits nobody. |
| `PaymentsRoutes.EventConfirmsBooking` | backend/app/routes/payments_routes.py:230-274 | A checkout.session.completed or payment_intent.succeeded event makes the named booking paid and confirmed. |
| `PaymentsRoutes.FinalizePayment` | backend/app/routes/payments_routes.py:209-228 | The in-place updates equal the finalize specification. |
| `PaymentsRoutes.StripeWebhook` | backend/app/routes/payments_routes.py:181-278 | The handler's reply and new tables are those of the event specification. |
| `PaymentsRoutes.ConfirmTarget` | backend/app/routes/payments_routes.py:116-124 | 400 if and only if neither id is given. The payment id takes precedence over the intent id, and a missing payment gives 404. |
| `PaymentsRoutes.ConfirmOutcome` | backend/app/routes/payments_routes.py:109-170 | Errors change nothing. A payment that had succeeded, or whose processor report is missing or not succeeded, is returned and nothing changes. Otherwise only that payment changes: it becomes succeeded with the reported intent id and the 20% split, its mentor is credited as `CreditFor` says, its booking becomes paid and confirmed, and the event table is not touched. |
| `PaymentsRoutes.ConfirmThenEventNoCredit` | backend/app/routes/payments_routes.py:126-166 | After a confirmation succeeds, a webhook for the same payment credits nobody again. |
| `PaymentsRoutes.ConfirmPayment` | backend/app/routes/payments_routes.py:109-170 | The in-place updates equal the confirmation specification. |
| `MentorshipRoutes.CreateRequestOutcome` | backend/app/routes/mentorship_routes.py:26-85 | Only mentees may ask (403). A request is created if and only if the mentor exists with role mentor and a profile, and no pending request or active mentorship links the pair. The new request is pending. |
| `MentorshipRoutes.CreateRequest` | backend/app/routes/mentorship_routes.py:26-85 | A success appends exactly that request; an error changes nothing. |
| `MentorshipRoutes.CreateKeepsAtMostOneOpen` | backend/app/routes/mentorship_routes.py:50-71 | Each (mentee, mentor) pair keeps at most one pending request and at most one active mentorship. |
| `MentorshipRoutes.DecideGuard` | backend/app/routes/mentorship_routes.py:155-167 | Only mentors may decide (403). A mentor gets the request if and only if one is addressed to them and the first such is pending. No such request gives 404, and one that is no longer pending gives 400. |
| `MentorshipRoutes.AcceptRequest` | backend/app/routes/mentorship_routes.py:147-182 | Accepting marks that request accepted and appends exactly one active mentorship for the pair. A refusal changes nothing. |
| `MentorshipRoutes.AcceptKeepsAtMostOneOpen` | backend/app/routes/mentorship_routes.py:155-175 | Accepting keeps the at-most-one-open invariant. |
| `MentorshipRoutes.RejectRequest` | backend/app/routes/mentorship_routes.py:186-211 | Rejecting marks the pending request rejected and creates no mentorship. |
| `MentorshipRoutes.RejectKeepsAtMostOneOpen` | backend/app/routes/mentorship_routes.py:194-205 | Rejecting keeps the invariant. |
| `MentorshipRoutes.CompleteGuard` | backend/app/routes/mentorship_routes.py:265-277 | 404 exactly when no mentorship with that id has the caller as a participant. Completion needs an active mentorship. |
| `MentorshipRoutes.CompleteMentorship` | backend/app/routes/mentorship_routes.py:260-280 | Either participant moves an active mentorship to completed, and nothing else changes. |
| `MentorshipRoutes.CompleteKeepsAtMostOneOpen` | backend/app/routes/mentorship_routes.py:265-277 | Completing keeps the invariant. |
| `MentorshipRoutes.CompletedPairMayRequestAgain` | backend/app/routes/mentorship_routes.py:62-71 | Once completed, a pair has no active mentorship, so a new request is not blocked by it. |
| `FeedbackSchema.ValidateFeedbackCreate` | backend/app/schemas/feedback_schema.py:12-16 | A submission is accepted if and only if the rating is 1 to 5 and the optional text has at most 1000 characters. |
| `FeedbackSchema.ToFeedbackResponse` | backend/app/schemas/feedback_schema.py:19-27 | The response copies the row. The completion time is present exactly when the session was marked complete. |
| `FeedbackRoutes.CompleteSessionOutcome` | backend/app/routes/feedback_routes.py:21-63 | Completion succeeds if and only if the caller is a mentor, the booking exists and is theirs, and it was not already marked complete. Another mentor's booking gives 403, a missing one 404, a second completion 400. The booking becomes completed whatever its status. A new feedback row with rating 0 is created, or the existing one is marked complete. |
| `FeedbackRoutes.CompleteTwiceRefused` | backend/app/routes/feedback_routes.py:42-43 | A second completion of the same booking gives 400. |
| `FeedbackRoutes.CompleteKeepsFeedbackValid` | backend/app/routes/feedback_routes.py:46-56 | Completion keeps one feedback row per booking, with ratings in 0..5. |
| `FeedbackRoutes.CompleteSession` | backend/app/routes/feedback_routes.py:21-63 | The in-place updates equal the completion outcome, and an error changes nothing. |
| `FeedbackRoutes.SubmitFeedbackOutcome` | backend/app/routes/feedback_routes.py:66-113 | A submission succeeds if and only if the caller is a mentee, the booking exists, is theirs and is completed, and no positive rating is stored. A missing booking gives 404, another mentee's booking 403, an uncompleted one 400, an existing rating 400. An existing row keeps its id, mentee, mentor and completion flag, takes the rating and text, and the id counter is unchanged. Otherwise a new row is appended with the next id, the booking, the caller as mentee, the booking's mentor, the rating and text, and no completion. The id counter then advances by one. The bookings are unchanged. |
| `FeedbackRoutes.RatingsOfRated` | backend/app/routes/feedback_routes.py:94-97 | Rating an unrated row adds that rating to the row mentor's ratings and changes no other mentor's. |
| `FeedbackRoutes.RatingsOfAppend` | backend/app/routes/feedback_routes.py:100-108 | A new row adds its rating to its mentor's ratings, at the end, if it is rated. |
| `FeedbackRoutes.SubmitReachesRatings` | backend/app/routes/feedback_routes.py:94-108 | After a valid submission, the stored row's mentor has exactly one more rating, the one submitted. Every other mentor's ratings are unchanged, and a new row belongs to the booking's mentor. |
| `FeedbackRoutes.SubmitTwiceRefused` | backend/app/routes/feedback_routes.py:91-92 | A second valid submission for the same booking gives 400. |
| `FeedbackRoutes.SubmitKeepsFeedbackValid` | backend/app/routes/feedback_routes.py:94-108 | A valid submission keeps one feedback row per booking, with ratings in 0..5. |
| `FeedbackRoutes.SubmitFeedback` | backend/app/routes/feedback_routes.py:66-113 | The in-place updates equal the submission outcome. |
| `FeedbackRoutes.RatingsOf` | backend/app/routes/feedback_routes.py:121-124 | The ratings are exactly those of the mentor's feedback rows with a positive rating, one per row and in row order. |
| `FeedbackRoutes.RatingsOfMembers` | backend/app/routes/feedback_routes.py:121-124 | Every positive rating of the mentor is counted. |
| `FeedbackRoutes.RatingsInRange` | backend/app/routes/feedback_routes.py:121-124 | With ratings at most 5, every counted rating is 1..5. |
| `FeedbackRoutes.MentorRatings` | backend/app/routes/feedback_routes.py:116-152 | The summary counts the positive ratings, and its sum is their sum. It is all zeros when there are none. Each star count is the number of occurrences of that rating. |
| `FeedbackRoutes.StarCountsAddUp` | backend/app/routes/feedback_routes.py:139-151 | Star counts of 1..5-star ratings add up to their number, and their sum lies between the count and five times the count. |
| `FeedbackRoutes.StarCountsTotal` | backend/app/routes/feedback_routes.py:147-151 | Star counts add up to the number of ratings. |
| `FeedbackRoutes.SumBounds` | backend/app/routes/feedback_routes.py:141 | The rating sum lies between the count and five times the count. |
| `FeedbackRoutes.RatingsSummaryConsistent` | backend/app/routes/feedback_routes.py:139-152 | For valid feedback, the star counts add up to total_sessions, and the rating sum lies between total_sessions and five times it, so the average is 1 to 5. |
| `ChatRoutes.ChatAllowedSymmetric` | backend/app/routes/chat_routes.py:30-51 | The chat permission is symmetric, and nobody may chat with themselves. |
| `ChatRoutes.ChatAllowed` | backend/app/routes/chat_routes.py:30-51 | Whoever may chat with someone else is a different user linked to them in both directions. |
| `ChatRoutes.Latest` | backend/app/routes/chat_routes.py:90-95 | The last message between the two users, or none when they have none. |
| `ChatRoutes.ListMessages` | backend/app/routes/chat_routes.py:110-127 | 403 exactly when chat is not allowed. Otherwise the messages between the two, oldest first: as many as the limit allows, and no message left out is older than a listed one. |
| `ChatRoutes.OldestFirst` | backend/app/routes/chat_routes.py:118-125 | The first messages of the pair in time order are messages of the pair, oldest first, and none left out is older than one kept. |
| `ChatRoutes.OldestLeftOut` | backend/app/routes/chat_routes.py:125 | A prefix of the pair's messages in time order leaves out none older than one it keeps. |
| `ChatRoutes.ListMessagesComplete` | backend/app/routes/chat_routes.py:120-125 | When the limit is not reached, every message between the two is listed. |
| `ChatRoutes.SendMessage` | backend/app/routes/chat_routes.py:130-154 | Blank content gives 400 before the permission check (403), and a missing recipient gives 404. A success stores exactly the stripped content as a new message. |
| `ChatRoutes.StoredContentTrimmed` | backend/app/routes/chat_routes.py:136-149 | Stored content is non-empty and has no surrounding whitespace. |
| `ChatRoutes.CollectCounterparts` | backend/app/routes/chat_routes.py:61-79 | The counterpart set holds each linked user once, and exactly them. |
| `ChatRoutes.DistinctPermutation` | backend/app/routes/chat_routes.py:82 | Reordering a duplicate-free list keeps it duplicate-free. |
| `ChatRoutes.DistinctCount` | backend/app/routes/chat_routes.py:82 | A duplicate-free list holds each value at most once. |
| `ChatRoutes.AscendingIds` | backend/app/routes/chat_routes.py:82 | The counterpart ids are visited in strictly ascending order. |
| `ChatRoutes.NegatedOrder` | backend/app/routes/chat_routes.py:82 | A duplicate-free list sorted by descending negated id is strictly ascending. |
| `ChatRoutes.ListedAppend` | backend/app/routes/chat_routes.py:97-104 | Appending a conversation lists exactly one more counterpart. |
| `ChatRoutes.ConversationWith` | backend/app/routes/chat_routes.py:90-103 | A conversation has a last time exactly when the pair has exchanged a message. |
| `ChatRoutes.CollectConversations` | backend/app/routes/chat_routes.py:82-104 | The loop keeps exactly the allowed, existing counterparts in id order, each with its latest message. |
| `ChatRoutes.ConversationCandidates` | backend/app/routes/chat_routes.py:61-104 | The candidates are exactly the linked, allowed, existing counterparts, in ascending id order. |
| `ChatRoutes.OrderConversationsAsWritten` | backend/app/routes/chat_routes.py:106 | The sort as written fails when conversations with and without messages are mixed, and otherwise is a stable newest-first permutation. |
| `ChatRoutes.MixedConversationsFail` | backend/app/routes/chat_routes.py:106 | One conversation with a message and one without gives a server error. |
| `ChatRoutes.OrderConversations` | backend/app/routes/chat_routes.py:106 | The corrected sort is a permutation with the newest conversation first. |
| `ChatRoutes.MessagesFirst` | backend/app/routes/chat_routes.py:106 | Conversations with messages come before those without, newest first. |
| `ChatRoutes.OrderAgreesWhenDefined` | backend/app/routes/chat_routes.py:106 | Wherever the sort as written succeeds, the corrected sort returns the same list. |
| `ChatRoutes.SortByAgreeingKeys` | backend/app/routes/chat_routes.py:106 | Two keys that agree on a list sort it the same way. |
| `ChatRoutes.InsertAgrees` | backend/app/routes/chat_routes.py:106 | Insertion under two agreeing keys gives the same list. |
| `ChatRoutes.SortByConstantKey` | backend/app/routes/chat_routes.py:106 | A stable sort on a constant key keeps the list as it is. |
| `ChatRoutes.SortShort` | backend/app/routes/chat_routes.py:106 | Lists shorter than two are unchanged by sorting. |
| `ChatRoutes.ListConversations` | backend/app/routes/chat_routes.py:54-107 | The result lists each allowed, existing counterpart exactly once and never the caller. Each carries its latest message, newest first. |
| `AiAgent.ExtractKeywords` | backend/app/utils/ai_agent.py:192-198 | The value of the first keyword, in table order, found in the lower-cased text, or none if and only if no keyword occurs. |
| `AiAgent.FillerAt` | backend/app/utils/ai_agent.py:202 | A filler word matches at a position exactly when one of the eight words occurs there as a whole word, ignoring case. |
| `AiAgent.FillerWordsLower` | backend/app/utils/ai_agent.py:202 | Every filler word is lower-case letters only. |
| `AiAgent.FillerIsLetters` | backend/app/utils/ai_agent.py:202 | A matched filler covers letters only. |
| `AiAgent.CutLetters` | backend/app/utils/ai_agent.py:202 | Cutting out a run of letters removes only letters. |
| `AiAgent.RemoveFillersFrom` | backend/app/utils/ai_agent.py:202 | Removing filler words never lengthens the text and adds no character. Every non-letter keeps its number of occurrences, so only letters of matched fillers go. Text without fillers is unchanged. |
| `AiAgent.FillerDeletedAt` | backend/app/utils/ai_agent.py:202 | A matched filler is deleted as a whole, and a position where none matches keeps its character. |
| `AiAgent.NoSeparators` | backend/app/utils/ai_agent.py:203 | A text without separators has none to split at. |
| `AiAgent.SeparatorsAfterFirst` | backend/app/utils/ai_agent.py:203 | The separators of a text are its first separator, then those after it. |
| `AiAgent.InterleaveCons` | backend/app/utils/ai_agent.py:203 | Joining pieces with separators puts the first piece and separator before the rest. |
| `AiAgent.JoinAtFirst` | backend/app/utils/ai_agent.py:203 | The piece before the first separator, the separator and the rejoined rest give back the text. |
| `AiAgent.SplitSkills` | backend/app/utils/ai_agent.py:203 | k separators give k + 1 pieces, none containing a separator, and joining the pieces with the separators found gives back the text. Text without separators is one piece. |
| `AiAgent.TitleFrom` | backend/app/utils/ai_agent.py:204 | Title-casing keeps non-letters. A letter is upper-cased at the start of a word and lower-cased elsewhere. |
| `AiAgent.Title` | backend/app/utils/ai_agent.py:204 | The result has the same length and non-letters, and is title-cased. |
| `AiAgent.CaseChanges` | backend/app/utils/ai_agent.py:204 | Lower and upper casing of a letter give lower and upper letters. |
| `AiAgent.TitleKeeps` | backend/app/utils/ai_agent.py:204 | Title-casing keeps a piece trimmed and separator-free. |
| `AiAgent.StripKeepsSeparatorFree` | backend/app/utils/ai_agent.py:204 | Stripping keeps a piece separator-free. |
| `AiAgent.StripAll` | backend/app/utils/ai_agent.py:204 | Each piece is stripped, and stays separator-free. |
| `AiAgent.CleanSkills` | backend/app/utils/ai_agent.py:204 | Every kept skill is longer than two characters, trimmed, separator-free and title-cased. |
| `AiAgent.CleanSkillsMembers` | backend/app/utils/ai_agent.py:204 | The kept skills are exactly the title-cased pieces longer than two characters. |
| `AiAgent.ExtractSkills` | backend/app/utils/ai_agent.py:200-205 | The skills are the first five of the cleaned pieces, in order, or all of them when fewer qualify. Each is longer than two characters, stripped and title-cased. |
| `AiAgent.ContextualFollowUp` | backend/app/utils/ai_agent.py:207-223 | Follow-ups are asked only after steps 1, 2 and 4. Step 1 asks when the input mentions "student" in under five words, step 2 under ten words, step 4 under three. |
| `AiAgent.Answer` | backend/app/utils/ai_agent.py:230-247 | The raw input is always kept. Keyword and free-text questions store under their type, and the skill question stores the list and the joined text. Free text is stored stripped. |
| `AiAgent.FlowKeys` | backend/app/utils/ai_agent.py:23-190 | No question type collides with raw_input or followup_question. |
| `AiAgent.ParseResponse` | backend/app/utils/ai_agent.py:225-253 | Past the last step the result is empty. Otherwise it holds the answer entries, plus a follow-up if and only if one applies. |
| `AiAgent.ParsedKeepsRawInput` | backend/app/utils/ai_agent.py:232 | Every parsed step keeps the raw input. |
| `AiAgent.KeywordAnswerStored` | backend/app/utils/ai_agent.py:234-239 | A keyword step stores the extracted value, or the stripped input when nothing matched. |
| `AiAgent.SkillAnswerStored` | backend/app/utils/ai_agent.py:241-244 | The skill step stores the skill list and the skills joined with ", ". |
| `AiAgent.SkillsAnswer` | backend/app/utils/ai_agent.py:241-244 | A skills question's answer holds the skill list and its joined text. |
| `AiAgent.NextQuestion` | backend/app/utils/ai_agent.py:255-259 | There is no next question if and only if the step is past the last. Otherwise it is that step's question. |
| `AiAgent.FlowHasTwelveSteps` | backend/app/utils/ai_agent.py:23-190 | The flow has twelve questions: step 11 is the last. |
| `AiAgent.SkillList` | backend/app/utils/ai_agent.py:295-296 | One normalised item per comma-separated piece. |
| `AiAgent.NormalizeAll` | backend/app/utils/ai_agent.py:295-296 | Normalising keeps the number of items. |
| `AiAgent.NormalizedItems` | backend/app/utils/ai_agent.py:295-296 | Each item is stripped and lower-cased. |
| `AiAgent.PartialsFor` | backend/app/utils/ai_agent.py:302-305 | Partial matches of one desired skill are that skill, only when it is not exact, at most once per mentor skill. |
| `AiAgent.PartialMatches` | backend/app/utils/ai_agent.py:300-305 | Every partial match is a desired skill that is not an exact match. |
| `AiAgent.ExactMatches` | backend/app/utils/ai_agent.py:298 | Exact matches are exactly the desired skills the mentor lists. |
| `AiAgent.SkillPoints` | backend/app/utils/ai_agent.py:307 | The skill component is 0..35, at least 12 with an exact match, and 0 exactly without any match. |
| `AiAgent.SkillScore` | backend/app/utils/ai_agent.py:295-307 | The skill component is at most 35. |
| `AiAgent.DomainHits` | backend/app/utils/ai_agent.py:320-321 | The count of industry words found is at most the word count, and 0 exactly when none occurs. |
| `AiAgent.DomainPoints` | backend/app/utils/ai_agent.py:315-325 | The domain component is 0..25, and positive exactly when some industry word occurs in the domains or bio. |
| `AiAgent.ExperiencePoints` | backend/app/utils/ai_agent.py:338-347 | 20 inside the inclusive range, 10 above it, 0 below it. |
| `AiAgent.BudgetPoints` | backend/app/utils/ai_agent.py:357-368 | 12 inside the inclusive range, 6 below it, 0 above it. |
| `AiAgent.GoalPoints` | backend/app/utils/ai_agent.py:383-387 | 10 exactly when goal and bio are set and the bio mentions a keyword of the goal, else 0. |
| `AiAgent.Spaced` | backend/app/utils/ai_agent.py:388 | Underscores become spaces and nothing else changes. |
| `AiAgent.RawScore` | backend/app/utils/ai_agent.py:285-387 | The uncapped sum lies in 0..110. |
| `AiAgent.Score` | backend/app/utils/ai_agent.py:390 | The score lies in 0..100. It is 100 exactly when the raw sum reaches 100, and equals the raw sum below that. |
| `AiAgent.ExperienceReasons` | backend/app/utils/ai_agent.py:341-347 | Component reasons never include the limited-match note. |
| `AiAgent.BudgetReasons` | backend/app/utils/ai_agent.py:360-366 | As above. |
| `AiAgent.SkillReasons` | backend/app/utils/ai_agent.py:310-312 | As above. |
| `AiAgent.DomainReasons` | backend/app/utils/ai_agent.py:323-327 | As above. |
| `AiAgent.GoalReasons` | backend/app/utils/ai_agent.py:386-388 | As above. |
| `AiAgent.ComponentReasons` | backend/app/utils/ai_agent.py:310-388 | As above. |
| `AiAgent.Reasons` | backend/app/utils/ai_agent.py:392-393 | The limited-match note is present exactly when the score is below 25, and then it is last. |
| `AiAgent.MatchScore` | backend/app/utils/ai_agent.py:280-394 | The match score lies in 0..100. |
| `AiAgent.CollectPartialMatches` | backend/app/utils/ai_agent.py:300-305 | The nested loop builds exactly the partial matches. |
| `AiAgent.SkillComponent` | backend/app/utils/ai_agent.py:295-312 | The loop computes the skill points and reasons. |
| `AiAgent.ScoreInputs` | backend/app/utils/ai_agent.py:285-393 | The accumulating code computes the specified score and reasons. |
| `AiAgent.CalculateMatchScore` | backend/app/utils/ai_agent.py:280-394 | The score lies in 0..100, and the limited-match note appears exactly below 25. |
| `AiAgent.ScoreLowerBounds` | backend/app/utils/ai_agent.py:341-373 | Experience fit, budget fit and verification give at least 40 together. One exact skill match gives at least 12. |
| `AiAgentRoutes.PendingFollowUp` | backend/app/routes/ai_agent_routes.py:48-50 | The previous answer is parsed only for a non-empty message after step 0. The follow-up is the previous step's. |
| `AiAgentRoutes.ChatTurn` | backend/app/routes/ai_agent_routes.py:29-72 | Only mentees may chat (403). A follow-up is returned exactly when one applies, and only after steps 2, 3 or 5. Otherwise the current step's question is asked, or the conversation is complete at step 12 and beyond. |
| `AiAgentRoutes.ChatWalksTheFlow` | backend/app/routes/ai_agent_routes.py:59-72 | With empty messages the turns ask the twelve questions in order, then complete. |
| `AiAgentRoutes.Fields` | backend/app/models/mentee_intake.py:18-36 | An intake has fourteen answer columns. |
| `AiAgentRoutes.Requested` | backend/app/routes/ai_agent_routes.py:93 | A request gives one optional value per column. |
| `AiAgentRoutes.FieldsDetermine` | backend/app/models/mentee_intake.py:16-36 | An intake is determined by its owner and its columns. |
| `AiAgentRoutes.NewIntake` | backend/app/routes/ai_agent_routes.py:100-103 | A new intake takes every given value and the column default otherwise. |
| `AiAgentRoutes.WithField` | backend/app/routes/ai_agent_routes.py:94 | Setting one column changes only that column. |
| `AiAgentRoutes.ApplyIntake` | backend/app/routes/ai_agent_routes.py:92-95 | Only the columns the request sets change. |
| `AiAgentRoutes.SetGivenFields` | backend/app/routes/ai_agent_routes.py:93-94 | The setattr loop applies exactly the given columns. |
| `AiAgentRoutes.ApplyIntakeIdempotent` | backend/app/routes/ai_agent_routes.py:88-108 | Saving the same intake twice is the same as saving it once. |
| `AiAgentRoutes.Saved` | backend/app/routes/ai_agent_routes.py:88-108 | The saved intake belongs to the caller. |
| `AiAgentRoutes.Upserted` | backend/app/routes/ai_agent_routes.py:88-108 | The caller's intake is replaced in place, or appended when missing. Other users' intakes are unchanged. |
| `AiAgentRoutes.UpsertKeepsOnePerUser` | backend/app/routes/ai_agent_routes.py:88-108 | Saving keeps at most one intake per user. |
| `AiAgentRoutes.UpsertIdempotent` | backend/app/routes/ai_agent_routes.py:88-108 | Saving the same request twice gives the same table as once. |
| `AiAgentRoutes.CreateOrUpdateIntake` | backend/app/routes/ai_agent_routes.py:75-108 | Only mentees may save (403). The reply is the saved intake and the table is the upsert. |
| `AiAgentRoutes.Shown` | backend/app/routes/ai_agent_routes.py:167-179 | A match row shows the mentor's id, score and reasons, with "General" and "Various" for missing domains and skills. |
| `AiAgentRoutes.MatchOf` | backend/app/routes/ai_agent_routes.py:164 | A mentor's row carries their computed match score. |
| `AiAgentRoutes.AllMatches` | backend/app/routes/ai_agent_routes.py:163-164 | Every mentor is scored. |
| `AiAgentRoutes.AllMatchesItem` | backend/app/routes/ai_agent_routes.py:163-164 | The k-th row is the k-th mentor's. |
| `AiAgentRoutes.Ranked` | backend/app/routes/ai_agent_routes.py:166-201 | Every returned match scores at least min_score and comes from the scored rows, in descending score order. Its length is that of the Python slice of the qualifying rows: the limit or all of them for a non-negative limit, that many fewer for a negative one. No qualifying match left out scores higher than a returned one. With a limit of at least the number of mentors, every qualifying match is returned. |
| `AiAgentRoutes.RankedIsTop` | backend/app/routes/ai_agent_routes.py:181-201 | A prefix of the sorted qualifying matches leaves out none that scores higher than one it keeps. |
| `AiAgentRoutes.RankedTiesInOrder` | backend/app/routes/ai_agent_routes.py:181 | The returned matches of any one qualifying score are the first matches of that score, in mentor order. |
| `AiAgentRoutes.RankedFacts` | backend/app/routes/ai_agent_routes.py:166-201 | The filter, stable sort and slice give members of the scored rows that clear the minimum, in descending order, and every qualifying row when the limit does not cut. |
| `AiAgentRoutes.TakeOfSorted` | backend/app/routes/ai_agent_routes.py:201 | Slicing a sorted list keeps it sorted and keeps only its members. |
| `AiAgentRoutes.RankedRows` | backend/app/routes/ai_agent_routes.py:163-201 | Every returned match is the row of one of the mentors. |
| `AiAgentRoutes.HasMatchAppend` | backend/app/routes/ai_agent_routes.py:184-197 | After an insert, a pair is recorded exactly when it was before or is the new row's. |
| `AiAgentRoutes.Recorded` | backend/app/routes/ai_agent_routes.py:183-197 | Recording only appends rows for the mentee, at most one per returned match. |
| `AiAgentRoutes.RecordedPairs` | backend/app/routes/ai_agent_routes.py:183-197 | Afterwards every returned mentor is recorded for the mentee. |
| `AiAgentRoutes.RecordedUnique` | backend/app/routes/ai_agent_routes.py:184-197 | A row is inserted only for a new pair, so pairs stay unique. |
| `AiAgentRoutes.RecordedAgain` | backend/app/routes/ai_agent_routes.py:183-197 | Recording the same matches twice adds nothing the second time. |
| `AiAgentRoutes.RecordedPaired` | backend/app/routes/ai_agent_routes.py:189 | When every pair is already recorded, nothing is inserted. |
| `AiAgentRoutes.CollectCandidates` | backend/app/routes/ai_agent_routes.py:162-179 | The loop keeps exactly the rows scoring at least min_score, in mentor order. |
| `AiAgentRoutes.KeepStep` | backend/app/routes/ai_agent_routes.py:166-167 | One loop step appends the row exactly when it qualifies. |
| `AiAgentRoutes.MatchGuard` | backend/app/routes/ai_agent_routes.py:138-160 | Only mentees (403). It needs an intake of the caller and at least one mentor, otherwise 404. |
| `AiAgentRoutes.GetMentorMatches` | backend/app/routes/ai_agent_routes.py:130-201 | A refusal changes nothing. Otherwise the reply is the ranked list and the match table records it. |
| `AiAgentRoutes.RankAndRecord` | backend/app/routes/ai_agent_routes.py:162-199 | The loops compute the ranked list and record it. |
| `AiAgentRoutes.RecordMatches` | backend/app/routes/ai_agent_routes.py:183-197 | The insert loop records exactly the new pairs. |
| `Sitemap.EscapeXmlChain` | frontend/scripts/generate-sitemap.mjs:11-18 | Text without any of the five markup characters passes unchanged. |
| `Sitemap.EscapeChar` | frontend/scripts/generate-sitemap.mjs:11-18 | An escaped character holds none of `<`, `>`, `"` and `'`. Any other character than the five stays itself. |
| `Sitemap.EscapeXml` | frontend/scripts/generate-sitemap.mjs:11-18 | Escaped text contains none of `<`, `>`, `"` and `'`, and is never shorter than the text. |
| `Sitemap.ReplaceAbsent` | frontend/scripts/generate-sitemap.mjs:13-17 | Replacing a character that does not occur changes nothing. |
| `Sitemap.ReplaceAllAppend` | frontend/scripts/generate-sitemap.mjs:13-17 | Global replacement distributes over concatenation. |
| `Sitemap.ChainAppend` | frontend/scripts/generate-sitemap.mjs:11-18 | The chain of replacements distributes over concatenation. |
| `Sitemap.ReplaceOne` | frontend/scripts/generate-sitemap.mjs:13-17 | Replacement on one character. |
| `Sitemap.LaterStepsKeep` | frontend/scripts/generate-sitemap.mjs:14-17 | Text free of markup characters passes the later replacements unchanged. |
| `Sitemap.ChainChar` | frontend/scripts/generate-sitemap.mjs:11-18 | On one character, the chain gives that character's entity. |
| `Sitemap.ChainIsPerChar` | frontend/scripts/generate-sitemap.mjs:11-18 | Replacing `&` first, then the other four, equals escaping character by character. |
| `Sitemap.Unescape` | frontend/scripts/generate-sitemap.mjs:11-18 | Decoding the five entities of section 4.6 of XML 1.0 never lengthens text. |
| `Sitemap.DiffersAt` | frontend/scripts/generate-sitemap.mjs:11-18 | Text that differs from a prefix at some position does not start with it. |
| `Sitemap.UnescapeChar` | frontend/scripts/generate-sitemap.mjs:11-18 | Decoding undoes one escaped character. |
| `Sitemap.UnescapeEscape` | frontend/scripts/generate-sitemap.mjs:11-18 | Decoding the five predefined entities recovers the original text. |
| `Sitemap.AmpersandsStartEntities` | frontend/scripts/generate-sitemap.mjs:11-18 | Every `&` in escaped text starts one of the five entities. |
| `Sitemap.Present` | frontend/scripts/generate-sitemap.mjs:28 | Dropping falsy lines never adds lines. |
| `Sitemap.PresentCons` | frontend/scripts/generate-sitemap.mjs:28 | A line is kept exactly when it is present and non-empty. |
| `Sitemap.PresentSix` | frontend/scripts/generate-sitemap.mjs:21-28 | The six entry lines are filtered one by one. |
| `Sitemap.Kept` | frontend/scripts/generate-sitemap.mjs:24-26 | An optional element is kept exactly when its value is non-empty. |
| `Sitemap.EntryLinesKept` | frontend/scripts/generate-sitemap.mjs:20-29 | An entry is the open tag, the loc line, each optional line whose value is non-empty, and the close tag. |
| `Sitemap.KeptSix` | frontend/scripts/generate-sitemap.mjs:21-28 | Filtering keeps the fixed lines and the present optional ones, in order. |
| `Sitemap.UrlEntry` | frontend/scripts/generate-sitemap.mjs:20-29 | An entry begins with `  <url>` and the escaped loc line, and ends with `  </url>`. |
| `Sitemap.OptionalElementsOmittedWhenEmpty` | frontend/scripts/generate-sitemap.mjs:24-28 | The entry has three lines plus one for each non-empty option. |
| `Sitemap.FixedUrls` | frontend/scripts/generate-sitemap.mjs:40-43 | There are four fixed pages. |
| `Sitemap.PostUrlsOfSlugged` | frontend/scripts/generate-sitemap.mjs:45-54 | There is one entry per post with a slug, in posts order. |
| `Sitemap.SitemapPostPages` | frontend/scripts/generate-sitemap.mjs:45-54 | Each post entry is that post's page, with its lastmod, date or today. |
| `Sitemap.SitemapUrls` | frontend/scripts/generate-sitemap.mjs:39-54 | The URL list is the four fixed pages followed by one per slugged post. |
| `Sitemap.PushPostUrls` | frontend/scripts/generate-sitemap.mjs:45-54 | The loop appends exactly the slugged posts' entries. |
| `Sitemap.SitemapXml` | frontend/scripts/generate-sitemap.mjs:56-62 | The document starts with the XML declaration and the urlset tag, and ends with the closing tag and a newline. |
| `MentorList.SplitList` | frontend/src/pages/MentorList.jsx:6-11 | Every tag is non-empty, trimmed and free of commas. |
| `MentorList.TagsClean` | frontend/src/pages/MentorList.jsx:7-10 | Stripping comma-free pieces and dropping the empty ones leaves clean tags. |
| `MentorList.SplitListEmpty` | frontend/src/pages/MentorList.jsx:7 | A missing or empty field has no tags. |
| `MentorList.SplitListJoin` | frontend/src/pages/MentorList.jsx:7-10 | Clean tags joined with commas split back into the same tags, in order. |
| `MentorList.StripKeepsChars` | frontend/src/pages/MentorList.jsx:9 | Trimming adds no character. |
| `MentorList.StripAllTrimmed` | frontend/src/pages/MentorList.jsx:9 | Trimming trimmed pieces changes nothing. |
| `MentorList.FilteredMentors` | frontend/src/pages/MentorList.jsx:74-78 | Exactly the mentors whose name, skills or domains contain the filter, ignoring case, are shown. |
| `MentorList.SearchIgnoresCase` | frontend/src/pages/MentorList.jsx:74-78 | Searching ignores the case of the filter. |
| `MentorList.EmptyFilterShowsCardsWithFields` | frontend/src/pages/MentorList.jsx:74-78 | An empty filter shows exactly the mentors with at least one of the three fields. |
| `MentorList.FieldNarrows` | frontend/src/pages/MentorList.jsx:75-77 | A field that matches a search text also matches every shorter text contained in it, ignoring case. |
| `MentorList.TypingNarrows` | frontend/src/pages/MentorList.jsx:74-78 | Typing more only narrows the list. |
| `BlogStore.LexLeTotal` | frontend/src/blog/blogStore.js:15 | Any two dates are ordered one way or the other. |
| `BlogStore.LexLeRefl` | frontend/src/blog/blogStore.js:15 | Every date is ordered with itself. |
| `BlogStore.LexLeTrans` | frontend/src/blog/blogStore.js:15 | Date order is transitive. |
| `BlogStore.InsertByDate` | frontend/src/blog/blogStore.js:15 | Insertion keeps posts newest first and adds exactly the one post. |
| `BlogStore.BoundedByHead` | frontend/src/blog/blogStore.js:15 | Insertion keeps posts no later than the head. |
| `BlogStore.PrependNewest` | frontend/src/blog/blogStore.js:15 | A post no earlier than all others may go first. |
| `BlogStore.GetAllPosts` | frontend/src/blog/blogStore.js:14-16 | The list is a permutation of the metadata, latest date first. |
| `BlogStore.AllPostsMembers` | frontend/src/blog/blogStore.js:14-16 | The listed posts are exactly the metadata records. |
| `BlogStore.SortedPostsUnchanged` | frontend/src/blog/blogStore.js:15 | Already sorted posts are listed as they are. |
| `BlogStore.InsertByDateStable` | frontend/src/blog/blogStore.js:15 | Insertion keeps the order of posts with the same date. |
| `BlogStore.AllPostsStable` | frontend/src/blog/blogStore.js:15 | Posts with the same date keep their metadata order. |
| `BlogStore.GetMarkdownBySlug` | frontend/src/blog/blogStore.js:9-12 | The content of the first module whose path ends with `/<slug>.md`, or none exactly when no path does. |
| `BlogStore.GetPostBySlug` | frontend/src/blog/blogStore.js:18-26 | None exactly when no metadata has the slug or its markdown is missing or empty. Otherwise the first record with that slug, with the markdown. |
| `BlogStore.PostIsListed` | frontend/src/blog/blogStore.js:14-26 | A post page shows a post listed on the index. |
| `Dashboards.Upcoming` | frontend/src/pages/MenteeDashboard.jsx:32 | The upcoming list holds exactly the bookings that are upcoming. |
| `Dashboards.Past` | frontend/src/pages/MenteeDashboard.jsx:33 | The past list holds exactly the bookings that are past. |
| `Dashboards.OneListEach` | frontend/src/pages/MenteeDashboard.jsx:32-33 | A readable start puts a booking in exactly one list. An unreadable one puts it in the past list only when cancelled, and never in upcoming. |
| `Dashboards.PartitionCounts` | frontend/src/pages/MentorDashboard.jsx:32-33 | The two lists plus the unplaced bookings account for every booking. |
| `Dashboards.SumAppend` | frontend/src/pages/MenteeDashboard.jsx:41 | A sum over two lists is the sum of their sums. |
| `Dashboards.SumFilterLe` | frontend/src/pages/MentorDashboard.jsx:44-46 | With no negative terms, a filtered sum is between 0 and the whole sum. |
| `Dashboards.CompletedCount` | frontend/src/pages/MenteeDashboard.jsx:113 | Completed sessions are at most the past sessions. Its value is fixed by `CompletedCountAppend`. |
| `Dashboards.TotalSpentAppend` | frontend/src/pages/MenteeDashboard.jsx:39-41 | One more booking adds its amount (0 when missing) if and only if it is paid. |
| `Dashboards.FilterKeepsNonNegative` | frontend/src/pages/MentorDashboard.jsx:39-46 | Filtering keeps a list's values non-negative. |
| `Dashboards.TotalSpent` | frontend/src/pages/MenteeDashboard.jsx:39-41 | With no negative amounts, the total spent is not negative. |
| `Dashboards.TotalEarnings` | frontend/src/pages/MentorDashboard.jsx:39-40 | With no negative payouts, total earnings are not negative. Its value is fixed by `TotalEarningsAppend`. |
| `Dashboards.MonthEarnings` | frontend/src/pages/MentorDashboard.jsx:43-46 | With no negative payouts, this month's earnings lie between 0 and the total. Its value is fixed by `MonthEarningsAppend`. |
| `Dashboards.PendingEarnings` | frontend/src/pages/MentorDashboard.jsx:49 | With no negative payouts, pending earnings are not negative. Its value is fixed by `PendingEarningsAppend`. |
| `Dashboards.SumOneMore` | frontend/src/pages/MentorDashboard.jsx:40-49 | One more booking adds exactly its own term to a sum. |
| `Dashboards.CompletedSessionsAppend` | frontend/src/pages/MentorDashboard.jsx:39 | One more booking joins the completed sessions, at the end, if and only if it is past and confirmed. |
| `Dashboards.CompletedCountAppend` | frontend/src/pages/MenteeDashboard.jsx:113 | One more booking raises the completed count by one if it is past and confirmed, and by nothing otherwise. |
| `Dashboards.TotalEarningsAppend` | frontend/src/pages/MentorDashboard.jsx:39-40 | One more booking adds its payout (0 when missing) to total earnings if and only if it is past and confirmed. |
| `Dashboards.MonthEarningsAppend` | frontend/src/pages/MentorDashboard.jsx:43-46 | One more booking adds its payout to this month's earnings if and only if it is past, confirmed and started on or after the first of the month. |
| `Dashboards.PendingEarningsAppend` | frontend/src/pages/MentorDashboard.jsx:49 | One more booking adds its payout to pending earnings if and only if it is upcoming. |
| `Dashboards.EarnedOrPending` | frontend/src/pages/MentorDashboard.jsx:39-49 | A confirmed booking is pending before its start and earned after it, never both. |
| `Sorting.Insert` | backend/app/routes/ai_agent_routes.py:181 | Insertion keeps descending key order and adds exactly the one item. |
| `Sorting.SortDesc` | backend/app/routes/ai_agent_routes.py:181 | The sort is a permutation in descending key order. |
| `Sorting.SortDescMembers` | backend/app/routes/ai_agent_routes.py:181 | Sorting keeps exactly the same members. |
| `Sorting.InsertStable` | backend/app/routes/ai_agent_routes.py:181 | Insertion keeps the order of equal keys, the inserted item first among them. |
| `Sorting.SortDescStable` | backend/app/routes/ai_agent_routes.py:181 | The sort is stable: the items of each key keep their order. |
| `Sorting.PrefixOfSortedIsTop` | backend/app/routes/ai_agent_routes.py:181-201 | A prefix of the sorted list leaves out no item with a larger key than one it keeps. |

## Left out

- Card-processor calls are out. Checkout, intent creation, intent retrieval and webhook signature checks are parameters that answer or fail, and an event is an already-verified record.
- The ORM, sessions, commits and rollbacks are out. Tables are sequences in one `Database` object, and each handler commits once.
- Timestamps from the clock (created, confirmed, completed and cancelled times, updated_at) are left out. A message's creation time is a parameter, and the feedback completion time is a flag.
- Money in floats is replaced by whole pence. Commissions round half-up to the penny; Python's `round` on binary floats is not reproduced. The session price (`BookingRoutes.SessionAmount`) is floored to the penny, as `int()` does for a non-negative amount.
- The average rating is a float and is left out. The summary keeps the sum and the count instead.
- Authentication (JWT, passwords, role dependencies) is out. The caller's id and role are inputs.
- Email delivery, React rendering, fetch and local storage are out. So are the service worker, the migration and simulation scripts, and the older back end.
- The meeting-link, session-summary and consent endpoints are not part of this model: no back-end file implements them.
- The refund policy is left out; it exists only as text.
- File reading and writing in the sitemap script are out. Today's date is a parameter.
- The bundler's glob is a list of path and content pairs in glob order.
- `localeCompare` is modelled as code-unit order.
- Lower-casing, title-casing and whitespace cover ASCII only. Whitespace is space, tab, line feed, carriage return, vertical tab and form feed. Python's `str.strip` also strips the separators `\x1c` to `\x1f`, so a message made only of them is refused as blank by the source (400) but not by the model.
- Posts entries that are null are not modelled. Each entry is a record whose fields may be absent.
- Dashboard amounts that are not numbers (NaN) are not modelled.
- The dashboards read fields the back end does not send. They are modelled as the client reads them.
- `PaymentsRoutes.CreditMentor`: the user model declares no balance column, so the credit as run raises an error that the handler swallows (see Findings). The model gives the user a balance field and credits it as intended; `FinalizeAsWritten` keeps the behaviour as run. The same swallowed credit in the confirmation path (backend/app/routes/payments_routes.py:159-166) is modelled only in its intended form, by `ConfirmOutcome`.
- `ChatRoutes.ListMessages`: the limit is a natural number. A negative limit passed to the database query is not modelled, because its effect depends on the database engine.
- `AiAgent.Answer`: its contract states which keys are present. The stored values of keyword and skill questions are stated by `KeywordAnswerStored` and `SkillAnswerStored`.
- `AiAgent.MatchScore`: the metadata dictionary of the score function is not modelled.
- The intake's `conversation_summary`, `matching_signals` and `conversation_log` request fields (backend/app/schemas/intake_schema.py:46-48) are not modelled: they are free-form text, a dictionary and a list that no modelled rule reads.
- `AiAgentRoutes.ApplyIntake` and `AiAgentRoutes.NewIntake`: a request field sent as an explicit JSON null is stored as null, by the setattr loop on update and by the constructor on create. The model treats every given value as a value and does not represent a stored null.
- `Models.MentorMatch`: the stored row carries the mentee, mentor and score. Its `match_reasons` list and empty `match_metadata` are not modelled, because no modelled rule reads them back.
- `PaymentsRoutes.CommissionPercent`: the commission rate is fixed at 20%, the default. Reading PLATFORM_COMMISSION_PERCENT from the environment is not modelled.
- `BookingRoutes.GetMentorAvailableSlots`: the date range is not checked against a maximum, because the source does not check one.
- The payment history endpoints (`/history`, `/my-payments`, `/test-commission`) and the read-only list endpoints for requests, mentorships and feedback are not modelled.

## Findings

| source | as written | input that shows it | evidently intended | confidence | as-written member | corrected member |
|---|---|---|---|---|---|---|
| backend/app/routes/chat_routes.py:106 | Conversations are sorted by `last_message_at or 0`. That compares a time with the integer 0 when some conversations have messages and some do not. | A user with one conversation holding a message and one without: the comparison fails and the request gives a server error. | Newest conversation first, conversations without messages last. | not executed | `ChatRoutes.MixedConversationsFail` | `ChatRoutes.OrderAgreesWhenDefined` |
| backend/app/routes/payments_routes.py:218-228 | The mentor's credit reads and writes `mentor.balance`, which the user model does not declare. The resulting error is caught and ignored. | The first webhook for a pending 1000-pence payment whose booking's mentor has a user row: the payment succeeds with an 800 payout, and the mentor's balance does not change. | The mentor's balance rises by the payout. | not executed | `PaymentsRoutes.AsWrittenCreditsNobody` | `PaymentsRoutes.Finalize` |
| backend/app/routes/booking_routes.py:56-88 | The end time wraps at midnight, and the conflict check compares the wrapped times on the request's date only. | A 23:00 request for 120 minutes ends at 01:00, so it does not conflict with a confirmed booking from 23:30 to 23:45 on the same date. | Sessions that share minutes conflict. | not executed | `BookingRoutes.MidnightWrapHidesOverlap` | `BookingRoutes.SpanConflictCatchesWrap` |

=== FILE: ai_agent.dfy ===
/** The mentee intake agent: a fixed twelve-step question flow, keyword and
    skill extraction from free-text answers, contextual follow-up questions,
    and the score that ranks a mentor profile against a completed intake.
    Question prose and reason texts are kept structurally (the question type,
    a `Reason` constructor) rather than as display strings. */
module AiAgent {
  import opened Common
  import opened Models

  // =====================================================================
  // The conversation flow
  // =====================================================================

  /** A keyword table: insertion-ordered pairs of (keyword, extracted value). */
  type KeywordMap = seq<(string, string)>

  /** How the answer to a question is turned into structured data. */
  datatype Extraction = ByKeywords(keywords: KeywordMap) | BySkills | FreeText

  datatype Question = Question(qtype: string, extraction: Extraction)

  const CareerStageKeywords: KeywordMap := [
    ("student", "student"), ("graduate", "student"), ("college", "student"), ("university", "student"),
    ("early", "early_career"), ("junior", "early_career"), ("new", "early_career"), ("0-3", "early_career"),
    ("mid", "mid_level"), ("intermediate", "mid_level"), ("4-8", "mid_level"),
    ("senior", "senior"), ("experienced", "senior"), ("8+", "senior"),
    ("change", "career_change"), ("transition", "career_change"), ("switch", "career_change")]

  const PrimaryGoalKeywords: KeywordMap := [
    ("skill", "skill_development"), ("learn", "skill_development"), ("technology", "skill_development"),
    ("develop", "skill_development"),
    ("transition", "career_transition"), ("change", "career_transition"), ("switch", "career_transition"),
    ("new role", "career_transition"),
    ("leadership", "leadership"), ("manage", "leadership"), ("team", "leadership"),
    ("business", "entrepreneurship"), ("startup", "entrepreneurship"), ("entrepreneur", "entrepreneurship"),
    ("guidance", "career_guidance"), ("direction", "career_guidance")]

  const IndustryKeywords: KeywordMap := [
    ("software", "Software Engineering"), ("tech", "Technology"), ("engineer", "Engineering"),
    ("marketing", "Marketing"), ("growth", "Growth/Marketing"), ("finance", "Finance"),
    ("consulting", "Consulting"), ("design", "Design"), ("creative", "Creative"),
    ("healthcare", "Healthcare"), ("biotech", "Biotech"), ("product", "Product Management"),
    ("entrepreneur", "Entrepreneurship"), ("startup", "Startups"), ("business", "Business")]

  const TimeCommitmentKeywords: KeywordMap := [
    ("1", "1hr/week"), ("one", "1hr/week"), ("2", "2-3hrs/week"), ("3", "2-3hrs/week"),
    ("two", "2-3hrs/week"), ("three", "2-3hrs/week"), ("4", "4+hrs/week"), ("four", "4+hrs/week"),
    ("flexible", "flexible"), ("varies", "flexible")]

  const BudgetKeywords: KeywordMap := [
    ("free", "free"), ("volunteer", "free"), ("0", "0-50"), ("50", "50-100"), ("100", "100+")]

  const TimelineKeywords: KeywordMap := [
    ("3", "3_months"), ("three", "3_months"), ("6", "6_months"), ("six", "6_months"),
    ("12", "12_months"), ("year", "12_months")]

  const MentorStyleKeywords: KeywordMap := [
    ("hands", "hands_on"), ("coach", "hands_on"), ("task", "hands_on"),
    ("advisor", "advisory"), ("strategic", "advisory"), ("guidance", "advisory"),
    ("accountability", "accountability"), ("partner", "accountability"), ("project", "project_based")]

  const CommunicationKeywords: KeywordMap := [
    ("video", "video"), ("zoom", "video"), ("call", "video"),
    ("text", "chat"), ("chat", "chat"), ("slack", "chat"),
    ("both", "both"), ("mix", "both")]

  /** The twelve questions, in the order they are asked. */
  const Flow: seq<Question> := [
    Question("welcome", ByKeywords(CareerStageKeywords)),
    Question("primary_goal", ByKeywords(PrimaryGoalKeywords)),
    Question("specific_goal", FreeText),
    Question("current_challenges", FreeText),
    Question("desired_skills", BySkills),
    Question("current_skills", FreeText),
    Question("industry", ByKeywords(IndustryKeywords)),
    Question("time_commitment", ByKeywords(TimeCommitmentKeywords)),
    Question("budget", ByKeywords(BudgetKeywords)),
    Question("timeline", ByKeywords(TimelineKeywords)),
    Question("mentor_style", ByKeywords(MentorStyleKeywords)),
    Question("communication", ByKeywords(CommunicationKeywords))]

  // =====================================================================
  // extract_keywords
  // =====================================================================

  /** The value of the first keyword, in table order, that occurs in the
      lower-cased text; None when no keyword occurs. */
  function ExtractKeywords(text: string, keywords: KeywordMap): (r: Option<string>)
    ensures r.None? <==> forall i :: 0 <= i < |keywords| ==> !Contains(Lower(text), keywords[i].0)
    ensures r.Some? ==> exists i :: (0 <= i < |keywords| && Contains(Lower(text), keywords[i].0)
                                     && r.value == keywords[i].1
                                     && forall j :: 0 <= j < i ==> !Contains(Lower(text), keywords[j].0))
  {
    var lower := Lower(text);
    match FirstIndex(keywords, (kv: (string, string)) => Contains(lower, kv.0))
    case None => None
    case Some(i) =>
      assert Contains(lower, keywords[i].0);
      Some(keywords[i].1)
  }

  // =====================================================================
  // extract_skills
  // =====================================================================

  /** Characters of a regular-expression word (`\w`), ASCII only. */
  predicate IsWordChar(c: char)
  {
    IsLetter(c) || IsDigit(c) || c == '_'
  }

  /** The filler words removed, as whole words in any case, before splitting. */
  const FillerWords: seq<string> := ["and", "or", "also", "want", "to", "learn", "develop", "improve"]

  /** Whether filler word `w` matches at position `i`: the text there equals
      `w` ignoring case and is a whole word. */
  predicate WholeWordAt(s: string, i: nat, w: string)
    requires i <= |s|
  {
    && (i == 0 || !IsWordChar(s[i - 1]))
    && i + |w| <= |s|
    && Lower(s[i..i + |w|]) == w
    && (i + |w| == |s| || !IsWordChar(s[i + |w|]))
  }

  /** Length of the filler word that matches at `i`, trying them in order. */
  function FillerAt(s: string, i: nat): (r: Option<nat>)
    requires i <= |s|
    ensures r.Some? ==> 0 < r.value && i + r.value <= |s|
    ensures r.None? <==> forall k :: 0 <= k < |FillerWords| ==> !WholeWordAt(s, i, FillerWords[k])
  {
    match FirstIndex(FillerWords, (w: string) => WholeWordAt(s, i, w))
    case None => None
    case Some(k) => Some(|FillerWords[k]|)
  }

  predicate AllLowerLetters(w: string)
  {
    forall k :: 0 <= k < |w| ==> IsLowerLetter(w[k])
  }

  lemma FillerWordsLower()
    ensures forall j :: 0 <= j < |FillerWords| ==> AllLowerLetters(FillerWords[j])
  {
    assert AllLowerLetters("and") && AllLowerLetters("or") && AllLowerLetters("also") && AllLowerLetters("want");
    assert AllLowerLetters("to") && AllLowerLetters("learn") && AllLowerLetters("develop") && AllLowerLetters("improve");
  }

  /** A matched filler consists of letters only. */
  lemma FillerIsLetters(s: string, i: nat)
    requires i <= |s| && FillerAt(s, i).Some?
    ensures forall k :: i <= k < i + FillerAt(s, i).value ==> IsLetter(s[k])
  {
    var j := FirstIndex(FillerWords, (w: string) => WholeWordAt(s, i, w)).value;
    var w := FillerWords[j];
    FillerWordsLower();
    assert AllLowerLetters(w);
    var t := s[i..i + |w|];
    assert Lower(t) == w;
    forall k | i <= k < i + |w| ensures IsLetter(s[k]) {
      assert t[k - i] == s[k];
      assert IsLowerLetter(LowerChar(t[k - i]));
    }
  }

  /** Cutting a text in two splits its multiset of characters; a piece of
      letters holds no other character. */
  lemma CutLetters(s: string, i: nat, n: nat)
    requires i + n <= |s|
    requires forall k :: i <= k < i + n ==> IsLetter(s[k])
    ensures multiset(s[i..]) == multiset(s[i..i + n]) + multiset(s[i + n..])
    ensures forall c :: !IsLetter(c) ==> multiset(s[i..i + n])[c] == 0
  {
    assert s[i..] == s[i..i + n] + s[i + n..];
    assert forall c :: !IsLetter(c) ==> c !in s[i..i + n];
  }

  /** The text from position `i` on with every filler word deleted, scanning
      left to right as a regular-expression substitution does. Only letters
      of matched fillers go: every other character keeps its number of
      occurrences, and nothing is added. */
  function RemoveFillersFrom(s: string, i: nat): (r: string)
    requires i <= |s|
    ensures |r| <= |s| - i
    ensures multiset(r) <= multiset(s[i..])
    ensures forall c :: !IsLetter(c) ==> multiset(r)[c] == multiset(s[i..])[c]
    ensures (forall j :: i <= j < |s| ==> FillerAt(s, j).None?) ==> r == s[i..]
    decreases |s| - i
  {
    if i == |s| then []
    else
      match FillerAt(s, i)
      case Some(n) =>
        FillerIsLetters(s, i);
        CutLetters(s, i, n);
        RemoveFillersFrom(s, i + n)
      case None =>
        var rest := RemoveFillersFrom(s, i + 1);
        KeptCharStep(s, i, rest);
        [s[i]] + rest
  }

  /** Keeping the character at `i` in front of the cleaned remainder keeps
      the facts `RemoveFillersFrom` states about the remainder. */
  lemma KeptCharStep(s: string, i: nat, rest: string)
    requires i < |s|
    requires |rest| <= |s| - (i + 1) && multiset(rest) <= multiset(s[i + 1..])
    requires forall c :: !IsLetter(c) ==> multiset(rest)[c] == multiset(s[i + 1..])[c]
    ensures |[s[i]] + rest| <= |s| - i && multiset([s[i]] + rest) <= multiset(s[i..])
    ensures forall c :: !IsLetter(c) ==> multiset([s[i]] + rest)[c] == multiset(s[i..])[c]
    ensures rest == s[i + 1..] ==> [s[i]] + rest == s[i..]
  {
    assert s[i..] == [s[i]] + s[i + 1..];
    assert multiset([s[i]] + rest) == multiset{s[i]} + multiset(rest);
    assert multiset(s[i..]) == multiset{s[i]} + multiset(s[i + 1..]);
  }

  /** A filler matched at `i` is deleted: the text from `i` on becomes the
      text after the filler. A position where no filler matches keeps its
      character. */
  lemma FillerDeletedAt(s: string, i: nat)
    requires i < |s|
    ensures FillerAt(s, i).Some? ==> RemoveFillersFrom(s, i) == RemoveFillersFrom(s, i + FillerAt(s, i).value)
    ensures FillerAt(s, i).None? ==> RemoveFillersFrom(s, i) == [s[i]] + RemoveFillersFrom(s, i + 1)
  {
  }

  /** The separators of the skill list: comma, newline, bullet and hyphen. */
  predicate IsSkillSeparator(c: char)
  {
    c == ',' || c == '\n' || c == '\U{2022}' || c == '-'
  }

  predicate SeparatorFree(s: string)
  {
    forall k :: 0 <= k < |s| ==> !IsSkillSeparator(s[k])
  }

  /** The pieces put back together, each separator between two pieces. */
  function Interleave(pieces: seq<string>, seps: seq<char>): string
    requires |pieces| == |seps| + 1
  {
    if seps == [] then pieces[0] else pieces[0] + [seps[0]] + Interleave(pieces[1..], seps[1..])
  }

  /** A text without separators has none to filter out. */
  lemma {:induction false} NoSeparators(s: string)
    requires SeparatorFree(s)
    ensures Filter(s, IsSkillSeparator) == []
    decreases |s|
  {
    if s != [] {
      assert SeparatorFree(s[1..]);
      NoSeparators(s[1..]);
    }
  }

  /** Splitting at every separator: k separators give k + 1 pieces, and
      joining them back with the separators found gives the text. */
  function SplitSkills(s: string): (r: seq<string>)
    ensures |r| == |Filter(s, IsSkillSeparator)| + 1
    ensures forall k :: 0 <= k < |r| ==> SeparatorFree(r[k])
    ensures Interleave(r, Filter(s, IsSkillSeparator)) == s
    ensures SeparatorFree(s) ==> r == [s]
    decreases |s|
  {
    match FirstIndex(s, IsSkillSeparator)
    case None =>
      NoSeparators(s);
      [s]
    case Some(i) =>
      var rest := SplitSkills(s[i + 1..]);
      SeparatorsAfterFirst(s, i);
      JoinAtFirst(s, i, rest);
      [s[..i]] + rest
  }

  /** One step of the round trip: the piece before the first separator,
      that separator, and the pieces of the remainder join back to `s`. */
  lemma JoinAtFirst(s: string, i: nat, rest: seq<string>)
    requires i < |s| && IsSkillSeparator(s[i])
    requires Filter(s, IsSkillSeparator) == [s[i]] + Filter(s[i + 1..], IsSkillSeparator)
    requires |rest| == |Filter(s[i + 1..], IsSkillSeparator)| + 1
    requires Interleave(rest, Filter(s[i + 1..], IsSkillSeparator)) == s[i + 1..]
    ensures Interleave([s[..i]] + rest, Filter(s, IsSkillSeparator)) == s
  {
    InterleaveCons(s[..i], rest, s[i], Filter(s[i + 1..], IsSkillSeparator));
    assert s == s[..i] + [s[i]] + s[i + 1..];
  }

  lemma InterleaveCons(piece: string, rest: seq<string>, sep: char, seps: seq<char>)
    requires |rest| == |seps| + 1
    ensures Interleave([piece] + rest, [sep] + seps) == piece + [sep] + Interleave(rest, seps)
  {
    assert ([piece] + rest)[1..] == rest;
    assert ([sep] + seps)[1..] == seps;
  }

  /** The separators of a text whose first separator is at `i`: that one,
      then those after it. */
  lemma {:induction false} SeparatorsAfterFirst(s: string, i: nat)
    requires i < |s| && IsSkillSeparator(s[i])
    requires forall k :: 0 <= k < i ==> !IsSkillSeparator(s[k])
    ensures Filter(s, IsSkillSeparator) == [s[i]] + Filter(s[i + 1..], IsSkillSeparator)
  {
    var a, b := s[..i], s[i + 1..];
    assert SeparatorFree(a);
    NoSeparators(a);
    assert s == a + ([s[i]] + b);
    FilterAppend(a, [s[i]] + b, IsSkillSeparator);
    FilterAppend([s[i]], b, IsSkillSeparator);
    FilterSingle(s[i], IsSkillSeparator);
  }

  /** str.title(): the first letter of each run of letters upper-case, the
      others lower-case; everything else is kept. `afterLetter` says whether
      the text is preceded by a letter. */
  function TitleFrom(s: string, afterLetter: bool): (r: string)
    ensures |r| == |s|
    ensures forall k :: 0 <= k < |s| && !IsLetter(s[k]) ==> r[k] == s[k]
    ensures forall k :: 0 <= k < |s| && IsLetter(s[k]) ==>
      r[k] == if (if k == 0 then afterLetter else IsLetter(s[k - 1])) then LowerChar(s[k]) else UpperChar(s[k])
  {
    if s == [] then []
    else
      var c := if !IsLetter(s[0]) then s[0] else if afterLetter then LowerChar(s[0]) else UpperChar(s[0]);
      var rest := TitleFrom(s[1..], IsLetter(s[0]));
      assert forall k :: 1 <= k < |s| ==> s[1..][k - 1] == s[k];
      [c] + rest
  }

  /** Each letter that starts a run of letters is upper-case and every other
      letter lower-case. */
  predicate TitleCased(s: string)
  {
    forall k :: 0 <= k < |s| && IsLetter(s[k]) ==>
      if k > 0 && IsLetter(s[k - 1]) then IsLowerLetter(s[k]) else IsUpper(s[k])
  }

  /** str.title(): a title-cased text with the same non-letters and letters
      in the same places. */
  function Title(s: string): (r: string)
    ensures |r| == |s|
    ensures forall k :: 0 <= k < |s| && !IsLetter(s[k]) ==> r[k] == s[k]
    ensures forall k :: 0 <= k < |s| && IsLetter(s[k]) ==> IsLetter(r[k])
    ensures TitleCased(r)
  {
    var r := TitleFrom(s, false);
    forall k | 0 <= k < |s| && IsLetter(s[k])
      ensures IsLetter(r[k])
      ensures if k > 0 && IsLetter(s[k - 1]) then IsLowerLetter(r[k]) else IsUpper(r[k])
    {
      CaseChanges(s[k]);
      if k > 0 && IsLetter(s[k - 1]) {
        assert r[k] == LowerChar(s[k]);
      } else {
        assert r[k] == UpperChar(s[k]);
      }
    }
    r
  }

  lemma CaseChanges(c: char)
    requires IsLetter(c)
    ensures IsLowerLetter(LowerChar(c)) && IsUpper(UpperChar(c))
  {
    if IsUpper(c) {
      assert LowerChar(c) as int == c as int + 32;
    } else {
      assert UpperChar(c) as int == c as int - 32;
    }
  }

  /** Title-casing keeps a text trimmed and free of separators. */
  lemma TitleKeeps(s: string)
    ensures Trimmed(s) ==> Trimmed(Title(s))
    ensures SeparatorFree(s) ==> SeparatorFree(Title(s))
  {
  }

  /** Stripping keeps a text free of separators. */
  lemma StripKeepsSeparatorFree(s: string)
    requires SeparatorFree(s)
    ensures SeparatorFree(Strip(s))
  {
    var i := LeadingSpace(s);
    var r := Strip(s);
    forall k | 0 <= k < |r|
      ensures !IsSkillSeparator(r[k])
    {
      assert r[k] == s[i + k];
    }
  }

  /** Each piece stripped of surrounding whitespace. */
  function StripAll(pieces: seq<string>): (r: seq<string>)
    requires forall k :: 0 <= k < |pieces| ==> SeparatorFree(pieces[k])
    ensures |r| == |pieces|
    ensures forall k :: 0 <= k < |r| ==> r[k] == Strip(pieces[k])
    ensures forall k :: 0 <= k < |r| ==> Trimmed(r[k]) && SeparatorFree(r[k])
  {
    if pieces == [] then []
    else
      var tail := pieces[1..];
      assert forall k :: 0 <= k < |tail| ==> tail[k] == pieces[k + 1];
      var rest := StripAll(tail);
      StripAllStep(pieces, rest);
      [Strip(pieces[0])] + rest
  }

  lemma StripAllStep(pieces: seq<string>, rest: seq<string>)
    requires |pieces| > 0 && SeparatorFree(pieces[0])
    requires |rest| == |pieces| - 1
    requires forall k :: 0 <= k < |rest| ==> rest[k] == Strip(pieces[k + 1])
    requires forall k :: 0 <= k < |rest| ==> Trimmed(rest[k]) && SeparatorFree(rest[k])
    ensures var r := [Strip(pieces[0])] + rest;
      && (forall k :: 0 <= k < |r| ==> r[k] == Strip(pieces[k]))
      && (forall k :: 0 <= k < |r| ==> Trimmed(r[k]) && SeparatorFree(r[k]))
  {
    StripKeepsSeparatorFree(pieces[0]);
    var r := [Strip(pieces[0])] + rest;
    assert forall k :: 1 <= k < |r| ==> r[k] == rest[k - 1];
  }

  /** `x` is the title-cased form of a stripped piece longer than two
      characters. */
  predicate SkillFrom(stripped: seq<string>, x: string)
  {
    exists p :: p in stripped && |p| > 2 && x == Title(p)
  }

  /** The stripped pieces longer than two characters, title-cased, in order. */
  function CleanSkills(stripped: seq<string>): (r: seq<string>)
    requires forall k :: 0 <= k < |stripped| ==> Trimmed(stripped[k]) && SeparatorFree(stripped[k])
    ensures forall k :: 0 <= k < |r| ==> |r[k]| > 2 && Trimmed(r[k]) && SeparatorFree(r[k]) && TitleCased(r[k])
  {
    if stripped == [] then []
    else
      var rest := CleanSkills(stripped[1..]);
      var x := stripped[0];
      if |x| > 2 then
        TitleKeeps(x);
        [Title(x)] + rest
      else rest
  }

  /** The kept skills are exactly the title-cased stripped pieces longer than
      two characters. */
  lemma {:induction false} CleanSkillsMembers(stripped: seq<string>)
    requires forall k :: 0 <= k < |stripped| ==> Trimmed(stripped[k]) && SeparatorFree(stripped[k])
    ensures forall x :: x in CleanSkills(stripped) <==> SkillFrom(stripped, x)
  {
    if stripped != [] {
      var r := CleanSkills(stripped);
      var rest := CleanSkills(stripped[1..]);
      CleanSkillsMembers(stripped[1..]);
      forall x
        ensures x in r <==> SkillFrom(stripped, x)
      {
        if SkillFrom(stripped, x) {
          var p :| p in stripped && |p| > 2 && x == Title(p);
          if p != stripped[0] {
            assert p in stripped[1..];
          }
        }
        if x in rest {
          var p :| p in stripped[1..] && |p| > 2 && x == Title(p);
          assert p in stripped;
        }
      }
    }
  }

  /** At most five skills: the first of the answer's pieces (split at the
      separators once the filler words are gone) that are longer than two
      characters once stripped, stripped and title-cased; so none is blank,
      has surrounding whitespace or holds a separator. */
  function ExtractSkills(text: string): (r: seq<string>)
    ensures |r| <= 5
    ensures forall k :: 0 <= k < |r| ==> SkillFrom(StripAll(SplitSkills(RemoveFillersFrom(text, 0))), r[k])
    ensures forall k :: 0 <= k < |r| ==> |r[k]| > 2 && Trimmed(r[k]) && SeparatorFree(r[k]) && TitleCased(r[k])
    ensures |CleanSkills(StripAll(SplitSkills(RemoveFillersFrom(text, 0))))| >= 5 ==> |r| == 5
    ensures var kept := CleanSkills(StripAll(SplitSkills(RemoveFillersFrom(text, 0))));
      r == kept[..if |kept| < 5 then |kept| else 5]
  {
    var kept := CleanSkills(StripAll(SplitSkills(RemoveFillersFrom(text, 0))));
    CleanSkillsMembers(StripAll(SplitSkills(RemoveFillersFrom(text, 0))));
    var r := PyTake(kept, 5);
    assert forall k :: 0 <= k < |r| ==> r[k] == kept[k];
    r
  }

  // =====================================================================
  // get_contextual_followup
  // =====================================================================

  /** The three follow-up questions. */
  datatype FollowUp = FirstJobOrExplore | TellMeMore | OtherSkills

  /** A follow-up is asked after step 1 (a short answer mentioning
      "student"), step 2 (fewer than ten words) and step 4 (fewer than three
      words), and never after any other step. */
  function ContextualFollowUp(step: int, input: string): (r: Option<FollowUp>)
    ensures r.Some? ==> step == 1 || step == 2 || step == 4
    ensures step == 1 ==> (r.Some? <==> Contains(Lower(input), "student") && |Words(input)| < 5)
    ensures step == 2 ==> (r.Some? <==> |Words(input)| < 10)
    ensures step == 4 ==> (r.Some? <==> |Words(input)| < 3)
  {
    if step == 1 && Contains(Lower(input), "student") && |Words(input)| < 5 then Some(FirstJobOrExplore)
    else if step == 2 && |Words(input)| < 10 then Some(TellMeMore)
    else if step == 4 && |Words(input)| < 3 then Some(OtherSkills)
    else None
  }

  // =====================================================================
  // parse_response and get_next_question
  // =====================================================================

  /** A value of the parsed-answer dictionary. */
  datatype Value = Text(text: string) | TextList(items: seq<string>) | Prompt(followUp: FollowUp)

  /** The entries read from an answer to question `q`: the raw input, and
      the extracted value under the question's type or, for the skill
      question, the skills joined with ", " and as a list. */
  function Answer(q: Question, input: string): (r: map<string, Value>)
    ensures q.qtype != "followup_question" ==> "followup_question" !in r
    ensures q.qtype != "raw_input" ==> "raw_input" in r && r["raw_input"] == Text(input)
    ensures q.extraction.ByKeywords? || q.extraction.FreeText? ==> q.qtype in r
    ensures q.extraction.BySkills? ==> "skills_list" in r && "desired_skills" in r
    ensures q.extraction.FreeText? ==> r[q.qtype] == Text(Strip(input))
  {
    var base := map["raw_input" := Text(input)];
    match q.extraction
    case ByKeywords(keywords) =>
      var extracted := ExtractKeywords(input, keywords);
      base[q.qtype := Text(if Truthy(extracted) then extracted.value else Strip(input))]
    case BySkills =>
      var skills := ExtractSkills(input);
      base["desired_skills" := Text(Join(skills, ", "))]["skills_list" := TextList(skills)]
    case FreeText =>
      base[q.qtype := Text(Strip(input))]
  }

  /** No question type collides with the two fixed keys of the parsed answer. */
  lemma FlowKeys(step: nat)
    requires step < |Flow|
    ensures Flow[step].qtype != "raw_input" && Flow[step].qtype != "followup_question"
  {
  }

  /** The structured reading of the answer to question `step`: the entries
      of `Answer`, plus the follow-up to ask, if any. Past the end of the
      flow the result is empty. */
  function ParseResponse(step: nat, input: string): (r: map<string, Value>)
    ensures step >= |Flow| ==> r == map[]
    ensures step < |Flow| ==> ("followup_question" in r <==> ContextualFollowUp(step, input).Some?)
    ensures step < |Flow| && "followup_question" in r ==> r["followup_question"] == Prompt(ContextualFollowUp(step, input).value)
    ensures step < |Flow| ==> forall key :: key != "followup_question" ==>
      (key in r <==> key in Answer(Flow[step], input)) && (key in r ==> r[key] == Answer(Flow[step], input)[key])
  {
    if step >= |Flow| then map[]
    else
      FlowKeys(step);
      var answered := Answer(Flow[step], input);
      match ContextualFollowUp(step, input)
      case None => answered
      case Some(f) => answered["followup_question" := Prompt(f)]
  }

  /** Within the flow the parsed answer always holds the raw input. */
  lemma ParsedKeepsRawInput(step: nat, input: string)
    requires step < |Flow|
    ensures var r := ParseResponse(step, input);
      "raw_input" in r && r["raw_input"] == Text(input)
  {
    FlowKeys(step);
  }

  /** The answer to a keyword question is stored under the question's type:
      the value of the first keyword found, or the stripped answer when no
      keyword occurs. */
  lemma KeywordAnswerStored(step: nat, input: string)
    requires step < |Flow| && Flow[step].extraction.ByKeywords?
    ensures var q := Flow[step];
      var extracted := ExtractKeywords(input, q.extraction.keywords);
      var r := ParseResponse(step, input);
      && q.qtype in r
      && (extracted.None? ==> r[q.qtype] == Text(Strip(input)))
      && (Truthy(extracted) ==> r[q.qtype] == Text(extracted.value))
  {
    FlowKeys(step);
  }

  /** The skill question stores the extracted skills both as a list and
      joined with ", ". */
  lemma SkillAnswerStored(step: nat, input: string)
    requires step < |Flow| && Flow[step].extraction.BySkills?
    ensures var r := ParseResponse(step, input);
      && "skills_list" in r && r["skills_list"] == TextList(ExtractSkills(input))
      && "desired_skills" in r && r["desired_skills"] == Text(Join(ExtractSkills(input), ", "))
  {
    FlowKeys(step);
    SkillsAnswer(Flow[step], input);
    var r := ParseResponse(step, input);
    assert "skills_list" != "followup_question" && "desired_skills" != "followup_question";
  }

  /** The two skill entries of the answer to a skills question. */
  lemma SkillsAnswer(q: Question, input: string)
    requires q.extraction.BySkills?
    ensures var a := Answer(q, input);
      && "skills_list" in a && a["skills_list"] == TextList(ExtractSkills(input))
      && "desired_skills" in a && a["desired_skills"] == Text(Join(ExtractSkills(input), ", "))
  {
  }

  /** The question asked at `step`, or None once the flow is over. */
  function NextQuestion(step: nat): (r: Option<Question>)
    ensures r.None? <==> step >= |Flow|
    ensures r.Some? ==> r.value == Flow[step]
  {
    if step >= |Flow| then None else Some(Flow[step])
  }

  lemma FlowHasTwelveSteps()
    ensures |Flow| == 12
    ensures NextQuestion(11).Some? && NextQuestion(12).None?
  {
  }

  // =====================================================================
  // calculate_enhanced_match_score
  // =====================================================================

  /** A reason shown with a match. */
  datatype Reason =
    | ExpertIn(skills: seq<string>)
    | Specialist(industry: string)
    | ExperienceFit(years: int)
    | HighlyExperienced(years: int)
    | OffersFree
    | WithinBudget(rate: int)
    | VerifiedMentor
    | GoalSpecialist(goal: string)
    | LimitedMatch

  /** Python's `x or ""` and `x or 0` on nullable columns. */
  function OrEmpty(s: Option<string>): string
  {
    if s.Some? then s.value else []
  }

  /** The comma-separated list, each item stripped and lower-cased. */
  function SkillList(s: string): (r: seq<string>)
    ensures |r| == |Split(s, ',')|
  {
    NormalizeAll(Split(s, ','))
  }

  function NormalizeAll(parts: seq<string>): (r: seq<string>)
    ensures |r| == |parts|
  {
    if parts == [] then [] else [Lower(Strip(parts[0]))] + NormalizeAll(parts[1..])
  }

  /** Item `k` of a skill list is the `k`-th comma-separated piece, stripped
      and lower-cased. */
  lemma {:induction false} NormalizedItems(parts: seq<string>)
    ensures forall k :: 0 <= k < |parts| ==> NormalizeAll(parts)[k] == Lower(Strip(parts[k]))
    decreases |parts|
  {
    if parts != [] {
      NormalizedItems(parts[1..]);
      var r, t := NormalizeAll(parts), NormalizeAll(parts[1..]);
      assert r == [Lower(Strip(parts[0]))] + t;
      forall k | 0 < k < |parts| ensures r[k] == Lower(Strip(parts[k])) {
        assert r[k] == t[k - 1];
        assert parts[1..][k - 1] == parts[k];
      }
    }
  }

  /** One skill names the other, in either direction. */
  predicate Overlaps(desired: string, offered: string)
  {
    Contains(offered, desired) || Contains(desired, offered)
  }

  /** The entries the inner loop over the mentor's skills appends for one
      desired skill: the desired skill once per overlapping mentor skill,
      unless it is an exact match. */
  function PartialsFor(desired: string, offered: seq<string>, exact: seq<string>): (r: seq<string>)
    ensures forall k :: 0 <= k < |r| ==> r[k] == desired && desired !in exact
    ensures |r| <= |offered|
  {
    if offered == [] then []
    else
      var last := offered[|offered| - 1];
      var init := PartialsFor(desired, offered[..|offered| - 1], exact);
      var tail := if Overlaps(desired, last) && desired !in exact then [desired] else [];
      assert forall k :: 0 <= k < |init| ==> (init + tail)[k] == init[k];
      assert forall k :: |init| <= k < |init + tail| ==> (init + tail)[k] == tail[k - |init|];
      init + tail
  }

  /** partial_matches: for each desired skill in order, its entries. */
  function PartialMatches(desired: seq<string>, offered: seq<string>, exact: seq<string>): (r: seq<string>)
    ensures forall k :: 0 <= k < |r| ==> r[k] in desired && r[k] !in exact
  {
    if desired == [] then []
    else
      var init := desired[..|desired| - 1];
      var rest := PartialMatches(init, offered, exact);
      assert forall x :: x in init ==> x in desired;
      rest + PartialsFor(desired[|desired| - 1], offered, exact)
  }

  function Min(a: int, b: int): int
  {
    if a <= b then a else b
  }

  /** The skill component: 12 per exact and 6 per partial match, capped at 35. */
  function SkillPoints(exactCount: nat, partialCount: nat): (p: int)
    ensures 0 <= p <= 35
    ensures exactCount > 0 ==> p >= 12
    ensures p == 0 <==> exactCount == 0 && partialCount == 0
  {
    Min(35, exactCount * 12 + partialCount * 6)
  }

  /** Number of industry words found in the mentor's domains or bio. */
  function DomainHits(words: seq<string>, domains: string, bio: string): (n: nat)
    ensures n <= |words|
    ensures n == 0 <==> forall k :: 0 <= k < |words| ==> !Contains(domains, words[k]) && !Contains(bio, words[k])
  {
    if words == [] then 0
    else
      (if Contains(domains, words[0]) || Contains(bio, words[0]) then 1 else 0)
        + DomainHits(words[1..], domains, bio)
  }

  /** The domain component: 10 per hit, capped at 25, only when the intake
      names an industry. */
  function DomainPoints(industry: string, domains: string, bio: string): (p: int)
    ensures 0 <= p <= 25
    ensures p > 0 <==> industry != [] && DomainHits(Words(Lower(industry)), domains, bio) > 0
  {
    if industry == [] then 0
    else
      var hits := DomainHits(Words(Lower(industry)), domains, bio);
      if hits > 0 then Min(25, hits * 10) else 0
  }

  /** Years of experience suited to each career stage (inclusive bounds). */
  function ExperienceRange(careerStage: string): (int, int)
  {
    if careerStage == "student" then (1, 5)
    else if careerStage == "early_career" then (3, 10)
    else if careerStage == "mid_level" then (5, 15)
    else if careerStage == "senior" then (10, 30)
    else if careerStage == "career_change" then (5, 20)
    else (0, 30)
  }

  /** The experience component: 20 inside the range, 10 above it, 0 below. */
  function ExperiencePoints(careerStage: string, years: int): (p: int)
    ensures var (lo, hi) := ExperienceRange(careerStage);
      && (p == 20 <==> lo <= years <= hi)
      && (p == 10 <==> years > hi)
      && (p == 0 <==> years < lo)
  {
    var (lo, hi) := ExperienceRange(careerStage);
    if lo <= years <= hi then 20 else if years > hi then 10 else 0
  }

  /** Hourly-rate bounds for each budget answer, in pence (inclusive). */
  function BudgetRange(budget: string): (int, int)
  {
    if budget == "free" then (0, 0)
    else if budget == "0-50" then (0, 5000)
    else if budget == "50-100" then (5000, 10000)
    else if budget == "100+" then (10000, 1000000)
    else (0, 1000000)
  }

  /** The budget component: 12 inside the range, 6 below it, 0 above. */
  function BudgetPoints(budget: string, rate: int): (p: int)
    ensures var (lo, hi) := BudgetRange(budget);
      && (p == 12 <==> lo <= rate <= hi)
      && (p == 6 <==> rate < lo)
      && (p == 0 <==> rate > hi)
  {
    var (lo, hi) := BudgetRange(budget);
    if lo <= rate <= hi then 12 else if rate < lo then 6 else 0
  }

  /** Bio words that signal each primary goal. */
  function GoalKeywords(goal: string): seq<string>
  {
    if goal == "skill_development" then ["teach", "train", "mentor", "coach"]
    else if goal == "career_transition" then ["transition", "change", "pivot", "switch"]
    else if goal == "leadership" then ["lead", "manage", "team", "executive"]
    else if goal == "entrepreneurship" then ["startup", "business", "founder", "entrepreneur"]
    else []
  }

  /** Some keyword of the goal occurs in the lower-cased bio. */
  predicate GoalAligned(goal: string, bio: string)
  {
    exists k :: 0 <= k < |GoalKeywords(goal)| && Contains(Lower(bio), GoalKeywords(goal)[k])
  }

  /** The goal component: 10 when the intake names a goal, the mentor has a
      bio and the bio mentions one of the goal's keywords. */
  function GoalPoints(goal: string, bio: string): (p: int)
    ensures p == 0 || p == 10
    ensures p == 10 <==> goal != [] && bio != [] && GoalAligned(goal, bio)
  {
    if goal != [] && bio != [] && GoalAligned(goal, bio) then 10 else 0
  }

  /** `s.replace('_', ' ')`. */
  function Spaced(s: string): (r: string)
    ensures |r| == |s|
    ensures forall k :: 0 <= k < |s| ==> r[k] == if s[k] == '_' then ' ' else s[k]
  {
    if s == [] then [] else [if s[0] == '_' then ' ' else s[0]] + Spaced(s[1..])
  }

  /** The inputs of the score, read from the intake and the profile with the
      source's defaults for missing values: the two skill lists, the
      industry, the lower-cased domains, the bio, the career stage, the
      mentor's years, the budget answer, the hourly rate, the verified flag
      and the primary goal. */
  datatype Inputs = Inputs(
    desired: seq<string>, offered: seq<string>,
    industry: string, domains: string, bio: string,
    careerStage: string, years: int, budget: string, rate: int,
    verified: bool, goal: string)

  function InputsOf(intake: MenteeIntake, mentor: MentorProfile): Inputs
  {
    Inputs(
      SkillList(intake.desiredSkills), SkillList(OrEmpty(mentor.skills)),
      intake.industryInterest, Lower(OrEmpty(mentor.domains)), OrEmpty(mentor.bio),
      intake.careerStage, if mentor.yearsExperience.Some? then mentor.yearsExperience.value else 0,
      intake.budgetRange, mentor.hourlyRate,
      mentor.isVerified, intake.primaryGoal)
  }

  /** The desired skills the mentor lists verbatim. */
  function ExactMatches(desired: seq<string>, offered: seq<string>): (r: seq<string>)
    ensures forall k :: 0 <= k < |r| ==> r[k] in desired && r[k] in offered
    ensures forall x :: x in desired && x in offered ==> x in r
  {
    Filter(desired, (d: string) => d in offered)
  }

  function SkillScore(v: Inputs): (p: int)
    ensures 0 <= p <= 35
  {
    var exact := ExactMatches(v.desired, v.offered);
    SkillPoints(|exact|, |PartialMatches(v.desired, v.offered, exact)|)
  }

  /** The sum of the six components before the cap. */
  function RawScore(v: Inputs): (s: int)
    ensures 0 <= s <= 110
  {
    SkillScore(v)
      + DomainPoints(v.industry, v.domains, Lower(v.bio))
      + ExperiencePoints(v.careerStage, v.years)
      + BudgetPoints(v.budget, v.rate)
      + (if v.verified then 8 else 0)
      + GoalPoints(v.goal, v.bio)
  }

  /** The score: the sum of the components, capped at 100. */
  function Score(v: Inputs): (s: int)
    ensures 0 <= s <= 100
    ensures s == 100 <==> RawScore(v) >= 100
    ensures s < 100 ==> s == RawScore(v)
  {
    Min(100, RawScore(v))
  }

  function ExperienceReasons(v: Inputs): (r: seq<Reason>)
    ensures LimitedMatch !in r
  {
    var (lo, hi) := ExperienceRange(v.careerStage);
    if lo <= v.years <= hi then [ExperienceFit(v.years)]
    else if v.years > hi then [HighlyExperienced(v.years)]
    else []
  }

  function BudgetReasons(v: Inputs): (r: seq<Reason>)
    ensures LimitedMatch !in r
  {
    var (lo, hi) := BudgetRange(v.budget);
    if lo <= v.rate <= hi then (if v.rate == 0 then [OffersFree] else [WithinBudget(v.rate)])
    else []
  }

  function SkillReasons(v: Inputs): (r: seq<Reason>)
    ensures LimitedMatch !in r
  {
    var exact := ExactMatches(v.desired, v.offered);
    if exact != [] then [ExpertIn(PyTake(exact, 3))] else []
  }

  function DomainReasons(v: Inputs): (r: seq<Reason>)
    ensures LimitedMatch !in r
  {
    if DomainPoints(v.industry, v.domains, Lower(v.bio)) > 0 then [Specialist(v.industry)] else []
  }

  function GoalReasons(v: Inputs): (r: seq<Reason>)
    ensures LimitedMatch !in r
  {
    if GoalPoints(v.goal, v.bio) > 0 then [GoalSpecialist(Spaced(v.goal))] else []
  }

  /** The reasons given by the six components, in scoring order. */
  function ComponentReasons(v: Inputs): (r: seq<Reason>)
    ensures LimitedMatch !in r
  {
    SkillReasons(v) + DomainReasons(v) + ExperienceReasons(v) + BudgetReasons(v)
      + (if v.verified then [VerifiedMentor] else []) + GoalReasons(v)
  }

  /** The reasons of a score: "limited match" is among them exactly when
      the score is below 25, and then it comes last. */
  function Reasons(v: Inputs): (r: seq<Reason>)
    ensures LimitedMatch in r <==> Score(v) < 25
    ensures LimitedMatch in r ==> r[|r| - 1] == LimitedMatch
  {
    ComponentReasons(v) + (if Score(v) < 25 then [LimitedMatch] else [])
  }

  /** The score of a mentor for an intake. */
  function MatchScore(intake: MenteeIntake, mentor: MentorProfile): (s: int)
    ensures 0 <= s <= 100
  {
    Score(InputsOf(intake, mentor))
  }

  /** The nested loop of the skill component. */
  method CollectPartialMatches(desired: seq<string>, offered: seq<string>, exact: seq<string>)
    returns (partial: seq<string>)
    ensures partial == PartialMatches(desired, offered, exact)
  {
    partial := [];
    for i := 0 to |desired|
      invariant partial == PartialMatches(desired[..i], offered, exact)
    {
      var d := desired[i];
      ghost var before := partial;
      for j := 0 to |offered|
        invariant partial == before + PartialsFor(d, offered[..j], exact)
      {
        var m := offered[j];
        if Overlaps(d, m) && d !in exact {
          partial := partial + [d];
        }
        assert offered[..j + 1][..j] == offered[..j];
      }
      assert offered[..|offered|] == offered;
      assert desired[..i + 1][..i] == desired[..i];
    }
    assert desired[..|desired|] == desired;
  }

  /** The skill component and its reason. */
  method SkillComponent(v: Inputs) returns (points: int, reasons: seq<Reason>)
    ensures points == SkillScore(v)
    ensures reasons == SkillReasons(v)
  {
    var exact := ExactMatches(v.desired, v.offered);
    var partial := CollectPartialMatches(v.desired, v.offered, exact);
    points := SkillPoints(|exact|, |partial|);
    reasons := [];
    if exact != [] {
      reasons := [ExpertIn(PyTake(exact, 3))];
    }
  }

  /** The scoring of calculate_enhanced_match_score over prepared inputs:
      adds up the components and collects their reasons in scoring order. */
  method ScoreInputs(v: Inputs) returns (score: int, reasons: seq<Reason>)
    ensures score == Score(v)
    ensures reasons == Reasons(v)
  {
    var skill, skillReasons := SkillComponent(v);
    var raw := skill + DomainPoints(v.industry, v.domains, Lower(v.bio))
      + ExperiencePoints(v.careerStage, v.years) + BudgetPoints(v.budget, v.rate)
      + (if v.verified then 8 else 0) + GoalPoints(v.goal, v.bio);
    assert raw == RawScore(v);
    score := Min(100, raw);
    reasons := skillReasons + DomainReasons(v) + ExperienceReasons(v) + BudgetReasons(v)
      + (if v.verified then [VerifiedMentor] else []) + GoalReasons(v);
    assert reasons == ComponentReasons(v);
    if score < 25 {
      reasons := reasons + [LimitedMatch];
    }
  }

  /** calculate_enhanced_match_score (the metadata it also returns is not
      modelled). */
  method CalculateMatchScore(intake: MenteeIntake, mentor: MentorProfile) returns (score: int, reasons: seq<Reason>)
    ensures score == MatchScore(intake, mentor) && 0 <= score <= 100
    ensures reasons == Reasons(InputsOf(intake, mentor))
    ensures LimitedMatch in reasons <==> score < 25
  {
    score, reasons := ScoreInputs(InputsOf(intake, mentor));
  }

  /** A verified mentor inside both the experience and the budget range of
      the intake scores at least 40, and one who lists a desired skill
      verbatim scores at least 12. */
  lemma ScoreLowerBounds(v: Inputs)
    ensures var (lo, hi) := ExperienceRange(v.careerStage);
      var (blo, bhi) := BudgetRange(v.budget);
      v.verified && lo <= v.years <= hi && blo <= v.rate <= bhi ==> Score(v) >= 40
    ensures (exists k :: 0 <= k < |v.desired| && v.desired[k] in v.offered) ==> Score(v) >= 12
  {
    if exists k :: 0 <= k < |v.desired| && v.desired[k] in v.offered {
      var k :| 0 <= k < |v.desired| && v.desired[k] in v.offered;
      var exact := ExactMatches(v.desired, v.offered);
      assert v.desired[k] in exact;
    }
  }
}

=== FILE: ai_agent_routes.dfy ===
/** The intake-agent endpoints: one turn of the intake conversation, saving
    the finished intake (create or update), and the ranked mentor matches
    with their recording in the match table. Roles are compared exactly. */
module AiAgentRoutes {
  import opened Common
  import opened Models
  import opened Sorting
  import opened AiAgent

  // =====================================================================
  // chat_with_agent
  // =====================================================================

  /** What the agent answers: a follow-up question, the question of the
      current step (its type is the response's question type), or the
      closing message once the flow is over. */
  datatype ChatReply = FollowupReply(followUp: FollowUp) | Ask(step: nat, qtype: string) | Complete

  /** The follow-up raised by the latest answer: only a non-empty message
      after at least one earlier turn is parsed, as the answer to the
      previous step. */
  function PendingFollowUp(step: nat, message: string): (r: Option<FollowUp>)
    ensures r.Some? <==> message != [] && step > 0 && ContextualFollowUp(step - 1, message).Some?
    ensures r.Some? ==> r == ContextualFollowUp(step - 1, message)
  {
    if message != [] && step > 0 then
      var extracted := ParseResponse(step - 1, message);
      if "followup_question" in extracted then Some(extracted["followup_question"].followUp) else None
    else None
  }

  /** One conversation turn. The step is the length of the history; a
      missing history (an explicit null) makes `len` fail, a server error.
      A follow-up, when one applies, is returned instead of the next
      question and the flow does not advance; otherwise the question of the
      current step is asked, or the conversation is complete past the last
      step. */
  function ChatTurn(role: string, history: Option<nat>, message: string): (r: Result<ChatReply>)
    ensures role != "mentee" ==> r == Err(Forbidden)
    ensures role == "mentee" && history.None? ==> r == Err(ServerError)
    ensures r.Ok? <==> role == "mentee" && history.Some?
    ensures r.Ok? ==>
      (r.value.FollowupReply? <==> message != [] && history.value > 0 && ContextualFollowUp(history.value - 1, message).Some?)
    ensures r.Ok? && r.value.FollowupReply? ==> history.value in {2, 3, 5}
    ensures r.Ok? && r.value.Ask? ==> r.value.step == history.value < |Flow| && r.value.qtype == Flow[history.value].qtype
    ensures r.Ok? && r.value.Complete? ==> history.value >= |Flow|
    ensures r.Ok? && history.value >= |Flow| ==> r.value == Complete
  {
    if role != "mentee" then Err(Forbidden)
    else if history.None? then Err(ServerError)
    else
      var step := history.value;
      match PendingFollowUp(step, message)
      case Some(f) => Ok(FollowupReply(f))
      case None =>
        match NextQuestion(step)
        case None => Ok(Complete)
        case Some(q) => Ok(Ask(step, q.qtype))
  }

  /** Without an answer to parse, the turn at history length `n` asks the
      `n`-th question of the flow, and completes after the twelfth. */
  lemma {:induction false} ChatWalksTheFlow(n: nat)
    ensures n < 12 ==> ChatTurn("mentee", Some(n), "") == Ok(Ask(n, Flow[n].qtype))
    ensures n >= 12 ==> ChatTurn("mentee", Some(n), "") == Ok(Complete)
  {
    FlowHasTwelveSteps();
  }

  // =====================================================================
  // create_or_update_intake
  // =====================================================================

  /** The request body: each field is either left unset (None) or given. */
  datatype IntakeCreate = IntakeCreate(
    careerStage: Option<string>,
    primaryGoal: Option<string>,
    specificGoal: Option<string>,
    desiredSkills: Option<string>,
    currentSkills: Option<string>,
    industryInterest: Option<string>,
    timeCommitment: Option<string>,
    budgetRange: Option<string>,
    timeline: Option<string>,
    preferredMentorStyle: Option<string>,
    communicationPreference: Option<string>,
    currentChallenges: Option<string>,
    pastExperience: Option<string>,
    learningStyle: Option<string>)

  const FieldCount := 14

  /** The intake's fourteen answer columns, in declaration order. */
  function Fields(x: MenteeIntake): (r: seq<string>)
    ensures |r| == FieldCount
  {
    [x.careerStage, x.primaryGoal, x.specificGoal, x.desiredSkills, x.currentSkills, x.industryInterest,
     x.timeCommitment, x.budgetRange, x.timeline, x.preferredMentorStyle, x.communicationPreference,
     x.currentChallenges, x.pastExperience, x.learningStyle]
  }

  /** The request's fields, in the same order. */
  function Requested(req: IntakeCreate): (r: seq<Option<string>>)
    ensures |r| == FieldCount
  {
    [req.careerStage, req.primaryGoal, req.specificGoal, req.desiredSkills, req.currentSkills, req.industryInterest,
     req.timeCommitment, req.budgetRange, req.timeline, req.preferredMentorStyle, req.communicationPreference,
     req.currentChallenges, req.pastExperience, req.learningStyle]
  }

  /** The schema defaults: empty, except an advisory mentor style and both
      communication channels. */
  const IntakeDefaults: seq<string> := ["", "", "", "", "", "", "", "", "", "advisory", "both", "", "", ""]

  function Given(v: Option<string>, otherwise: string): string
  {
    if v.Some? then v.value else otherwise
  }

  /** An intake is determined by its owner and its answers. */
  lemma FieldsDetermine(x: MenteeIntake, y: MenteeIntake)
    requires x.userId == y.userId && Fields(x) == Fields(y)
    ensures x == y
  {
    assert Fields(x)[0] == Fields(y)[0] && Fields(x)[1] == Fields(y)[1] && Fields(x)[2] == Fields(y)[2];
    assert Fields(x)[3] == Fields(y)[3] && Fields(x)[4] == Fields(y)[4] && Fields(x)[5] == Fields(y)[5];
    assert Fields(x)[6] == Fields(y)[6] && Fields(x)[7] == Fields(y)[7] && Fields(x)[8] == Fields(y)[8];
    assert Fields(x)[9] == Fields(y)[9] && Fields(x)[10] == Fields(y)[10] && Fields(x)[11] == Fields(y)[11];
    assert Fields(x)[12] == Fields(y)[12] && Fields(x)[13] == Fields(y)[13];
  }

  /** A new intake: every given field, and the defaults for the rest. */
  function NewIntake(userId: int, req: IntakeCreate): (r: MenteeIntake)
    ensures r.userId == userId
    ensures forall k :: 0 <= k < FieldCount ==> Fields(r)[k] == Given(Requested(req)[k], IntakeDefaults[k])
  {
    MenteeIntake(userId,
      Given(req.careerStage, ""), Given(req.primaryGoal, ""), Given(req.specificGoal, ""),
      Given(req.desiredSkills, ""), Given(req.currentSkills, ""), Given(req.industryInterest, ""),
      Given(req.timeCommitment, ""), Given(req.budgetRange, ""), Given(req.timeline, ""),
      Given(req.preferredMentorStyle, "advisory"), Given(req.communicationPreference, "both"),
      Given(req.currentChallenges, ""), Given(req.pastExperience, ""), Given(req.learningStyle, ""))
  }

  /** Field `k` of `x` replaced by `v`. */
  function WithField(x: MenteeIntake, k: nat, v: string): (r: MenteeIntake)
    requires k < FieldCount
    ensures r.userId == x.userId
    ensures Fields(r) == Fields(x)[k := v]
  {
    match k
    case 0 => x.(careerStage := v)
    case 1 => x.(primaryGoal := v)
    case 2 => x.(specificGoal := v)
    case 3 => x.(desiredSkills := v)
    case 4 => x.(currentSkills := v)
    case 5 => x.(industryInterest := v)
    case 6 => x.(timeCommitment := v)
    case 7 => x.(budgetRange := v)
    case 8 => x.(timeline := v)
    case 9 => x.(preferredMentorStyle := v)
    case 10 => x.(communicationPreference := v)
    case 11 => x.(currentChallenges := v)
    case 12 => x.(pastExperience := v)
    case 13 => x.(learningStyle := v)
  }

  /** An updated intake: the given fields take the request's values, the
      unset ones keep their stored values, and the owner stays. */
  function ApplyIntake(x: MenteeIntake, req: IntakeCreate): (r: MenteeIntake)
    ensures r.userId == x.userId
    ensures forall k :: 0 <= k < FieldCount ==> Fields(r)[k] == Given(Requested(req)[k], Fields(x)[k])
  {
    MenteeIntake(x.userId,
      Given(req.careerStage, x.careerStage), Given(req.primaryGoal, x.primaryGoal),
      Given(req.specificGoal, x.specificGoal), Given(req.desiredSkills, x.desiredSkills),
      Given(req.currentSkills, x.currentSkills), Given(req.industryInterest, x.industryInterest),
      Given(req.timeCommitment, x.timeCommitment), Given(req.budgetRange, x.budgetRange),
      Given(req.timeline, x.timeline), Given(req.preferredMentorStyle, x.preferredMentorStyle),
      Given(req.communicationPreference, x.communicationPreference),
      Given(req.currentChallenges, x.currentChallenges), Given(req.pastExperience, x.pastExperience),
      Given(req.learningStyle, x.learningStyle))
  }

  /** The `setattr` loop over the fields the request sets. */
  method SetGivenFields(x: MenteeIntake, req: IntakeCreate) returns (y: MenteeIntake)
    ensures y == ApplyIntake(x, req)
  {
    y := x;
    var given := Requested(req);
    for k := 0 to FieldCount
      invariant y.userId == x.userId
      invariant forall j :: 0 <= j < k ==> Fields(y)[j] == Given(given[j], Fields(x)[j])
      invariant forall j :: k <= j < FieldCount ==> Fields(y)[j] == Fields(x)[j]
    {
      if given[k].Some? {
        y := WithField(y, k, given[k].value);
      }
    }
    FieldsDetermine(y, ApplyIntake(x, req));
  }

  /** Applying the same update twice is applying it once, and updating a
      freshly created intake with its own request changes nothing. */
  lemma ApplyIntakeIdempotent(x: MenteeIntake, userId: int, req: IntakeCreate)
    ensures ApplyIntake(ApplyIntake(x, req), req) == ApplyIntake(x, req)
    ensures ApplyIntake(NewIntake(userId, req), req) == NewIntake(userId, req)
  {
  }

  /** The row selector of `.filter(MenteeIntake.user_id == …)`. */
  function Owner(userId: int): MenteeIntake -> bool
  {
    (x: MenteeIntake) => x.userId == userId
  }

  /** The unique-column constraint on the intake owner. */
  predicate OnePerUser(intakes: seq<MenteeIntake>)
  {
    forall i, j :: 0 <= i < j < |intakes| ==> intakes[i].userId != intakes[j].userId
  }

  /** The intake row saved for `userId`: the user's first intake updated,
      or a new one when the user has none. */
  function Saved(intakes: seq<MenteeIntake>, userId: int, req: IntakeCreate): (r: MenteeIntake)
    ensures r.userId == userId
  {
    match FirstIndex(intakes, Owner(userId))
    case None => NewIntake(userId, req)
    case Some(i) => ApplyIntake(intakes[i], req)
  }

  /** The intake table after the upsert: the user owns an intake, a row is
      added exactly when the user had none, the other users' rows are
      untouched, and the one-intake-per-user constraint is kept. */
  function Upserted(intakes: seq<MenteeIntake>, userId: int, req: IntakeCreate): (r: seq<MenteeIntake>)
    ensures FirstIndex(r, Owner(userId)).Some?
    ensures r[FirstIndex(r, Owner(userId)).value] == Saved(intakes, userId, req)
    ensures |r| == if FirstIndex(intakes, Owner(userId)).None? then |intakes| + 1 else |intakes|
    ensures forall k :: 0 <= k < |intakes| && intakes[k].userId != userId ==> r[k] == intakes[k]
  {
    match FirstIndex(intakes, Owner(userId))
    case None =>
      var n := NewIntake(userId, req);
      FirstIndexAppend(intakes, n, Owner(userId));
      intakes + [n]
    case Some(i) =>
      var y := ApplyIntake(intakes[i], req);
      FirstIndexUpdate(intakes, i, y, Owner(userId));
      intakes[i := y]
  }

  /** The upsert keeps the one-intake-per-user constraint. */
  lemma UpsertKeepsOnePerUser(intakes: seq<MenteeIntake>, userId: int, req: IntakeCreate)
    requires OnePerUser(intakes)
    ensures OnePerUser(Upserted(intakes, userId, req))
  {
    var r := Upserted(intakes, userId, req);
    match FirstIndex(intakes, Owner(userId))
    case None =>
      assert r == intakes + [NewIntake(userId, req)];
      assert forall k :: 0 <= k < |intakes| ==> r[k] == intakes[k];
    case Some(i) =>
      assert r == intakes[i := ApplyIntake(intakes[i], req)];
      assert forall k :: 0 <= k < |r| ==> r[k].userId == intakes[k].userId;
  }

  /** Saving the same intake twice leaves the table as saving it once. */
  lemma {:induction false} UpsertIdempotent(intakes: seq<MenteeIntake>, userId: int, req: IntakeCreate)
    ensures Upserted(Upserted(intakes, userId, req), userId, req) == Upserted(intakes, userId, req)
  {
    var once := Upserted(intakes, userId, req);
    match FirstIndex(intakes, Owner(userId))
    case None =>
      FirstIndexAppend(intakes, NewIntake(userId, req), Owner(userId));
      ApplyIntakeIdempotent(NewIntake(userId, req), userId, req);
      assert once[|intakes| := ApplyIntake(once[|intakes|], req)] == once;
    case Some(i) =>
      FirstIndexUpdate(intakes, i, ApplyIntake(intakes[i], req), Owner(userId));
      ApplyIntakeIdempotent(intakes[i], userId, req);
      assert once[i := ApplyIntake(once[i], req)] == once;
  }

  /** create_or_update_intake: mentees only; the user's intake is updated
      in place or created, and the saved row is returned. */
  method CreateOrUpdateIntake(db: Database, actor: User, req: IntakeCreate) returns (r: Result<MenteeIntake>)
    modifies db`intakes
    ensures actor.role != "mentee" ==> r == Err(Forbidden) && db.intakes == old(db.intakes)
    ensures actor.role == "mentee" ==>
      r == Ok(Saved(old(db.intakes), actor.id, req)) && db.intakes == Upserted(old(db.intakes), actor.id, req)
  {
    if actor.role != "mentee" {
      return Err(Forbidden);
    }
    var existing := FirstIndex(db.intakes, Owner(actor.id));
    if existing.Some? {
      var updated := SetGivenFields(db.intakes[existing.value], req);
      db.intakes := db.intakes[existing.value := updated];
      r := Ok(updated);
    } else {
      var created := NewIntake(actor.id, req);
      db.intakes := db.intakes + [created];
      r := Ok(created);
    }
  }

  // =====================================================================
  // get_ai_mentor_matches
  // =====================================================================

  /** A recommended mentor as returned: profile fields with display
      defaults for missing values, the score and its reasons. */
  datatype MatchOut = MatchOut(
    mentorId: int, mentorName: Option<string>, domains: string, skills: string,
    experience: int, bio: string, rate: int, verified: bool,
    score: int, reasons: seq<Reason>)

  function OrElse(s: Option<string>, otherwise: string): string
  {
    if Truthy(s) then s.value else otherwise
  }

  /** The output row of `mentor` with the given score and reasons. */
  function Shown(mentor: MentorProfile, score: int, reasons: seq<Reason>): (m: MatchOut)
    ensures m.mentorId == mentor.userId && m.score == score && m.reasons == reasons
    ensures m.domains == (if Truthy(mentor.domains) then mentor.domains.value else "General")
    ensures m.skills == (if Truthy(mentor.skills) then mentor.skills.value else "Various")
  {
    MatchOut(mentor.userId, mentor.fullName, OrElse(mentor.domains, "General"), OrElse(mentor.skills, "Various"),
             if mentor.yearsExperience.Some? then mentor.yearsExperience.value else 0,
             OrElse(mentor.bio, ""), mentor.hourlyRate, mentor.isVerified, score, reasons)
  }

  /** The scored row of one mentor for the intake. */
  function MatchOf(intake: MenteeIntake, mentor: MentorProfile): (m: MatchOut)
    ensures m.mentorId == mentor.userId && m.score == MatchScore(intake, mentor)
  {
    Shown(mentor, MatchScore(intake, mentor), Reasons(InputsOf(intake, mentor)))
  }

  /** The scoring of one intake, as a function of the mentor. */
  function Scorer(intake: MenteeIntake): MentorProfile -> MatchOut
  {
    (mentor: MentorProfile) => MatchOf(intake, mentor)
  }

  /** Every mentor scored, in profile order (row `k` is given by
      `AllMatchesItem`). */
  function AllMatches(scoreOf: MentorProfile -> MatchOut, mentors: seq<MentorProfile>): (r: seq<MatchOut>)
    ensures |r| == |mentors|
  {
    if mentors == [] then []
    else AllMatches(scoreOf, mentors[..|mentors| - 1]) + [scoreOf(mentors[|mentors| - 1])]
  }

  /** Row `k` of the scored list is the scored row of mentor `k`. */
  lemma {:induction false} AllMatchesItem(scoreOf: MentorProfile -> MatchOut, mentors: seq<MentorProfile>, k: nat)
    requires k < |mentors|
    ensures AllMatches(scoreOf, mentors)[k] == scoreOf(mentors[k])
    decreases |mentors|
  {
    if k < |mentors| - 1 {
      var init := mentors[..|mentors| - 1];
      AllMatchesItem(scoreOf, init, k);
      assert init[k] == mentors[k];
    }
  }

  function AtLeast(minScore: int): MatchOut -> bool
  {
    (m: MatchOut) => m.score >= minScore
  }

  function ScoreKey(m: MatchOut): int
  {
    m.score
  }

  /** The returned list, from the scored rows of all mentors: those scoring
      at least `minScore`, best first (ties in their original order), cut
      to `limit` with Python slicing. Every row is one of the scored rows
      and clears the minimum, the list is sorted by score, it is as long as
      the slice makes it (`limit` rows at most when `limit` is not
      negative, `limit` rows fewer than qualify when it is), no qualifying
      row left out scores higher than a listed one, and when nothing is cut
      every row clearing the minimum is listed. */
  function Ranked(all: seq<MatchOut>, minScore: int, limit: int): (r: seq<MatchOut>)
    ensures forall k :: 0 <= k < |r| ==> r[k].score >= minScore && r[k] in all
    ensures SortedDesc(r, ScoreKey)
    ensures var n := |Filter(all, AtLeast(minScore))|;
      |r| == if limit >= 0 then (if limit < n then limit else n) else (if -limit < n then n + limit else 0)
    ensures forall k, m :: 0 <= k < |r| && m in all && m.score >= minScore && m !in r ==> m.score <= r[k].score
    ensures limit >= |all| ==> forall m :: m in all && m.score >= minScore ==> m in r
  {
    RankedFacts(all, minScore, limit);
    var kept := Filter(all, AtLeast(minScore));
    var r := PyTake(SortDesc(kept, ScoreKey), limit);
    RankedIsTop(all, minScore, r);
    r
  }

  /** A prefix of the sorted qualifying rows leaves out no row that scores
      higher than one it keeps. */
  lemma RankedIsTop(all: seq<MatchOut>, minScore: int, r: seq<MatchOut>)
    requires var sorted := SortDesc(Filter(all, AtLeast(minScore)), ScoreKey);
      |r| <= |sorted| && r == sorted[..|r|]
    ensures forall k, m :: 0 <= k < |r| && m in all && m.score >= minScore && m !in r ==> m.score <= r[k].score
  {
    var kept := Filter(all, AtLeast(minScore));
    PrefixOfSortedIsTop(kept, ScoreKey, |r|);
    forall k, m | 0 <= k < |r| && m in all && m.score >= minScore && m !in r ensures m.score <= r[k].score {
      var j :| 0 <= j < |all| && all[j] == m;
      assert AtLeast(minScore)(all[j]);
      assert m in kept;
      assert ScoreKey(m) <= ScoreKey(r[k]);
    }
  }

  /** Ties keep their order: the listed rows of any qualifying score are
      the first rows of that score in mentor order. */
  lemma RankedTiesInOrder(all: seq<MatchOut>, minScore: int, limit: int, v: int)
    requires v >= minScore
    ensures Filter(Ranked(all, minScore, limit), KeyIs(ScoreKey, v)) <= Filter(all, KeyIs(ScoreKey, v))
  {
    var kept := Filter(all, AtLeast(minScore));
    var sorted := SortDesc(kept, ScoreKey);
    var r := Ranked(all, minScore, limit);
    assert r == sorted[..|r|];
    FilterPrefix(sorted, |r|, KeyIs(ScoreKey, v));
    SortDescStable(kept, ScoreKey, v);
    FilterNarrower(all, AtLeast(minScore), KeyIs(ScoreKey, v));
  }

  /** The facts `Ranked` promises, about the expression it computes. */
  lemma RankedFacts(all: seq<MatchOut>, minScore: int, limit: int)
    ensures var r := PyTake(SortDesc(Filter(all, AtLeast(minScore)), ScoreKey), limit);
      && (forall k :: 0 <= k < |r| ==> r[k].score >= minScore && r[k] in all)
      && SortedDesc(r, ScoreKey)
      && (limit >= 0 ==> |r| <= limit)
      && (limit >= |all| ==> forall m :: m in all && m.score >= minScore ==> m in r)
  {
    var kept := Filter(all, AtLeast(minScore));
    var sorted := SortDesc(kept, ScoreKey);
    SortDescMembers(kept, ScoreKey);
    var r := PyTake(sorted, limit);
    TakeOfSorted(sorted, limit);
    forall k | 0 <= k < |r| ensures r[k].score >= minScore && r[k] in all {
      var x := r[k];
      assert x in sorted;
      assert x in kept;
      var j :| 0 <= j < |kept| && kept[j] == x;
    }
    if limit >= |all| {
      assert r == sorted;
      forall m | m in all && m.score >= minScore ensures m in r {
        var j :| 0 <= j < |all| && all[j] == m;
        assert m in kept;
      }
    }
  }

  /** A prefix of a sorted list is sorted and holds only its elements. */
  lemma TakeOfSorted(xs: seq<MatchOut>, n: int)
    requires SortedDesc(xs, ScoreKey)
    ensures SortedDesc(PyTake(xs, n), ScoreKey)
    ensures forall m :: m in PyTake(xs, n) ==> m in xs
    ensures n >= |xs| ==> PyTake(xs, n) == xs
  {
    var r := PyTake(xs, n);
    assert r == xs[..|r|];
    forall m | m in r ensures m in xs {
      var k :| 0 <= k < |r| && r[k] == m;
      assert xs[k] == m;
    }
  }

  /** The ranked rows are scored rows of listed mentors. */
  lemma RankedRows(scoreOf: MentorProfile -> MatchOut, mentors: seq<MentorProfile>, minScore: int, limit: int)
    ensures var r := Ranked(AllMatches(scoreOf, mentors), minScore, limit);
      forall m :: m in r ==> exists j :: 0 <= j < |mentors| && m == scoreOf(mentors[j])
  {
    var all := AllMatches(scoreOf, mentors);
    var r := Ranked(all, minScore, limit);
    forall m | m in r
      ensures exists j :: 0 <= j < |mentors| && m == scoreOf(mentors[j])
    {
      var j :| 0 <= j < |all| && all[j] == m;
      AllMatchesItem(scoreOf, mentors, j);
    }
  }

  /** The selector of `.filter(mentee_id == …, mentor_id == …)`. */
  function PairOf(menteeId: int, mentorId: int): MentorMatch -> bool
  {
    (x: MentorMatch) => x.menteeId == menteeId && x.mentorId == mentorId
  }

  predicate HasMatch(matches: seq<MentorMatch>, menteeId: int, mentorId: int)
  {
    FirstIndex(matches, PairOf(menteeId, mentorId)).Some?
  }

  /** No (mentee, mentor) pair is recorded twice. */
  predicate UniquePairs(matches: seq<MentorMatch>)
  {
    forall i, j :: 0 <= i < j < |matches| ==>
      matches[i].menteeId != matches[j].menteeId || matches[i].mentorId != matches[j].mentorId
  }

  /** A pair is recorded in a table with one more row exactly when it was
      recorded before or the new row is that pair. */
  lemma HasMatchAppend(matches: seq<MentorMatch>, row: MentorMatch, menteeId: int, mentorId: int)
    ensures HasMatch(matches + [row], menteeId, mentorId)
      <==> HasMatch(matches, menteeId, mentorId) || (row.menteeId == menteeId && row.mentorId == mentorId)
  {
    FirstIndexAppend(matches, row, PairOf(menteeId, mentorId));
  }

  /** The match table after recording the returned list: the old rows stay
      as they are, and a row for the mentee is appended for each listed
      mentor not yet paired with them. */
  function Recorded(matches: seq<MentorMatch>, menteeId: int, top: seq<MatchOut>): (r: seq<MentorMatch>)
    ensures |matches| <= |r| <= |matches| + |top| && r[..|matches|] == matches
    ensures forall k :: |matches| <= k < |r| ==> r[k].menteeId == menteeId
  {
    if top == [] then matches
    else
      var prev := Recorded(matches, menteeId, top[..|top| - 1]);
      var m := top[|top| - 1];
      if HasMatch(prev, menteeId, m.mentorId) then prev
      else
        var r := prev + [MentorMatch(menteeId, m.mentorId, m.score)];
        assert r[..|matches|] == prev[..|matches|];
        r
  }

  /** After recording, every listed mentor is paired with the mentee. */
  lemma {:induction false} RecordedPairs(matches: seq<MentorMatch>, menteeId: int, top: seq<MatchOut>)
    ensures forall k :: 0 <= k < |top| ==> HasMatch(Recorded(matches, menteeId, top), menteeId, top[k].mentorId)
    decreases |top|
  {
    if top != [] {
      var init := top[..|top| - 1];
      var prev := Recorded(matches, menteeId, init);
      var m := top[|top| - 1];
      RecordedPairs(matches, menteeId, init);
      var row := MentorMatch(menteeId, m.mentorId, m.score);
      forall k | 0 <= k < |top|
        ensures HasMatch(Recorded(matches, menteeId, top), menteeId, top[k].mentorId)
      {
        if k < |top| - 1 {
          assert init[k] == top[k];
        }
        HasMatchAppend(prev, row, menteeId, top[k].mentorId);
      }
    }
  }

  /** Recording never pairs the same mentee and mentor twice. */
  lemma {:induction false} RecordedUnique(matches: seq<MentorMatch>, menteeId: int, top: seq<MatchOut>)
    requires UniquePairs(matches)
    ensures UniquePairs(Recorded(matches, menteeId, top))
    decreases |top|
  {
    if top != [] {
      var init := top[..|top| - 1];
      var prev := Recorded(matches, menteeId, init);
      var m := top[|top| - 1];
      RecordedUnique(matches, menteeId, init);
      if !HasMatch(prev, menteeId, m.mentorId) {
        var r := prev + [MentorMatch(menteeId, m.mentorId, m.score)];
        forall i | 0 <= i < |prev|
          ensures prev[i].menteeId != menteeId || prev[i].mentorId != m.mentorId
        {
          assert !PairOf(menteeId, m.mentorId)(prev[i]);
        }
        assert forall i :: 0 <= i < |prev| ==> r[i] == prev[i];
      }
    }
  }

  /** The loop over the mentors: each one is scored and kept when it
      reaches the minimum. */
  method CollectCandidates(scoreOf: MentorProfile -> MatchOut, mentors: seq<MentorProfile>, minScore: int)
    returns (candidates: seq<MatchOut>)
    ensures candidates == Filter(AllMatches(scoreOf, mentors), AtLeast(minScore))
  {
    candidates := [];
    assert mentors[..0] == [];
    for i := 0 to |mentors|
      invariant candidates == Filter(AllMatches(scoreOf, mentors[..i]), AtLeast(minScore))
    {
      var row := scoreOf(mentors[i]);
      KeepStep(scoreOf, mentors, i, row, minScore);
      if row.score >= minScore {
        candidates := candidates + [row];
      }
    }
    assert mentors[..|mentors|] == mentors;
  }

  /** One step of the loop: scoring one more mentor adds its row to the
      kept rows exactly when it reaches the minimum. */
  lemma KeepStep(scoreOf: MentorProfile -> MatchOut, mentors: seq<MentorProfile>, i: nat, row: MatchOut, minScore: int)
    requires i < |mentors| && row == scoreOf(mentors[i])
    ensures Filter(AllMatches(scoreOf, mentors[..i + 1]), AtLeast(minScore))
      == Filter(AllMatches(scoreOf, mentors[..i]), AtLeast(minScore)) + (if row.score >= minScore then [row] else [])
  {
    assert mentors[..i + 1][..i] == mentors[..i];
    FilterAppend(AllMatches(scoreOf, mentors[..i]), [row], AtLeast(minScore));
    FilterSingle(row, AtLeast(minScore));
  }

  /** The guards of get_ai_mentor_matches, in order: mentees only (403),
      the caller needs an intake (404) and some mentor profile must exist
      (404). On success, the caller's intake. */
  function MatchGuard(intakes: seq<MenteeIntake>, profiles: seq<MentorProfile>, actor: User): (r: Result<MenteeIntake>)
    ensures actor.role != "mentee" ==> r == Err(Forbidden)
    ensures r.Ok? <==> actor.role == "mentee" && FirstIndex(intakes, Owner(actor.id)).Some? && profiles != []
    ensures actor.role == "mentee" && r.Err? ==> r == Err(NotFound)
    ensures r.Ok? ==> r.value in intakes && r.value.userId == actor.id
  {
    if actor.role != "mentee" then Err(Forbidden)
    else
      match FirstIndex(intakes, Owner(actor.id))
      case None => Err(NotFound)
      case Some(i) => if profiles == [] then Err(NotFound) else Ok(intakes[i])
  }

  /** get_ai_mentor_matches: after the guards, returns the ranked list and
      records a match for each listed mentor not yet paired with the
      caller. */
  method GetMentorMatches(db: Database, actor: User, limit: int, minScore: int) returns (r: Result<seq<MatchOut>>)
    modifies db`matches
    ensures var g := MatchGuard(db.intakes, db.profiles, actor);
      if g.Err? then r == Err(g.error) && db.matches == old(db.matches)
      else
        && r == Ok(Ranked(AllMatches(Scorer(g.value), db.profiles), minScore, limit))
        && db.matches == Recorded(old(db.matches), actor.id, r.value)
  {
    var g := MatchGuard(db.intakes, db.profiles, actor);
    if g.Err? {
      return Err(g.error);
    }
    var top := RankAndRecord(db, actor.id, g.value, limit, minScore);
    r := Ok(top);
  }

  /** Scoring, sorting and cutting the list, then recording it. */
  method RankAndRecord(db: Database, menteeId: int, intake: MenteeIntake, limit: int, minScore: int)
    returns (top: seq<MatchOut>)
    modifies db`matches
    ensures top == Ranked(AllMatches(Scorer(intake), db.profiles), minScore, limit)
    ensures db.matches == Recorded(old(db.matches), menteeId, top)
  {
    var candidates := CollectCandidates(Scorer(intake), db.profiles, minScore);
    var sorted := SortDesc(candidates, ScoreKey);
    top := PyTake(sorted, limit);
    RecordMatches(db, menteeId, top);
  }

  /** The loop that stores a match for each listed mentor, querying the
      table as it stands (rows added earlier in the loop included). */
  method RecordMatches(db: Database, menteeId: int, top: seq<MatchOut>)
    modifies db`matches
    ensures db.matches == Recorded(old(db.matches), menteeId, top)
  {
    for i := 0 to |top|
      invariant db.matches == Recorded(old(db.matches), menteeId, top[..i])
    {
      var m := top[i];
      assert top[..i + 1][..i] == top[..i];
      if FirstIndex(db.matches, PairOf(menteeId, m.mentorId)).None? {
        db.matches := db.matches + [MentorMatch(menteeId, m.mentorId, m.score)];
      }
    }
    assert top[..|top|] == top;
  }

  /** Asking for matches twice records nothing new the second time: every
      listed mentor is already paired with the caller. */
  lemma {:induction false} RecordedAgain(matches: seq<MentorMatch>, menteeId: int, top: seq<MatchOut>)
    ensures Recorded(Recorded(matches, menteeId, top), menteeId, top) == Recorded(matches, menteeId, top)
  {
    var once := Recorded(matches, menteeId, top);
    RecordedPairs(matches, menteeId, top);
    RecordedPaired(once, menteeId, top);
  }

  /** Recording mentors that are all paired already changes nothing. */
  lemma {:induction false} RecordedPaired(matches: seq<MentorMatch>, menteeId: int, top: seq<MatchOut>)
    requires forall k :: 0 <= k < |top| ==> HasMatch(matches, menteeId, top[k].mentorId)
    ensures Recorded(matches, menteeId, top) == matches
    decreases |top|
  {
    if top != [] {
      assert forall k :: 0 <= k < |top| - 1 ==> top[..|top| - 1][k] == top[k];
      RecordedPaired(matches, menteeId, top[..|top| - 1]);
    }
  }
}

=== FILE: blog_store.dfy ===
/** The blog's post store: the metadata list read from posts.json, the
    markdown bodies collected by the bundler's glob (a list of path and
    content pairs, in the glob's order), the date ordering of the index page
    and the lookup of one post by its slug. */
module BlogStore {
  import opened Common

  /** One record of posts.json; every field may be absent. */
  datatype PostMeta = PostMeta(slug: Option<string>, title: Option<string>, date: Option<string>, lastmod: Option<string>)

  /** A post page: the metadata spread into a new object with its content. */
  datatype Post = Post(meta: PostMeta, content: string)

  // ---------------------------------------------------------------------
  // Ordering by date
  // ---------------------------------------------------------------------

  /** Code-unit order on strings: `a` is a prefix of `b`, or the first
      difference has the smaller character in `a`. */
  predicate LexLe(a: string, b: string)
    decreases |a|
  {
    a == [] || (b != [] && (a[0] < b[0] || (a[0] == b[0] && LexLe(a[1..], b[1..]))))
  }

  lemma {:induction false} LexLeTotal(a: string, b: string)
    ensures LexLe(a, b) || LexLe(b, a)
    decreases |a|
  {
    if a != [] && b != [] && a[0] == b[0] {
      LexLeTotal(a[1..], b[1..]);
    }
  }

  lemma {:induction false} LexLeRefl(a: string)
    ensures LexLe(a, a)
    decreases |a|
  {
    if a != [] {
      LexLeRefl(a[1..]);
    }
  }

  lemma {:induction false} LexLeTrans(a: string, b: string, c: string)
    requires LexLe(a, b) && LexLe(b, c)
    ensures LexLe(a, c)
    decreases |a|
  {
    if a != [] && a[0] == b[0] && b[0] == c[0] {
      LexLeTrans(a[1..], b[1..], c[1..]);
    }
  }

  /** `b.date || ''`: a missing or empty date sorts as the empty string. */
  function DateKey(p: PostMeta): string
  {
    if Truthy(p.date) then p.date.value else ""
  }

  /** Latest date first. */
  predicate NewestFirst(xs: seq<PostMeta>)
  {
    forall i, j :: 0 <= i < j < |xs| ==> LexLe(DateKey(xs[j]), DateKey(xs[i]))
  }

  /** Places `x` in front of the first post whose date is not later than its
      own, so that it stays ahead of the posts that follow it in the input
      and share its date. */
  function InsertByDate(x: PostMeta, ys: seq<PostMeta>): (r: seq<PostMeta>)
    requires NewestFirst(ys)
    ensures NewestFirst(r)
    ensures multiset(r) == multiset(ys) + multiset{x}
    ensures r[0] == x || (ys != [] && r[0] == ys[0])
  {
    if ys == [] || LexLe(DateKey(ys[0]), DateKey(x)) then
      forall j | 0 <= j < |ys| ensures LexLe(DateKey(ys[j]), DateKey(x)) {
        if j > 0 {
          LexLeTrans(DateKey(ys[j]), DateKey(ys[0]), DateKey(x));
        }
      }
      PrependNewest(x, ys);
      [x] + ys
    else
      LexLeTotal(DateKey(ys[0]), DateKey(x));
      var tail := ys[1..];
      var rest := InsertByDate(x, tail);
      assert ys == [ys[0]] + tail;
      forall j | 0 <= j < |tail| ensures LexLe(DateKey(tail[j]), DateKey(ys[0])) {
        assert tail[j] == ys[j + 1];
      }
      BoundedByHead(ys[0], x, tail, rest);
      PrependNewest(ys[0], rest);
      [ys[0]] + rest
  }

  /** Posts dated no later than `head`, rearranged and joined by `x`, are
      still dated no later than `head` when `x` is. */
  lemma BoundedByHead(head: PostMeta, x: PostMeta, tail: seq<PostMeta>, rest: seq<PostMeta>)
    requires forall j :: 0 <= j < |tail| ==> LexLe(DateKey(tail[j]), DateKey(head))
    requires LexLe(DateKey(x), DateKey(head))
    requires multiset(rest) == multiset(tail) + multiset{x}
    ensures forall j :: 0 <= j < |rest| ==> LexLe(DateKey(rest[j]), DateKey(head))
  {
    forall j | 0 <= j < |rest| ensures LexLe(DateKey(rest[j]), DateKey(head)) {
      assert rest[j] in multiset(rest);
      if rest[j] != x {
        assert rest[j] in tail;
      }
    }
  }

  /** A post dated no earlier than every post of a sorted list may go in
      front of it. */
  lemma PrependNewest(x: PostMeta, ys: seq<PostMeta>)
    requires NewestFirst(ys)
    requires forall j :: 0 <= j < |ys| ==> LexLe(DateKey(ys[j]), DateKey(x))
    ensures NewestFirst([x] + ys)
  {
    var r := [x] + ys;
    forall i, j | 0 <= i < j < |r| ensures LexLe(DateKey(r[j]), DateKey(r[i])) {
      assert r[j] == ys[j - 1];
      if i > 0 {
        assert r[i] == ys[i - 1];
      }
    }
  }

  /** getAllPosts: a sorted copy of the metadata list, latest date first;
      the input list itself is a value and stays as it was. */
  function GetAllPosts(posts: seq<PostMeta>): (r: seq<PostMeta>)
    ensures NewestFirst(r)
    ensures multiset(r) == multiset(posts)
  {
    if posts == [] then []
    else
      assert posts == [posts[0]] + posts[1..];
      InsertByDate(posts[0], GetAllPosts(posts[1..]))
  }

  /** The listed posts are exactly the metadata records. */
  lemma AllPostsMembers(posts: seq<PostMeta>)
    ensures |GetAllPosts(posts)| == |posts|
    ensures forall p :: p in GetAllPosts(posts) <==> p in posts
  {
    var r := GetAllPosts(posts);
    assert |r| == |multiset(r)| == |multiset(posts)| == |posts|;
    forall p ensures p in r <==> p in posts {
      assert p in r <==> p in multiset(r);
      assert p in posts <==> p in multiset(posts);
    }
  }

  /** Posts already in descending date order are listed as they are. */
  lemma {:induction false} SortedPostsUnchanged(posts: seq<PostMeta>)
    requires NewestFirst(posts)
    ensures GetAllPosts(posts) == posts
    decreases |posts|
  {
    if posts != [] {
      var tail := posts[1..];
      assert NewestFirst(tail);
      SortedPostsUnchanged(tail);
      assert GetAllPosts(posts) == InsertByDate(posts[0], tail);
      assert tail == [] || LexLe(DateKey(tail[0]), DateKey(posts[0]));
      assert posts == [posts[0]] + tail;
    }
  }

  function DatedOn(d: string): PostMeta -> bool
  {
    (p: PostMeta) => DateKey(p) == d
  }

  /** Inserting keeps the relative order of the posts of any one date, with
      the inserted post first among them. */
  lemma {:induction false} InsertByDateStable(x: PostMeta, ys: seq<PostMeta>, d: string)
    requires NewestFirst(ys)
    ensures Filter(InsertByDate(x, ys), DatedOn(d)) ==
      (if DateKey(x) == d then [x] else []) + Filter(ys, DatedOn(d))
    decreases |ys|
  {
    var r := InsertByDate(x, ys);
    if ys == [] || LexLe(DateKey(ys[0]), DateKey(x)) {
      assert r == [x] + ys;
      assert r[1..] == ys;
    } else {
      LexLeRefl(DateKey(x));
      assert NewestFirst(ys[1..]);
      InsertByDateStable(x, ys[1..], d);
      var rest := InsertByDate(x, ys[1..]);
      assert r == [ys[0]] + rest;
      assert r[1..] == rest;
    }
  }

  /** getAllPosts is stable: the posts of any one date appear in the order
      of the metadata list. */
  lemma {:induction false} AllPostsStable(posts: seq<PostMeta>, d: string)
    ensures Filter(GetAllPosts(posts), DatedOn(d)) == Filter(posts, DatedOn(d))
    decreases |posts|
  {
    if posts != [] {
      AllPostsStable(posts[1..], d);
      InsertByDateStable(posts[0], GetAllPosts(posts[1..]), d);
    }
  }

  // ---------------------------------------------------------------------
  // Lookup by slug
  // ---------------------------------------------------------------------

  /** The glob key of a post's markdown file ends with `/<slug>.md`. */
  function PathFor(slug: string): ((string, string)) -> bool
  {
    (e: (string, string)) => EndsWith(e.0, "/" + slug + ".md")
  }

  /** getMarkdownBySlug: the content of the first module whose path ends
      with `/<slug>.md`, or nothing when no path does. */
  function GetMarkdownBySlug(modules: seq<(string, string)>, slug: string): (r: Option<string>)
    ensures r.None? <==> forall i :: 0 <= i < |modules| ==> !EndsWith(modules[i].0, "/" + slug + ".md")
    ensures r.Some? ==> exists i :: 0 <= i < |modules| && EndsWith(modules[i].0, "/" + slug + ".md")
                          && r.value == modules[i].1
                          && forall k :: 0 <= k < i ==> !EndsWith(modules[k].0, "/" + slug + ".md")
  {
    match FirstIndex(modules, PathFor(slug))
    case None => None
    case Some(i) => Some(modules[i].1)
  }

  function SlugIs(slug: string): PostMeta -> bool
  {
    (p: PostMeta) => p.slug == Some(slug)
  }

  /** getPostBySlug: nothing when no metadata carries the slug or its
      markdown is missing or empty; otherwise the first record with the
      slug together with the markdown. */
  function GetPostBySlug(posts: seq<PostMeta>, modules: seq<(string, string)>, slug: string): (r: Option<Post>)
    ensures r.None? <==> (forall i :: 0 <= i < |posts| ==> posts[i].slug != Some(slug))
                          || !Truthy(GetMarkdownBySlug(modules, slug))
    ensures r.Some? ==> exists i :: 0 <= i < |posts| && r.value.meta == posts[i] && posts[i].slug == Some(slug)
                          && forall k :: 0 <= k < i ==> posts[k].slug != Some(slug)
    ensures r.Some? ==> Some(r.value.content) == GetMarkdownBySlug(modules, slug) && r.value.content != []
  {
    match FirstIndex(posts, SlugIs(slug))
    case None => None
    case Some(i) =>
      var content := GetMarkdownBySlug(modules, slug);
      if !Truthy(content) then None
      else Some(Post(posts[i], content.value))
  }

  /** A post page shows one of the posts listed on the index page. */
  lemma PostIsListed(posts: seq<PostMeta>, modules: seq<(string, string)>, slug: string)
    requires GetPostBySlug(posts, modules, slug).Some?
    ensures GetPostBySlug(posts, modules, slug).value.meta in GetAllPosts(posts)
  {
    AllPostsMembers(posts);
  }
}

=== FILE: booking_routes.dfy ===
/** Booking scheduling and lifecycle: end-time arithmetic, conflict detection,
    booking creation and status changes, weekly availability, blocked dates
    and the open-slot listing of a mentor. */
module BookingRoutes {
  import opened Common
  import opened Models
  import opened BookingSchema
  import opened Sorting

  // =====================================================================
  // Helpers
  // =====================================================================

  /** The end of a session: only the time of day is kept, so a session that
      runs past midnight ends early the next day. The result is the unique
      time of day congruent to start + duration modulo 24 hours. */
  function CalculateEndTime(start: Minute, duration: int): (r: Minute)
    ensures (start + duration - r) % MinutesPerDay == 0
    ensures start + duration < MinutesPerDay && duration >= 0 ==> r == start + duration
    ensures MinutesPerDay <= start + duration < 2 * MinutesPerDay ==> r == start + duration - MinutesPerDay
  {
    (start + duration) % MinutesPerDay
  }

  /** The half-open intervals [s1, e1) and [s2, e2) share a moment. */
  predicate Overlaps(s1: int, e1: int, s2: int, e2: int)
  {
    s1 < e2 && e1 > s2
  }

  /** Python truthiness of an optional id: present and non-zero. */
  predicate Excludes(exclude: Option<int>, id: int)
  {
    exclude.Some? && exclude.value != 0 && id == exclude.value
  }

  /** `b` is an active booking of the mentor on the date, not the excluded
      one, whose interval overlaps [start, end). */
  predicate ConflictsWith(b: Booking, mentorId: int, date: Date, start: Minute, end: Minute, exclude: Option<int>)
  {
    b.mentorId == mentorId && b.date == date && b.status.IsActive() && !Excludes(exclude, b.id)
    && Overlaps(start, end, b.start, b.end)
  }

  predicate HasConflict(bookings: seq<Booking>, mentorId: int, date: Date, start: Minute, end: Minute, exclude: Option<int>)
  {
    exists i :: 0 <= i < |bookings| && ConflictsWith(bookings[i], mentorId, date, start, end, exclude)
  }

  /** check_booking_conflict: scans the bookings and stops at the first
      conflicting one. */
  method CheckBookingConflict(bookings: seq<Booking>, mentorId: int, date: Date, start: Minute, end: Minute, exclude: Option<int>)
    returns (conflict: bool)
    ensures conflict <==> HasConflict(bookings, mentorId, date, start, end, exclude)
    ensures conflict ==> exists i :: 0 <= i < |bookings| && bookings[i].status.IsActive() && bookings[i].start < end && start < bookings[i].end
  {
    var i := 0;
    while i < |bookings|
      invariant 0 <= i <= |bookings|
      invariant forall k :: 0 <= k < i ==> !ConflictsWith(bookings[k], mentorId, date, start, end, exclude)
    {
      var b := bookings[i];
      if b.mentorId == mentorId && b.date == date && (b.status == Requested || b.status == Confirmed)
        && !(exclude.Some? && exclude.value != 0 && b.id == exclude.value)
      {
        if start < b.end && end > b.start {
          assert ConflictsWith(bookings[i], mentorId, date, start, end, exclude);
          return true;
        }
      }
      i := i + 1;
    }
    return false;
  }

  /** Cancelled and completed bookings, and intervals that only touch, never
      conflict. */
  lemma NeverConflicting(b: Booking, mentorId: int, date: Date, start: Minute, end: Minute, exclude: Option<int>)
    requires !b.status.IsActive() || end == b.start || start == b.end
    ensures !ConflictsWith(b, mentorId, date, start, end, exclude)
  {
  }

  /** Because end times wrap at midnight, a 23:00 two-hour request ends at
      01:00 and is not seen to overlap an active 23:30-23:45 booking. */
  lemma MidnightWrapHidesOverlap()
    ensures CalculateEndTime(1380, 120) == 60
    ensures !HasConflict([Booking(1, 2, 3, 700000, 1410, 1425, 15, Confirmed, 0, "pending", None, None, None, None)],
                         3, 700000, 1380, CalculateEndTime(1380, 120), None)
  {
  }

  /** The spans the conflict check evidently means to compare: each booking
      runs from its start for its duration on a continuous minute line
      (minutes since day 0), so a session may run past midnight into the
      next date. */
  predicate SpansOverlap(b: Booking, mentorId: int, date: Date, start: Minute, duration: int, exclude: Option<int>)
  {
    b.mentorId == mentorId && b.status.IsActive() && !Excludes(exclude, b.id)
    && Overlaps(date * MinutesPerDay + start, date * MinutesPerDay + start + duration,
                b.date * MinutesPerDay + b.start, b.date * MinutesPerDay + b.start + b.duration)
  }

  predicate HasSpanConflict(bookings: seq<Booking>, mentorId: int, date: Date, start: Minute, duration: int, exclude: Option<int>)
  {
    exists i :: 0 <= i < |bookings| && SpansOverlap(bookings[i], mentorId, date, start, duration, exclude)
  }

  /** The corrected check sees the overlap the wrapped end time hides. */
  lemma SpanConflictCatchesWrap()
    ensures HasSpanConflict([Booking(1, 2, 3, 700000, 1410, 1425, 15, Confirmed, 0, "pending", None, None, None, None)],
                            3, 700000, 1380, 120, None)
  {
    var bookings := [Booking(1, 2, 3, 700000, 1410, 1425, 15, Confirmed, 0, "pending", None, None, None, None)];
    assert SpansOverlap(bookings[0], 3, 700000, 1380, 120, None);
  }

  /** Where no session crosses midnight, the corrected check and the
      source's check agree. */
  lemma {:induction false} SpanConflictAgreesWithoutWrap(bookings: seq<Booking>, mentorId: int, date: Date, start: Minute,
                                                         duration: int, exclude: Option<int>)
    requires start + duration < MinutesPerDay
    requires forall k :: 0 <= k < |bookings| ==>
      bookings[k].start + bookings[k].duration < MinutesPerDay && bookings[k].end == bookings[k].start + bookings[k].duration
    ensures start + duration >= 0 ==>
      (HasSpanConflict(bookings, mentorId, date, start, duration, exclude) <==>
       HasConflict(bookings, mentorId, date, start, start + duration, exclude))
  {
    if start + duration >= 0 {
      forall k | 0 <= k < |bookings|
        ensures SpansOverlap(bookings[k], mentorId, date, start, duration, exclude)
            <==> ConflictsWith(bookings[k], mentorId, date, start, start + duration, exclude)
      {
        var b := bookings[k];
        if b.date < date {
          assert b.date * MinutesPerDay + MinutesPerDay <= date * MinutesPerDay;
        } else if b.date > date {
          assert date * MinutesPerDay + MinutesPerDay <= b.date * MinutesPerDay;
        }
      }
    }
  }

  /** A session's price in pence: the hourly rate times the duration in
      hours, rounded down to the penny. */
  function SessionAmount(hourlyRate: int, duration: int): (r: int)
    ensures 60 * r <= hourlyRate * duration < 60 * r + 60
    ensures hourlyRate >= 0 && duration >= 0 ==> r >= 0
    ensures duration == 60 ==> r == hourlyRate
  {
    (hourlyRate * duration) / 60
  }

  // =====================================================================
  // Creating a booking
  // =====================================================================

  predicate IsMentorUser(u: User, id: int) { u.id == id && Lower(u.role) == "mentor" }

  predicate IsBlocked(blocked: seq<BlockedDate>, mentorId: int, date: Date)
  {
    exists k :: 0 <= k < |blocked| && blocked[k].mentorId == mentorId && blocked[k].date == date
  }

  /** Selects the mentor_profiles row of one user. */
  function ProfileOf(userId: int): MentorProfile -> bool
  {
    (p: MentorProfile) => p.userId == userId
  }

  predicate HasProfile(profiles: seq<MentorProfile>, userId: int)
  {
    exists k :: 0 <= k < |profiles| && profiles[k].userId == userId
  }

  /** The row create_booking inserts. */
  function NewBooking(id: int, menteeId: int, req: BookingCreate, hourlyRate: int): (b: Booking)
    ensures b.id == id && b.menteeId == menteeId && b.mentorId == req.mentorId
    ensures b.date == req.date && b.start == req.start && b.duration == req.duration
    ensures (b.start + b.duration - b.end) % MinutesPerDay == 0
    ensures b.status == Requested && b.paymentStatus == "pending" && b.paymentIntentId.None?
    ensures 60 * b.amount <= hourlyRate * req.duration < 60 * b.amount + 60
    ensures b.menteeMessage == req.menteeMessage && b.mentorNotes.None? && b.cancellationReason.None?
  {
    Booking(id, menteeId, req.mentorId, req.date, req.start, CalculateEndTime(req.start, req.duration),
            req.duration, Requested, SessionAmount(hourlyRate, req.duration), "pending",
            None, req.menteeMessage, None, None)
  }

  predicate MentorExists(users: seq<User>, mentorId: int)
  {
    exists k :: 0 <= k < |users| && IsMentorUser(users[k], mentorId)
  }

  /** What create_booking decides, in its order of checks: role (403), mentor
      (404), mentor profile (404), slot conflict (409), blocked date (400). */
  function CreateBookingOutcome(users: seq<User>, profiles: seq<MentorProfile>, bookings: seq<Booking>,
                                blocked: seq<BlockedDate>, actor: User, req: BookingCreate, newId: int): (r: Result<Booking>)
    ensures Lower(actor.role) != "mentee" ==> r == Err(Forbidden)
    ensures r.Ok? <==>
              && Lower(actor.role) == "mentee"
              && MentorExists(users, req.mentorId)
              && HasProfile(profiles, req.mentorId)
              && !HasConflict(bookings, req.mentorId, req.date, req.start, CalculateEndTime(req.start, req.duration), None)
              && !IsBlocked(blocked, req.mentorId, req.date)
    ensures Lower(actor.role) == "mentee" && !MentorExists(users, req.mentorId) ==> r == Err(NotFound)
    ensures Lower(actor.role) == "mentee" && MentorExists(users, req.mentorId) && !HasProfile(profiles, req.mentorId)
      ==> r == Err(NotFound)
    ensures Lower(actor.role) == "mentee" && MentorExists(users, req.mentorId) && HasProfile(profiles, req.mentorId)
      && !HasConflict(bookings, req.mentorId, req.date, req.start, CalculateEndTime(req.start, req.duration), None)
      && IsBlocked(blocked, req.mentorId, req.date)
      ==> r == Err(BadRequest)
    ensures r.Ok? ==>
              && r.value.id == newId && r.value.menteeId == actor.id && r.value.mentorId == req.mentorId
              && r.value.status == Requested && r.value.end == CalculateEndTime(req.start, req.duration)
              && r.value.start == req.start && r.value.date == req.date && r.value.duration == req.duration
    ensures r.Ok? ==> exists k :: 0 <= k < |profiles| && profiles[k].userId == req.mentorId &&
                                  r.value.amount == SessionAmount(profiles[k].hourlyRate, req.duration)
    ensures r.Ok? ==> FirstIndex(profiles, ProfileOf(req.mentorId)).Some? &&
                      r.value == NewBooking(newId, actor.id, req,
                                            profiles[FirstIndex(profiles, ProfileOf(req.mentorId)).value].hourlyRate)
    ensures Lower(actor.role) == "mentee" && MentorExists(users, req.mentorId)
      && HasProfile(profiles, req.mentorId)
      && HasConflict(bookings, req.mentorId, req.date, req.start, CalculateEndTime(req.start, req.duration), None)
      ==> r == Err(Conflict)
  {
    if Lower(actor.role) != "mentee" then Err(Forbidden)
    else if FirstIndex(users, (u: User) => IsMentorUser(u, req.mentorId)).None? then Err(NotFound)
    else
      match FirstIndex(profiles, ProfileOf(req.mentorId))
      case None => Err(NotFound)
      case Some(pi) =>
        var end := CalculateEndTime(req.start, req.duration);
        if HasConflict(bookings, req.mentorId, req.date, req.start, end, None) then Err(Conflict)
        else if IsBlocked(blocked, req.mentorId, req.date) then Err(BadRequest)
        else Ok(NewBooking(newId, actor.id, req, profiles[pi].hourlyRate))
  }

  /** create_booking (mentee only). */
  method CreateBooking(db: Database, actor: User, req: BookingCreate) returns (r: Result<Booking>)
    modifies db`bookings, db`nextId
    ensures r == CreateBookingOutcome(old(db.users), db.profiles, old(db.bookings), db.blocked, actor, req, old(db.nextId))
    ensures r.Ok? ==> db.bookings == old(db.bookings) + [r.value] && db.nextId == old(db.nextId) + 1
    ensures r.Err? ==> db.bookings == old(db.bookings) && db.nextId == old(db.nextId)
  {
    if Lower(actor.role) != "mentee" {
      return Err(Forbidden);
    }
    var mentor := FirstIndex(db.users, (u: User) => IsMentorUser(u, req.mentorId));
    if mentor.None? {
      return Err(NotFound);
    }
    var profile := FirstIndex(db.profiles, ProfileOf(req.mentorId));
    if profile.None? {
      return Err(NotFound);
    }
    var end := CalculateEndTime(req.start, req.duration);
    var conflict := CheckBookingConflict(db.bookings, req.mentorId, req.date, req.start, end, None);
    if conflict {
      return Err(Conflict);
    }
    var blockedAt := FirstIndex(db.blocked, (b: BlockedDate) => b.mentorId == req.mentorId && b.date == req.date);
    if blockedAt.Some? {
      assert IsBlocked(db.blocked, req.mentorId, req.date);
      return Err(BadRequest);
    }
    var id := db.FreshId();
    var booking := NewBooking(id, actor.id, req, db.profiles[profile.value].hourlyRate);
    db.bookings := db.bookings + [booking];
    return Ok(booking);
  }

  // =====================================================================
  // The double-booking invariant
  // =====================================================================

  /** No two active bookings of a mentor on the same date overlap. */
  predicate NoDoubleBooking(bookings: seq<Booking>)
  {
    forall i, j :: 0 <= i < |bookings| && 0 <= j < |bookings| && i != j && bookings[i].status.IsActive() ==>
      !ConflictsWith(bookings[j], bookings[i].mentorId, bookings[i].date, bookings[i].start, bookings[i].end, None)
  }

  /** A successful create_booking keeps active bookings pairwise disjoint. */
  lemma {:induction false} CreateKeepsNoDoubleBooking(users: seq<User>, profiles: seq<MentorProfile>, bookings: seq<Booking>,
                                     blocked: seq<BlockedDate>, actor: User, req: BookingCreate, newId: int)
    requires NoDoubleBooking(bookings)
    requires CreateBookingOutcome(users, profiles, bookings, blocked, actor, req, newId).Ok?
    ensures NoDoubleBooking(bookings + [CreateBookingOutcome(users, profiles, bookings, blocked, actor, req, newId).value])
  {
    var n := CreateBookingOutcome(users, profiles, bookings, blocked, actor, req, newId).value;
    var all := bookings + [n];
    assert !HasConflict(bookings, n.mentorId, n.date, n.start, n.end, None);
    forall i, j | 0 <= i < |all| && 0 <= j < |all| && i != j && all[i].status.IsActive()
      ensures !ConflictsWith(all[j], all[i].mentorId, all[i].date, all[i].start, all[i].end, None)
    {
      if i == |bookings| {
        assert all[j] == bookings[j];
        assert !ConflictsWith(bookings[j], n.mentorId, n.date, n.start, n.end, None);
      } else if j == |bookings| {
        assert all[i] == bookings[i];
        assert !ConflictsWith(bookings[i], n.mentorId, n.date, n.start, n.end, None);
      } else {
        assert all[i] == bookings[i] && all[j] == bookings[j];
      }
    }
  }

  // =====================================================================
  // Status changes
  // =====================================================================

  /** What update_booking_status does to one booking for a participant or
      an outsider. */
  function ApplyStatusUpdate(b: Booking, actorId: int, u: StatusUpdate): (r: Result<Booking>)
    ensures b.mentorId != actorId && b.menteeId != actorId ==> r == Err(Forbidden)
    ensures u.status == Confirmed && (b.mentorId == actorId || b.menteeId == actorId) ==>
      (r.Ok? <==> b.mentorId == actorId)
    ensures u.status == Cancelled && (b.mentorId == actorId || b.menteeId == actorId) ==>
      (r.Ok? <==> b.status != Completed)
    ensures u.status == Completed ==> (r.Ok? <==> b.mentorId == actorId && b.status == Confirmed)
    ensures r.Err? ==> r.error == Forbidden || r.error == BadRequest
    ensures r.Ok? ==> r.value.status == (if u.status == Requested then b.status else u.status)
    ensures r.Ok? ==> r.value.cancellationReason == (if u.status == Cancelled then u.cancellationReason else b.cancellationReason)
    ensures r.Ok? ==> r.value.mentorNotes == (if Truthy(u.mentorNotes) && b.mentorId == actorId then u.mentorNotes else b.mentorNotes)
    ensures r.Ok? ==> r.value.(status := b.status, cancellationReason := b.cancellationReason, mentorNotes := b.mentorNotes) == b
  {
    var isMentor := b.mentorId == actorId;
    var isMentee := b.menteeId == actorId;
    if !(isMentor || isMentee) then Err(Forbidden)
    else
      var moved :=
        match u.status
        case Confirmed => if !isMentor then Err(Forbidden) else Ok(b.(status := Confirmed))
        case Cancelled =>
          if b.status == Completed then Err(BadRequest)
          else Ok(b.(status := Cancelled, cancellationReason := u.cancellationReason))
        case Completed =>
          if !isMentor then Err(Forbidden)
          else if b.status != Confirmed then Err(BadRequest)
          else Ok(b.(status := Completed))
        // ParseStatusTarget never yields Requested, so a validated update never reaches this case.
        case Requested => Ok(b);
      match moved
      case Err(e) => Err(e)
      case Ok(b') => Ok(if Truthy(u.mentorNotes) && isMentor then b'.(mentorNotes := u.mentorNotes) else b')
  }

  /** update_booking_status: 404 for an unknown id, otherwise the booking is
      replaced by the outcome of ApplyStatusUpdate, or left alone on error. */
  method UpdateBookingStatus(db: Database, bookingId: int, actorId: int, u: StatusUpdate) returns (r: Result<Booking>)
    modifies db`bookings
    ensures FirstIndex(old(db.bookings), (b: Booking) => b.id == bookingId).None? ==>
      r == Err(NotFound) && db.bookings == old(db.bookings)
    ensures FirstIndex(old(db.bookings), (b: Booking) => b.id == bookingId).Some? ==>
      var i := FirstIndex(old(db.bookings), (b: Booking) => b.id == bookingId).value;
      r == ApplyStatusUpdate(old(db.bookings)[i], actorId, u) &&
      db.bookings == if r.Ok? then old(db.bookings)[i := r.value] else old(db.bookings)
  {
    var found := FirstIndex(db.bookings, (b: Booking) => b.id == bookingId);
    if found.None? {
      return Err(NotFound);
    }
    var i := found.value;
    r := ApplyStatusUpdate(db.bookings[i], actorId, u);
    if r.Ok? {
      db.bookings := db.bookings[i := r.value];
    }
  }

  /** Cancelling or completing never creates a double booking. */
  lemma StatusUpdateKeepsNoDoubleBooking(bookings: seq<Booking>, i: nat, actorId: int, u: StatusUpdate)
    requires i < |bookings| && NoDoubleBooking(bookings)
    requires u.status != Confirmed
    requires ApplyStatusUpdate(bookings[i], actorId, u).Ok?
    ensures NoDoubleBooking(bookings[i := ApplyStatusUpdate(bookings[i], actorId, u).value])
  {
    var nb := ApplyStatusUpdate(bookings[i], actorId, u).value;
    var after := bookings[i := nb];
    assert nb.status.IsActive() ==> nb.status == bookings[i].status;
    forall p, q | 0 <= p < |after| && 0 <= q < |after| && p != q && after[p].status.IsActive()
      ensures !ConflictsWith(after[q], after[p].mentorId, after[p].date, after[p].start, after[p].end, None)
    {
      assert bookings[p].status.IsActive();
      assert !ConflictsWith(bookings[q], bookings[p].mentorId, bookings[p].date, bookings[p].start, bookings[p].end, None);
    }
  }

  /** Confirming checks only the actor, never the prior status: a mentor can
      revive a cancelled booking whose slot has since been taken, and two
      active bookings then overlap. */
  lemma ConfirmCanReviveCancelled(taken: Booking, cancelled: Booking)
    requires taken == Booking(1, 10, 20, 700000, 600, 660, 60, Confirmed, 0, "pending", None, None, None, None)
    requires cancelled == taken.(id := 2, menteeId := 11, status := Cancelled)
    ensures NoDoubleBooking([taken, cancelled])
    ensures ApplyStatusUpdate(cancelled, 20, StatusUpdate(Confirmed, None, None)).Ok?
    ensures !NoDoubleBooking([taken, ApplyStatusUpdate(cancelled, 20, StatusUpdate(Confirmed, None, None)).value])
  {
    var revived := cancelled.(status := Confirmed);
    assert ApplyStatusUpdate(cancelled, 20, StatusUpdate(Confirmed, None, None)) == Ok(revived);
    var before := [taken, cancelled];
    forall i, j | 0 <= i < 2 && 0 <= j < 2 && i != j && before[i].status.IsActive()
      ensures !ConflictsWith(before[j], before[i].mentorId, before[i].date, before[i].start, before[i].end, None)
    {
      assert i == 0 && j == 1;
    }
    var after := [taken, ApplyStatusUpdate(cancelled, 20, StatusUpdate(Confirmed, None, None)).value];
    assert after[1] == revived;
    assert after[0].status.IsActive();
    assert ConflictsWith(after[1], after[0].mentorId, after[0].date, after[0].start, after[0].end, None);
  }

  // =====================================================================
  // Listing one's bookings
  // =====================================================================

  /** Ordering key for "session date descending, then start time descending". */
  function BookingKey(b: Booking): int
  {
    b.date * MinutesPerDay + b.start
  }

  /** The key order is exactly the lexicographic (date, start) order. */
  lemma BookingKeyOrder(a: Booking, b: Booking)
    ensures BookingKey(a) >= BookingKey(b) <==> a.date > b.date || (a.date == b.date && a.start >= b.start)
  {
    if a.date > b.date {
      assert a.date * MinutesPerDay >= b.date * MinutesPerDay + MinutesPerDay;
    } else if a.date < b.date {
      assert b.date * MinutesPerDay >= a.date * MinutesPerDay + MinutesPerDay;
    }
  }

  predicate Owns(role: string, actorId: int, b: Booking)
  {
    if role == "mentee" then b.menteeId == actorId else b.mentorId == actorId
  }

  /** get_my_bookings: the caller's bookings as mentee or as mentor,
      optionally of one status, newest session first. */
  method GetMyBookings(db: Database, actor: User, statusFilter: Option<BookingStatus>) returns (r: Result<seq<Booking>>)
    ensures Lower(actor.role) != "mentee" && Lower(actor.role) != "mentor" <==> r == Err(Forbidden)
    ensures r.Ok? ==> SortedDesc(r.value, BookingKey)
    ensures r.Ok? ==> forall b :: b in r.value <==>
      b in db.bookings && Owns(Lower(actor.role), actor.id, b) && (statusFilter.Some? ==> b.status == statusFilter.value)
    ensures r.Ok? ==> multiset(r.value) == multiset(Filter(db.bookings, (b: Booking) =>
      Owns(Lower(actor.role), actor.id, b) && (statusFilter.Some? ==> b.status == statusFilter.value)))
  {
    var role := Lower(actor.role);
    if role != "mentee" && role != "mentor" {
      return Err(Forbidden);
    }
    var mine := Filter(db.bookings, (b: Booking) =>
      Owns(role, actor.id, b) && (statusFilter.Some? ==> b.status == statusFilter.value));
    var sorted := SortDesc(mine, BookingKey);
    SortDescMembers(mine, BookingKey);
    return Ok(sorted);
  }

  // =====================================================================
  // Weekly availability and blocked dates
  // =====================================================================

  /** An active slot of the mentor on the weekday overlaps [start, end). */
  predicate AvailabilityClash(availability: seq<Availability>, mentorId: int, day: int, start: Minute, end: Minute)
  {
    exists k :: 0 <= k < |availability| && availability[k].mentorId == mentorId && availability[k].dayOfWeek == day
      && availability[k].isActive && Overlaps(start, end, availability[k].start, availability[k].end)
  }

  /** Active weekly slots of one mentor on one weekday are pairwise disjoint. */
  predicate NoOverlappingAvailability(availability: seq<Availability>)
  {
    forall i, j :: 0 <= i < |availability| && 0 <= j < |availability| && i != j
      && availability[i].isActive && availability[j].isActive
      && availability[i].mentorId == availability[j].mentorId && availability[i].dayOfWeek == availability[j].dayOfWeek
      ==> !Overlaps(availability[i].start, availability[i].end, availability[j].start, availability[j].end)
  }

  /** create_availability (exact role "mentor"): refuses a slot that overlaps
      one of the mentor's active slots on the same weekday; the new slot is
      active. */
  method CreateAvailability(db: Database, actor: User, req: AvailabilityCreate) returns (r: Result<Availability>)
    modifies db`availability, db`nextId
    ensures actor.role != "mentor" ==> r == Err(Forbidden)
    ensures actor.role == "mentor" ==>
      (r.Err? <==> AvailabilityClash(old(db.availability), actor.id, req.dayOfWeek, req.start, req.end))
    ensures r.Err? ==> r.error in {Forbidden, BadRequest}
    ensures r.Ok? ==> r.value == Availability(old(db.nextId), actor.id, req.dayOfWeek, req.start, req.end, true)
    ensures r.Ok? ==> db.availability == old(db.availability) + [r.value] && db.nextId == old(db.nextId) + 1
    ensures r.Err? ==> db.availability == old(db.availability) && db.nextId == old(db.nextId)
  {
    if actor.role != "mentor" {
      return Err(Forbidden);
    }
    var existing := db.availability;
    var k := 0;
    while k < |existing|
      invariant 0 <= k <= |existing|
      invariant forall m :: 0 <= m < k ==>
                  !(existing[m].mentorId == actor.id && existing[m].dayOfWeek == req.dayOfWeek &&
                    existing[m].isActive && Overlaps(req.start, req.end, existing[m].start, existing[m].end))
    {
      var slot := existing[k];
      if slot.mentorId == actor.id && slot.dayOfWeek == req.dayOfWeek && slot.isActive {
        if req.start < slot.end && req.end > slot.start {
          return Err(BadRequest);
        }
      }
      k := k + 1;
    }
    var id := db.FreshId();
    var created := Availability(id, actor.id, req.dayOfWeek, req.start, req.end, true);
    db.availability := db.availability + [created];
    return Ok(created);
  }

  /** Adding a slot that clashes with no active slot keeps active slots disjoint. */
  lemma {:induction false} AddSlotKeepsNoOverlap(availability: seq<Availability>, a: Availability)
    requires NoOverlappingAvailability(availability)
    requires !AvailabilityClash(availability, a.mentorId, a.dayOfWeek, a.start, a.end)
    ensures NoOverlappingAvailability(availability + [a])
  {
    var all := availability + [a];
    forall i, j | 0 <= i < |all| && 0 <= j < |all| && i != j && all[i].isActive && all[j].isActive
      && all[i].mentorId == all[j].mentorId && all[i].dayOfWeek == all[j].dayOfWeek
      ensures !Overlaps(all[i].start, all[i].end, all[j].start, all[j].end)
    {
      if i == |availability| {
        assert all[j] == availability[j];
      } else if j == |availability| {
        assert all[i] == availability[i];
        assert !Overlaps(a.start, a.end, availability[i].start, availability[i].end);
      } else {
        assert all[i] == availability[i] && all[j] == availability[j];
      }
    }
  }

  /** update_availability_slot: only the owner may switch a slot on or off;
      nothing but is_active changes. */
  method UpdateAvailabilitySlot(db: Database, slotId: int, actorId: int, isActive: bool) returns (r: Result<Availability>)
    modifies db`availability
    ensures FirstIndex(old(db.availability), (a: Availability) => a.id == slotId).None? ==>
      r == Err(NotFound) && db.availability == old(db.availability)
    ensures FirstIndex(old(db.availability), (a: Availability) => a.id == slotId).Some? ==>
      var i := FirstIndex(old(db.availability), (a: Availability) => a.id == slotId).value;
      if old(db.availability)[i].mentorId != actorId then r == Err(Forbidden) && db.availability == old(db.availability)
      else r == Ok(old(db.availability)[i].(isActive := isActive)) && db.availability == old(db.availability)[i := r.value]
  {
    var found := FirstIndex(db.availability, (a: Availability) => a.id == slotId);
    if found.None? {
      return Err(NotFound);
    }
    var slot := db.availability[found.value];
    if slot.mentorId != actorId {
      return Err(Forbidden);
    }
    var updated := slot.(isActive := isActive);
    db.availability := db.availability[found.value := updated];
    return Ok(updated);
  }

  /** Switching a slot back on is not checked for overlaps, so it can break
      the disjointness that create_availability keeps. */
  lemma ReactivationCanOverlap(on: Availability, off: Availability)
    requires on == Availability(1, 20, 0, 600, 720, true)
    requires off == Availability(2, 20, 0, 660, 780, false)
    ensures NoOverlappingAvailability([on, off])
    ensures !NoOverlappingAvailability([on, off.(isActive := true)])
  {
    var back := off.(isActive := true);
    assert [on, back][0] == on && [on, back][1] == back;
  }

  /** No mentor has the same date blocked twice. */
  predicate UniqueBlockedDates(blocked: seq<BlockedDate>)
  {
    forall i, j :: 0 <= i < j < |blocked| ==>
      !(blocked[i].mentorId == blocked[j].mentorId && blocked[i].date == blocked[j].date)
  }

  /** create_blocked_date (exact role "mentor"): a date already blocked by the
      mentor is refused with 400. */
  method CreateBlockedDate(db: Database, actor: User, date: Date, reason: Option<string>) returns (r: Result<BlockedDate>)
    modifies db`blocked, db`nextId
    ensures actor.role != "mentor" ==> r == Err(Forbidden)
    ensures actor.role == "mentor" ==> (r.Err? <==> IsBlocked(old(db.blocked), actor.id, date))
    ensures r.Err? ==> r.error in {Forbidden, BadRequest}
    ensures r.Ok? ==> r.value == BlockedDate(old(db.nextId), actor.id, date, reason)
    ensures r.Ok? ==> db.blocked == old(db.blocked) + [r.value] && db.nextId == old(db.nextId) + 1
    ensures r.Err? ==> db.blocked == old(db.blocked) && db.nextId == old(db.nextId)
    ensures UniqueBlockedDates(old(db.blocked)) ==> UniqueBlockedDates(db.blocked)
  {
    if actor.role != "mentor" {
      return Err(Forbidden);
    }
    var existing := FirstIndex(db.blocked, (b: BlockedDate) => b.mentorId == actor.id && b.date == date);
    if existing.Some? {
      assert IsBlocked(db.blocked, actor.id, date);
      return Err(BadRequest);
    }
    var id := db.FreshId();
    var created := BlockedDate(id, actor.id, date, reason);
    db.blocked := db.blocked + [created];
    return Ok(created);
  }

  // =====================================================================
  // Open slots of a mentor
  // =====================================================================

  datatype Slot = Slot(date: Date, start: Minute, end: Minute, duration: int)

  /** Some listed booking on `d` overlaps the weekly slot `a`. */
  predicate SlotBooked(bookings: seq<Booking>, d: Date, a: Availability)
  {
    exists j :: 0 <= j < |bookings| && bookings[j].date == d && Overlaps(bookings[j].start, bookings[j].end, a.start, a.end)
  }

  /** The slot `a` offers on date `d`: its times and its length in minutes. */
  function SlotOf(d: Date, a: Availability): Slot
  {
    Slot(d, a.start, a.end, a.end - a.start)
  }

  /** The open slots of one date, in availability order. */
  function DaySlots(d: Date, avails: seq<Availability>, bookings: seq<Booking>): seq<Slot>
    decreases |avails|
  {
    if avails == [] then []
    else
      var last := avails[|avails| - 1];
      DaySlots(d, avails[..|avails| - 1], bookings)
        + (if last.dayOfWeek == Weekday(d) && !SlotBooked(bookings, d, last) then [SlotOf(d, last)] else [])
  }

  /** The open slots of the dates lo..hi, date by date. */
  function SlotsBetween(lo: Date, hi: Date, avails: seq<Availability>, blockedDates: seq<Date>, bookings: seq<Booking>): seq<Slot>
    decreases hi - lo + 1
  {
    if hi < lo then []
    else SlotsBetween(lo, hi - 1, avails, blockedDates, bookings)
           + (if hi in blockedDates then [] else DaySlots(hi, avails, bookings))
  }

  /** A slot of a date comes from a weekly slot of that weekday with no
      overlapping booking on the date, and lasts end - start minutes. */
  lemma {:induction false} DaySlotsSound(d: Date, avails: seq<Availability>, bookings: seq<Booking>, s: Slot)
    requires s in DaySlots(d, avails, bookings)
    ensures s.date == d && s.duration == s.end - s.start
    ensures exists a :: a in avails && a.dayOfWeek == Weekday(d) && !SlotBooked(bookings, d, a) && s == SlotOf(d, a)
    decreases |avails|
  {
    var init := avails[..|avails| - 1];
    var last := avails[|avails| - 1];
    if s in DaySlots(d, init, bookings) {
      DaySlotsSound(d, init, bookings, s);
      var a :| a in init && a.dayOfWeek == Weekday(d) && !SlotBooked(bookings, d, a) && s == SlotOf(d, a);
      assert a in avails;
    } else {
      assert s == SlotOf(d, last);
    }
  }

  /** Every weekly slot of the weekday that no booking overlaps is offered. */
  lemma {:induction false} DaySlotsComplete(d: Date, avails: seq<Availability>, bookings: seq<Booking>, a: Availability)
    requires a in avails && a.dayOfWeek == Weekday(d) && !SlotBooked(bookings, d, a)
    ensures SlotOf(d, a) in DaySlots(d, avails, bookings)
    decreases |avails|
  {
    var init := avails[..|avails| - 1];
    if a != avails[|avails| - 1] {
      assert avails == init + [avails[|avails| - 1]];
      assert a in init;
      DaySlotsComplete(d, init, bookings, a);
    }
  }

  /** Every listed slot lies in the range, on an unblocked date, and comes
      from a matching weekly slot that no booking on that date overlaps. */
  lemma {:induction false} SlotsBetweenSound(lo: Date, hi: Date, avails: seq<Availability>, blockedDates: seq<Date>,
                                             bookings: seq<Booking>, s: Slot)
    requires s in SlotsBetween(lo, hi, avails, blockedDates, bookings)
    ensures lo <= s.date <= hi && s.date !in blockedDates && s.duration == s.end - s.start
    ensures exists a :: a in avails && a.dayOfWeek == Weekday(s.date) && !SlotBooked(bookings, s.date, a) && s == SlotOf(s.date, a)
    decreases hi - lo + 1
  {
    if s in SlotsBetween(lo, hi - 1, avails, blockedDates, bookings) {
      SlotsBetweenSound(lo, hi - 1, avails, blockedDates, bookings, s);
    } else {
      DaySlotsSound(hi, avails, bookings, s);
    }
  }

  /** Conversely, every open weekly slot on every unblocked date of the range
      is listed. */
  lemma {:induction false} SlotsBetweenComplete(lo: Date, hi: Date, avails: seq<Availability>, blockedDates: seq<Date>,
                                                bookings: seq<Booking>, d: Date, a: Availability)
    requires lo <= d <= hi && d !in blockedDates
    requires a in avails && a.dayOfWeek == Weekday(d) && !SlotBooked(bookings, d, a)
    ensures SlotOf(d, a) in SlotsBetween(lo, hi, avails, blockedDates, bookings)
    decreases hi - lo + 1
  {
    var prev := SlotsBetween(lo, hi - 1, avails, blockedDates, bookings);
    var day := if hi in blockedDates then [] else DaySlots(hi, avails, bookings);
    assert SlotsBetween(lo, hi, avails, blockedDates, bookings) == prev + day;
    if d == hi {
      DaySlotsComplete(d, avails, bookings, a);
      assert SlotOf(d, a) in day;
    } else {
      SlotsBetweenComplete(lo, hi - 1, avails, blockedDates, bookings, d, a);
      assert SlotOf(d, a) in prev;
    }
  }

  lemma {:induction false} DaySlotsDates(d: Date, avails: seq<Availability>, bookings: seq<Booking>)
    ensures forall k :: 0 <= k < |DaySlots(d, avails, bookings)| ==> DaySlots(d, avails, bookings)[k].date == d
    decreases |avails|
  {
    if avails != [] {
      DaySlotsDates(d, avails[..|avails| - 1], bookings);
    }
  }

  /** Slot dates lie in lo..hi and never decrease. */
  predicate AscendingWithin(r: seq<Slot>, lo: Date, hi: Date)
  {
    (forall k :: 0 <= k < |r| ==> lo <= r[k].date <= hi)
    && forall p, q :: 0 <= p < q < |r| ==> r[p].date <= r[q].date
  }

  lemma {:induction false} SlotsBetweenAscending(lo: Date, hi: Date, avails: seq<Availability>, blockedDates: seq<Date>,
                                                 bookings: seq<Booking>)
    ensures AscendingWithin(SlotsBetween(lo, hi, avails, blockedDates, bookings), lo, hi)
    decreases hi - lo + 1
  {
    if hi >= lo {
      SlotsBetweenAscending(lo, hi - 1, avails, blockedDates, bookings);
      DaySlotsDates(hi, avails, bookings);
      var prev := SlotsBetween(lo, hi - 1, avails, blockedDates, bookings);
      var day := if hi in blockedDates then [] else DaySlots(hi, avails, bookings);
      var r := SlotsBetween(lo, hi, avails, blockedDates, bookings);
      assert r == prev + day;
      assert forall k :: 0 <= k < |day| ==> day[k].date == hi;
      assert AscendingWithin(prev, lo, hi - 1);
      forall k | 0 <= k < |r| ensures lo <= r[k].date <= hi {
        if k >= |prev| { assert r[k] == day[k - |prev|]; } else { assert r[k] == prev[k]; }
      }
      forall p, q | 0 <= p < q < |r| ensures r[p].date <= r[q].date {
        if q >= |prev| {
          assert r[q] == day[q - |prev|];
          if p >= |prev| { assert r[p] == day[p - |prev|]; } else { assert r[p] == prev[p]; }
        } else {
          assert r[p] == prev[p] && r[q] == prev[q];
        }
      }
    }
  }

  /** Without active weekly slots there is nothing to offer. */
  lemma {:induction false} NoAvailabilityNoSlots(lo: Date, hi: Date, blockedDates: seq<Date>, bookings: seq<Booking>)
    ensures SlotsBetween(lo, hi, [], blockedDates, bookings) == []
    decreases hi - lo + 1
  {
    if hi >= lo {
      NoAvailabilityNoSlots(lo, hi - 1, blockedDates, bookings);
    }
  }

  /** The weekly slots, blocked dates and bookings the listing consults. */
  function ActiveAvailability(availability: seq<Availability>, mentorId: int): seq<Availability>
  {
    Filter(availability, (a: Availability) => a.mentorId == mentorId && a.isActive)
  }

  function BlockedBetween(blocked: seq<BlockedDate>, mentorId: int, lo: Date, hi: Date): (r: seq<Date>)
    ensures forall d :: d in r <==> exists k :: 0 <= k < |blocked| && blocked[k].mentorId == mentorId && lo <= blocked[k].date <= hi && blocked[k].date == d
  {
    if blocked == [] then []
    else
      var rest := BlockedBetween(blocked[1..], mentorId, lo, hi);
      assert forall k :: 1 <= k < |blocked| ==> blocked[k] == blocked[1..][k - 1];
      var b := blocked[0];
      if b.mentorId == mentorId && lo <= b.date <= hi then [b.date] + rest else rest
  }

  function ActiveBookingsBetween(bookings: seq<Booking>, mentorId: int, lo: Date, hi: Date): seq<Booking>
  {
    Filter(bookings, (b: Booking) => b.mentorId == mentorId && lo <= b.date <= hi && b.status.IsActive())
  }

  /** The inner loops of the listing for one date: each weekly slot of the
      date's weekday is offered unless a booking on the date overlaps it. */
  method OpenSlotsOn(current: Date, avails: seq<Availability>, bookings: seq<Booking>) returns (day: seq<Slot>)
    ensures day == DaySlots(current, avails, bookings)
  {
    var dow := Weekday(current);
    var k := 0;
    day := [];
    while k < |avails|
      invariant 0 <= k <= |avails|
      invariant day == DaySlots(current, avails[..k], bookings)
    {
      var av := avails[k];
      assert avails[..k + 1][..k] == avails[..k];
      if av.dayOfWeek == dow {
        var isBooked := IsSlotBooked(current, av, bookings);
        if !isBooked {
          day := day + [Slot(current, av.start, av.end, av.end - av.start)];
        }
      }
      k := k + 1;
    }
    assert avails[..|avails|] == avails;
  }

  /** The innermost loop: stops at the first booking on the date that
      overlaps the weekly slot. */
  method IsSlotBooked(current: Date, av: Availability, bookings: seq<Booking>) returns (isBooked: bool)
    ensures isBooked <==> SlotBooked(bookings, current, av)
  {
    isBooked := false;
    var j := 0;
    while j < |bookings|
      invariant 0 <= j <= |bookings|
      invariant forall m :: 0 <= m < j ==> !(bookings[m].date == current && Overlaps(bookings[m].start, bookings[m].end, av.start, av.end))
    {
      var b := bookings[j];
      if b.date == current && b.start < av.end && b.end > av.start {
        isBooked := true;
        break;
      }
      j := j + 1;
    }
  }

  /** The date loop of the listing: blocked dates are skipped, every other
      date contributes its open slots. */
  method OpenSlotsBetween(startDate: Date, endDate: Date, avails: seq<Availability>, blockedDates: seq<Date>,
                          bookings: seq<Booking>) returns (slots: seq<Slot>)
    ensures slots == SlotsBetween(startDate, endDate, avails, blockedDates, bookings)
  {
    slots := [];
    var current := startDate;
    while current <= endDate
      invariant startDate <= current && (current <= endDate + 1 || current == startDate)
      invariant slots == SlotsBetween(startDate, current - 1, avails, blockedDates, bookings)
      decreases endDate - current + 1
    {
      if current in blockedDates {
        current := current + 1;
        continue;
      }
      var day := OpenSlotsOn(current, avails, bookings);
      slots := slots + day;
      current := current + 1;
    }
  }

  /** get_mentor_available_slots: 404 unless the id belongs to a user whose
      role is exactly "mentor"; otherwise the open slots of start..end. */
  method GetMentorAvailableSlots(db: Database, mentorId: int, startDate: Date, endDate: Date) returns (r: Result<seq<Slot>>)
    ensures r.Err? <==> forall k :: 0 <= k < |db.users| ==> !(db.users[k].id == mentorId && db.users[k].role == "mentor")
    ensures r.Err? ==> r.error == NotFound
    ensures r.Ok? ==> r.value == SlotsBetween(startDate, endDate, ActiveAvailability(db.availability, mentorId),
      BlockedBetween(db.blocked, mentorId, startDate, endDate), ActiveBookingsBetween(db.bookings, mentorId, startDate, endDate))
  {
    var mentor := FirstIndex(db.users, (u: User) => u.id == mentorId && u.role == "mentor");
    if mentor.None? {
      return Err(NotFound);
    }
    var avails := ActiveAvailability(db.availability, mentorId);
    var blockedDates := BlockedBetween(db.blocked, mentorId, startDate, endDate);
    var bookings := ActiveBookingsBetween(db.bookings, mentorId, startDate, endDate);
    if avails == [] {
      NoAvailabilityNoSlots(startDate, endDate, blockedDates, bookings);
      return Ok([]);
    }
    var slots := OpenSlotsBetween(startDate, endDate, avails, blockedDates, bookings);
    return Ok(slots);
  }
}

=== FILE: booking_schema.dfy ===
/** Request and response shapes of the booking endpoints and the field
    constraints that reject a request with 422 before any handler runs. */
module BookingSchema {
  import opened Common
  import opened Models

  /** Body of a booking request, before validation. */
  datatype BookingCreate = BookingCreate(
    mentorId: int,
    date: Date,
    start: Minute,
    duration: int,
    menteeMessage: Option<string>)

  const MinDuration := 30
  const MaxDuration := 240

  /** duration_minutes must lie between 30 minutes and 4 hours. */
  function ValidateBookingCreate(req: BookingCreate): (r: Result<BookingCreate>)
    ensures r.Ok? <==> MinDuration <= req.duration <= MaxDuration
    ensures r.Ok? ==> r.value == req
    ensures r.Err? ==> r.error == Unprocessable
  {
    if MinDuration <= req.duration <= MaxDuration then Ok(req) else Err(Unprocessable)
  }

  /** Body of a status change, before validation: the target is free text. */
  datatype StatusUpdateBody = StatusUpdateBody(
    status: string,
    cancellationReason: Option<string>,
    mentorNotes: Option<string>)

  /** A validated status change; reason and notes stay optional. */
  datatype StatusUpdate = StatusUpdate(
    status: BookingStatus,
    cancellationReason: Option<string>,
    mentorNotes: Option<string>)

  /** The status pattern: exactly "confirmed", "cancelled" or "completed"
      (the pattern is anchored at both ends, so no prefix, suffix or case
      variant is accepted). */
  function ParseStatusTarget(s: string): (r: Result<BookingStatus>)
    ensures r.Ok? <==> s == "confirmed" || s == "cancelled" || s == "completed"
    ensures r.Ok? ==> r.value != Requested && r.value.Name() == s
    ensures r.Err? ==> r.error == Unprocessable
  {
    if s == "confirmed" then Ok(Confirmed)
    else if s == "cancelled" then Ok(Cancelled)
    else if s == "completed" then Ok(Completed)
    else Err(Unprocessable)
  }

  /** "requested" is never a target, every other status round-trips. */
  lemma ParseStatusName(st: BookingStatus)
    ensures ParseStatusTarget(st.Name()) == if st == Requested then Err(Unprocessable) else Ok(st)
  {
  }

  function ValidateStatusUpdate(body: StatusUpdateBody): (r: Result<StatusUpdate>)
    ensures r.Ok? <==> ParseStatusTarget(body.status).Ok?
    ensures r.Ok? ==> r.value.status.Name() == body.status
    ensures r.Ok? ==> r.value.cancellationReason == body.cancellationReason
    ensures r.Ok? ==> r.value.mentorNotes == body.mentorNotes
    ensures r.Err? ==> r.error == Unprocessable
  {
    match ParseStatusTarget(body.status)
    case Ok(st) => Ok(StatusUpdate(st, body.cancellationReason, body.mentorNotes))
    case Err(e) => Err(e)
  }

  /** Body of a weekly availability slot. */
  datatype AvailabilityCreate = AvailabilityCreate(dayOfWeek: int, start: Minute, end: Minute)

  /** day_of_week must be 0 (Monday) to 6 (Sunday); start and end are not
      compared with each other. */
  function ValidateAvailabilityCreate(req: AvailabilityCreate): (r: Result<AvailabilityCreate>)
    ensures r.Ok? <==> 0 <= req.dayOfWeek <= 6
    ensures r.Ok? ==> r.value == req
    ensures r.Err? ==> r.error == Unprocessable
  {
    if 0 <= req.dayOfWeek <= 6 then Ok(req) else Err(Unprocessable)
  }

  /** Every weekday a date can have is a valid day_of_week. */
  lemma WeekdayIsValidDay(d: Date, s: Minute, e: Minute)
    ensures ValidateAvailabilityCreate(AvailabilityCreate(Weekday(d), s, e)).Ok?
  {
  }

  /** The booking as returned to clients: the closeout fields (meeting link,
      summary, consent) are never written by these routes and are absent. */
  datatype BookingOut = BookingOut(
    booking: Booking,
    meetingLink: Option<string>,
    sessionSummary: Option<string>,
    sessionSummarySubmitted: Option<int>,
    menteeConsent: Option<bool>,
    menteeConsentAt: Option<int>,
    menteeConsentNote: Option<string>)

  function ToBookingOut(b: Booking): (r: BookingOut)
    ensures r.booking == b
    ensures r.meetingLink.None? && r.sessionSummary.None? && r.sessionSummarySubmitted.None?
    ensures r.menteeConsent.None? && r.menteeConsentAt.None? && r.menteeConsentNote.None?
  {
    BookingOut(b, None, None, None, None, None, None)
  }
}

=== FILE: chat_routes.dfy ===
/** In-app chat between users linked by a mentorship or a booking: who may
    chat with whom, the list of conversations, sending a message and reading
    the messages between two users. Message times are abstract clock values,
    never negative. */
module ChatRoutes {
  import opened Common
  import opened Models
  import opened Sorting

  // =====================================================================
  // _chat_allowed
  // =====================================================================

  predicate Pair(x: int, y: int, a: int, b: int)
  {
    (x == a && y == b) || (x == b && y == a)
  }

  /** A mentorship (any status) or a booking (any status) joins the two
      users, in either direction. */
  predicate Linked(mentorships: seq<Mentorship>, bookings: seq<Booking>, a: int, b: int)
  {
    || (exists k :: 0 <= k < |mentorships| && Pair(mentorships[k].mentorId, mentorships[k].menteeId, a, b))
    || (exists k :: 0 <= k < |bookings| && Pair(bookings[k].mentorId, bookings[k].menteeId, a, b))
  }

  /** Two different users may chat exactly when they are linked; the link
      then holds in the other direction too. */
  predicate ChatAllowed(mentorships: seq<Mentorship>, bookings: seq<Booking>, a: int, b: int)
    ensures ChatAllowed(mentorships, bookings, a, b) ==> a != b && Linked(mentorships, bookings, b, a)
  {
    a != b && Linked(mentorships, bookings, a, b)
  }

  /** Chat permission does not depend on who asks, and nobody chats with
      themselves. */
  lemma ChatAllowedSymmetric(mentorships: seq<Mentorship>, bookings: seq<Booking>, a: int, b: int)
    ensures ChatAllowed(mentorships, bookings, a, b) == ChatAllowed(mentorships, bookings, b, a)
    ensures !ChatAllowed(mentorships, bookings, a, a)
  {
  }

  // =====================================================================
  // Messages between two users
  // =====================================================================

  predicate Between(m: Message, a: int, b: int)
  {
    Pair(m.senderId, m.recipientId, a, b)
  }

  /** The latest message between the two users (the earliest stored of
      equally late ones), if any. */
  function Latest(messages: seq<Message>, a: int, b: int): (r: Option<Message>)
    ensures r.None? <==> forall k :: 0 <= k < |messages| ==> !Between(messages[k], a, b)
    ensures r.Some? ==> r.value in messages && Between(r.value, a, b)
    ensures r.Some? ==> forall k :: 0 <= k < |messages| && Between(messages[k], a, b) ==> messages[k].createdAt <= r.value.createdAt
  {
    if messages == [] then None
    else
      var rest := Latest(messages[1..], a, b);
      assert forall k :: 1 <= k < |messages| ==> messages[k] == messages[1..][k - 1];
      if Between(messages[0], a, b) && (rest.None? || messages[0].createdAt >= rest.value.createdAt) then Some(messages[0])
      else rest
  }

  function CreatedAt(m: Message): int { m.createdAt }

  function BetweenPair(a: int, b: int): Message -> bool
  {
    (m: Message) => Between(m, a, b)
  }

  /** list_messages: 403 unless the two may chat; otherwise the messages
      between them, oldest first, cut to the first `limit`. */
  function ListMessages(mentorships: seq<Mentorship>, bookings: seq<Booking>, messages: seq<Message>,
                        me: int, other: int, limit: nat): (r: Result<seq<Message>>)
    ensures r.Err? <==> !ChatAllowed(mentorships, bookings, me, other)
    ensures r.Err? ==> r.error == Forbidden
    ensures r.Ok? ==> |r.value| == if limit < |Filter(messages, BetweenPair(me, other))| then limit
                                    else |Filter(messages, BetweenPair(me, other))|
    ensures r.Ok? ==> forall k :: 0 <= k < |r.value| ==> r.value[k] in messages && Between(r.value[k], me, other)
    ensures r.Ok? ==> forall i, j :: 0 <= i < j < |r.value| ==> r.value[i].createdAt <= r.value[j].createdAt
    ensures r.Ok? ==> forall k, m :: 0 <= k < |r.value| && m in messages && Between(m, me, other) && m !in r.value ==>
      r.value[k].createdAt <= m.createdAt
  {
    if !ChatAllowed(mentorships, bookings, me, other) then Err(Forbidden)
    else
      var r := PyTake(SortDesc(Filter(messages, BetweenPair(me, other)), NewerFirstKey), limit);
      OldestFirst(messages, me, other, limit, r);
      Ok(r)
  }

  /** Sorting on the negated time with `reverse=True` puts the oldest first. */
  function NewerFirstKey(m: Message): int
  {
    -m.createdAt
  }

  /** The first `limit` messages of the pair in time order are messages of
      the pair, oldest first, and no message of the pair they leave out is
      older than one they keep. */
  lemma OldestFirst(messages: seq<Message>, me: int, other: int, limit: nat, r: seq<Message>)
    requires r == PyTake(SortDesc(Filter(messages, BetweenPair(me, other)), NewerFirstKey), limit)
    ensures forall k :: 0 <= k < |r| ==> r[k] in messages && Between(r[k], me, other)
    ensures forall i, j :: 0 <= i < j < |r| ==> r[i].createdAt <= r[j].createdAt
    ensures forall k, m :: 0 <= k < |r| && m in messages && Between(m, me, other) && m !in r ==>
      r[k].createdAt <= m.createdAt
  {
    var between := Filter(messages, BetweenPair(me, other));
    var ordered := SortDesc(between, NewerFirstKey);
    SortDescMembers(between, NewerFirstKey);
    assert r == ordered[..|r|];
    forall k | 0 <= k < |r| ensures r[k] in messages && Between(r[k], me, other) {
      assert r[k] == ordered[k] && r[k] in between;
    }
    forall i, j | 0 <= i < j < |r| ensures r[i].createdAt <= r[j].createdAt {
      assert r[i] == ordered[i] && r[j] == ordered[j];
    }
    OldestLeftOut(messages, me, other, r);
  }

  lemma OldestLeftOut(messages: seq<Message>, me: int, other: int, r: seq<Message>)
    requires var ordered := SortDesc(Filter(messages, BetweenPair(me, other)), NewerFirstKey);
      |r| <= |ordered| && r == ordered[..|r|]
    ensures forall k, m :: 0 <= k < |r| && m in messages && Between(m, me, other) && m !in r ==>
      r[k].createdAt <= m.createdAt
  {
    var between := Filter(messages, BetweenPair(me, other));
    PrefixOfSortedIsTop(between, NewerFirstKey, |r|);
    forall k, m | 0 <= k < |r| && m in messages && Between(m, me, other) && m !in r
      ensures r[k].createdAt <= m.createdAt
    {
      var j :| 0 <= j < |messages| && messages[j] == m;
      assert BetweenPair(me, other)(messages[j]);
      assert m in between;
      assert NewerFirstKey(m) <= NewerFirstKey(r[k]);
    }
  }

  /** Every message between the pair is listed when there are at most
      `limit` of them. */
  lemma {:induction false} ListMessagesComplete(mentorships: seq<Mentorship>, bookings: seq<Booking>, messages: seq<Message>,
                                                me: int, other: int, limit: nat, k: nat)
    requires ChatAllowed(mentorships, bookings, me, other)
    requires |Filter(messages, BetweenPair(me, other))| <= limit
    requires k < |messages| && Between(messages[k], me, other)
    ensures messages[k] in ListMessages(mentorships, bookings, messages, me, other, limit).value
  {
    var between := Filter(messages, BetweenPair(me, other));
    SortDescMembers(between, NewerFirstKey);
  }

  // =====================================================================
  // send_message
  // =====================================================================

  /** send_message: empty or blank content is 400 before the permission
      check (403) and the recipient lookup (404); the stored content is the
      stripped text and `now` is the insertion time. */
  method SendMessage(db: Database, me: int, recipientId: int, content: string, now: int) returns (r: Result<Message>)
    modifies db`messages, db`nextId
    ensures Strip(content) == [] ==> r == Err(BadRequest)
    ensures Strip(content) != [] && !ChatAllowed(db.mentorships, db.bookings, me, recipientId) ==> r == Err(Forbidden)
    ensures (Strip(content) != [] && ChatAllowed(db.mentorships, db.bookings, me, recipientId)
      && FirstIndex(db.users, (u: User) => u.id == recipientId).None?) ==> r == Err(NotFound)
    ensures r.Err? ==> db.messages == old(db.messages) && db.nextId == old(db.nextId)
    ensures r.Ok? <==> (Strip(content) != [] && ChatAllowed(db.mentorships, db.bookings, me, recipientId)
      && FirstIndex(db.users, (u: User) => u.id == recipientId).Some?)
    ensures r.Ok? ==> (r.value == Message(old(db.nextId), me, recipientId, Strip(content), now)
      && db.messages == old(db.messages) + [r.value] && db.nextId == old(db.nextId) + 1)
  {
    var text := Strip(content);
    if text == [] {
      return Err(BadRequest);
    }
    if !ChatAllowed(db.mentorships, db.bookings, me, recipientId) {
      return Err(Forbidden);
    }
    var recipient := FirstIndex(db.users, (u: User) => u.id == recipientId);
    if recipient.None? {
      return Err(NotFound);
    }
    var id := db.FreshId();
    var msg := Message(id, me, recipientId, text, now);
    db.messages := db.messages + [msg];
    return Ok(msg);
  }

  /** What is stored is never blank and carries no surrounding whitespace. */
  lemma StoredContentTrimmed(content: string)
    requires Strip(content) != []
    ensures Trimmed(Strip(content)) && Strip(content) != []
  {
  }

  // =====================================================================
  // list_conversations
  // =====================================================================

  /** The other party of a mentorship or booking that involves `me`. */
  function Counterpart(mentorId: int, menteeId: int, me: int): int
  {
    if mentorId != me then mentorId else menteeId
  }

  /** `x` is the other party of some mentorship or booking involving `me`. */
  predicate IsCounterpart(mentorships: seq<Mentorship>, bookings: seq<Booking>, me: int, x: int)
  {
    || (exists k :: 0 <= k < |mentorships| && (mentorships[k].mentorId == me || mentorships[k].menteeId == me)
          && Counterpart(mentorships[k].mentorId, mentorships[k].menteeId, me) == x)
    || (exists k :: 0 <= k < |bookings| && (bookings[k].mentorId == me || bookings[k].menteeId == me)
          && Counterpart(bookings[k].mentorId, bookings[k].menteeId, me) == x)
  }

  ghost predicate Distinct<T>(xs: seq<T>)
  {
    forall i, j :: 0 <= i < j < |xs| ==> xs[i] != xs[j]
  }

  /** The counterpart set of list_conversations, held as a sequence without
      repetitions. */
  method CollectCounterparts(mentorships: seq<Mentorship>, bookings: seq<Booking>, me: int) returns (seen: seq<int>)
    ensures Distinct(seen)
    ensures forall x :: x in seen <==> IsCounterpart(mentorships, bookings, me, x)
  {
    seen := [];
    var i := 0;
    while i < |mentorships|
      invariant 0 <= i <= |mentorships|
      invariant Distinct(seen)
      invariant forall x :: x in seen <==>
        exists k :: 0 <= k < i && (mentorships[k].mentorId == me || mentorships[k].menteeId == me)
          && Counterpart(mentorships[k].mentorId, mentorships[k].menteeId, me) == x
    {
      var m := mentorships[i];
      if m.mentorId == me || m.menteeId == me {
        var c := Counterpart(m.mentorId, m.menteeId, me);
        if c !in seen {
          seen := seen + [c];
        }
      }
      i := i + 1;
    }
    var j := 0;
    while j < |bookings|
      invariant 0 <= j <= |bookings|
      invariant Distinct(seen)
      invariant forall x :: x in seen <==>
        || (exists k :: 0 <= k < |mentorships| && (mentorships[k].mentorId == me || mentorships[k].menteeId == me)
              && Counterpart(mentorships[k].mentorId, mentorships[k].menteeId, me) == x)
        || (exists k :: 0 <= k < j && (bookings[k].mentorId == me || bookings[k].menteeId == me)
              && Counterpart(bookings[k].mentorId, bookings[k].menteeId, me) == x)
    {
      var b := bookings[j];
      if b.mentorId == me || b.menteeId == me {
        var c := Counterpart(b.mentorId, b.menteeId, me);
        if c !in seen {
          seen := seen + [c];
        }
      }
      j := j + 1;
    }
  }

  /** A permutation of a sequence without repetitions has none either. */
  lemma {:induction false} DistinctPermutation<T>(xs: seq<T>, ys: seq<T>)
    requires Distinct(xs) && multiset(xs) == multiset(ys)
    ensures Distinct(ys)
  {
    forall i, j | 0 <= i < j < |ys|
      ensures ys[i] != ys[j]
    {
      if ys[i] == ys[j] {
        var v := ys[i];
        assert ys == ys[..j] + ys[j..];
        assert v in multiset(ys[..j]) && v in multiset(ys[j..]);
        assert multiset(ys)[v] >= 2;
        DistinctCount(xs, v);
        assert false;
      }
    }
  }

  lemma {:induction false} DistinctCount<T>(xs: seq<T>, v: T)
    requires Distinct(xs)
    ensures multiset(xs)[v] <= 1
  {
    if xs != [] {
      assert xs == [xs[0]] + xs[1..];
      DistinctCount(xs[1..], v);
      if v == xs[0] {
        assert v !in xs[1..];
      }
    }
  }

  /** A row of the conversation list (the display name is not modelled). */
  datatype Conversation = Conversation(otherId: int, lastMessage: Option<string>, lastAt: Option<int>)

  function ConversationWith(messages: seq<Message>, me: int, other: int): (c: Conversation)
    ensures c.otherId == other
    ensures c.lastAt.Some? <==> exists k :: 0 <= k < |messages| && Between(messages[k], me, other)
  {
    match Latest(messages, me, other)
    case None => Conversation(other, None, None)
    case Some(m) => Conversation(other, Some(m.content), Some(m.createdAt))
  }

  /** `x` may appear in the conversation list of `me`. */
  predicate Eligible(mentorships: seq<Mentorship>, bookings: seq<Booking>, users: seq<User>, me: int, x: int)
  {
    ChatAllowed(mentorships, bookings, me, x) && FirstIndex(users, (u: User) => u.id == x).Some?
  }

  predicate Listed(convs: seq<Conversation>, x: int)
  {
    exists k :: 0 <= k < |convs| && convs[k].otherId == x
  }

  /** Sorting by the negated id puts the smallest id first. */
  function Negated(x: int): int
  {
    -x
  }

  /** Sorting a sequence without repetitions, smallest first, makes it
      strictly ascending. */
  lemma AscendingIds(seen: seq<int>, ids: seq<int>)
    requires Distinct(seen) && ids == SortDesc(seen, Negated)
    ensures forall a, b :: 0 <= a < b < |ids| ==> ids[a] < ids[b]
  {
    DistinctPermutation(seen, ids);
    NegatedOrder(ids);
  }

  lemma NegatedOrder(ids: seq<int>)
    requires SortedDesc(ids, Negated) && Distinct(ids)
    ensures forall a, b :: 0 <= a < b < |ids| ==> ids[a] < ids[b]
  {
    forall a, b | 0 <= a < b < |ids|
      ensures ids[a] < ids[b]
    {
      assert Negated(ids[a]) >= Negated(ids[b]);
    }
  }

  lemma ListedAppend(convs: seq<Conversation>, c: Conversation, x: int)
    ensures Listed(convs + [c], x) <==> Listed(convs, x) || c.otherId == x
  {
    var all := convs + [c];
    if Listed(convs, x) {
      var k :| 0 <= k < |convs| && convs[k].otherId == x;
      assert all[k].otherId == x;
    }
    if c.otherId == x {
      assert all[|convs|].otherId == x;
    }
  }

  /** The loop of list_conversations over the counterparts in ascending id
      order: a conversation for each one that may chat with `me` and still
      exists. */
  method CollectConversations(mentorships: seq<Mentorship>, bookings: seq<Booking>, users: seq<User>,
                              messages: seq<Message>, me: int, ids: seq<int>) returns (convs: seq<Conversation>)
    requires forall a, b :: 0 <= a < b < |ids| ==> ids[a] < ids[b]
    ensures forall i, j :: 0 <= i < j < |convs| ==> convs[i].otherId < convs[j].otherId
    ensures forall k :: 0 <= k < |convs| ==> convs[k] == ConversationWith(messages, me, convs[k].otherId)
    ensures forall x :: Listed(convs, x) <==> x in ids && Eligible(mentorships, bookings, users, me, x)
  {
    convs := [];
    var i := 0;
    while i < |ids|
      invariant 0 <= i <= |ids|
      invariant forall a, b :: 0 <= a < b < |convs| ==> convs[a].otherId < convs[b].otherId
      invariant i < |ids| ==> forall k :: 0 <= k < |convs| ==> convs[k].otherId < ids[i]
      invariant forall k :: 0 <= k < |convs| ==> convs[k] == ConversationWith(messages, me, convs[k].otherId)
      invariant forall x :: Listed(convs, x) <==> x in ids[..i] && Eligible(mentorships, bookings, users, me, x)
    {
      var other := ids[i];
      var before := convs;
      if Eligible(mentorships, bookings, users, me, other) {
        convs := convs + [ConversationWith(messages, me, other)];
        forall x
          ensures Listed(convs, x) <==> Listed(before, x) || x == other
        {
          ListedAppend(before, ConversationWith(messages, me, other), x);
        }
      }
      assert ids[..i + 1] == ids[..i] + [other];
      if i + 1 < |ids| {
        assert other < ids[i + 1];
      }
      i := i + 1;
    }
    assert ids[..i] == ids;
  }

  /** The conversations before the final ordering: one per counterpart that
      may chat with `me` and still exists, in ascending id order, each with
      its latest message. */
  method ConversationCandidates(mentorships: seq<Mentorship>, bookings: seq<Booking>, users: seq<User>,
                                messages: seq<Message>, me: int) returns (convs: seq<Conversation>)
    ensures forall i, j :: 0 <= i < j < |convs| ==> convs[i].otherId < convs[j].otherId
    ensures forall k :: 0 <= k < |convs| ==> convs[k] == ConversationWith(messages, me, convs[k].otherId)
    ensures forall x :: Listed(convs, x) <==>
      IsCounterpart(mentorships, bookings, me, x) && Eligible(mentorships, bookings, users, me, x)
  {
    var seen := CollectCounterparts(mentorships, bookings, me);
    var ids := SortDesc(seen, Negated);
    SortDescMembers(seen, Negated);
    AscendingIds(seen, ids);
    convs := CollectConversations(mentorships, bookings, users, messages, me, ids);
  }

  // ---------------------------------------------------------------------
  // Final ordering: newest conversation first
  // ---------------------------------------------------------------------

  /** The sort key as written, `last_message_at or 0`: a time when there is
      a message, the integer 0 otherwise. */
  function OrderKeyAsWritten(c: Conversation): int
  {
    if c.lastAt.Some? then c.lastAt.value else 0
  }

  /** The ordering as written. Python refuses to compare a time with the
      integer 0, and a sort of two or more items must compare some item with
      a message against some item without one, so a list mixing the two
      fails with a server error; otherwise it is a stable sort, newest
      first. */
  function OrderConversationsAsWritten(convs: seq<Conversation>): (r: Result<seq<Conversation>>)
    ensures r.Err? <==> (|convs| >= 2
      && (exists k :: 0 <= k < |convs| && convs[k].lastAt.Some?)
      && (exists k :: 0 <= k < |convs| && convs[k].lastAt.None?))
    ensures r.Ok? ==> multiset(r.value) == multiset(convs) && SortedDesc(r.value, OrderKeyAsWritten)
  {
    if |convs| >= 2 && (exists k :: 0 <= k < |convs| && convs[k].lastAt.Some?)
                    && (exists k :: 0 <= k < |convs| && convs[k].lastAt.None?)
    then Err(ServerError)
    else Ok(SortDesc(convs, OrderKeyAsWritten))
  }

  /** A user with one conversation that has messages and one that has none
      gets a server error instead of a list. */
  lemma MixedConversationsFail(withMessage: Conversation, without: Conversation)
    requires withMessage == Conversation(7, Some("hello"), Some(100))
    requires without == Conversation(9, None, None)
    ensures OrderConversationsAsWritten([withMessage, without]) == Err(ServerError)
  {
    var cs := [withMessage, without];
    assert cs[0].lastAt.Some? && cs[1].lastAt.None?;
  }

  /** The evidently intended key: conversations without messages sort
      after every conversation with one. */
  function OrderKey(c: Conversation): int
  {
    if c.lastAt.Some? then c.lastAt.value else -1
  }

  /** Newest conversation first, conversations without messages last; ties
      keep the ascending id order. */
  function OrderConversations(convs: seq<Conversation>): (r: seq<Conversation>)
    ensures multiset(r) == multiset(convs)
    ensures SortedDesc(r, OrderKey)
  {
    SortDesc(convs, OrderKey)
  }

  /** With times that are never negative, every conversation with a message
      comes before every conversation without one, and among those with
      messages the newest comes first. */
  lemma {:induction false} MessagesFirst(convs: seq<Conversation>)
    requires forall k :: 0 <= k < |convs| && convs[k].lastAt.Some? ==> convs[k].lastAt.value >= 0
    ensures var r := OrderConversations(convs);
      forall i, j :: 0 <= i < j < |r| && r[j].lastAt.Some? ==> r[i].lastAt.Some? && r[i].lastAt.value >= r[j].lastAt.value
  {
    var r := OrderConversations(convs);
    forall k | 0 <= k < |r| && r[k].lastAt.Some? ensures r[k].lastAt.value >= 0 {
      assert r[k] in multiset(convs);
    }
  }

  /** Where the ordering as written succeeds, the corrected ordering gives
      the same list. */
  lemma {:induction false} OrderAgreesWhenDefined(convs: seq<Conversation>)
    requires OrderConversationsAsWritten(convs).Ok?
    ensures OrderConversationsAsWritten(convs).value == OrderConversations(convs)
  {
    if |convs| >= 2 {
      if forall k :: 0 <= k < |convs| ==> convs[k].lastAt.Some? {
        SortByAgreeingKeys(convs, OrderKeyAsWritten, OrderKey);
      } else {
        assert forall k :: 0 <= k < |convs| ==> convs[k].lastAt.None?;
        SortByConstantKey(convs, OrderKeyAsWritten);
        SortByConstantKey(convs, OrderKey);
      }
    } else {
      SortShort(convs, OrderKeyAsWritten);
      SortShort(convs, OrderKey);
    }
  }

  lemma {:induction false} SortByAgreeingKeys(xs: seq<Conversation>, k1: Conversation -> int, k2: Conversation -> int)
    requires forall y :: y in xs ==> k1(y) == k2(y)
    ensures SortDesc(xs, k1) == SortDesc(xs, k2)
  {
    if xs != [] {
      assert forall y :: y in xs[1..] ==> y in xs;
      SortByAgreeingKeys(xs[1..], k1, k2);
      var rest := SortDesc(xs[1..], k1);
      SortDescMembers(xs[1..], k1);
      InsertAgrees(xs[0], rest, k1, k2);
    }
  }

  lemma {:induction false} InsertAgrees(x: Conversation, ys: seq<Conversation>, k1: Conversation -> int, k2: Conversation -> int)
    requires SortedDesc(ys, k1) && SortedDesc(ys, k2)
    requires k1(x) == k2(x) && forall y :: y in ys ==> k1(y) == k2(y)
    ensures Insert(x, ys, k1) == Insert(x, ys, k2)
  {
    if ys != [] && k1(x) < k1(ys[0]) {
      assert forall y :: y in ys[1..] ==> y in ys;
      InsertAgrees(x, ys[1..], k1, k2);
    }
  }

  lemma {:induction false} SortByConstantKey(xs: seq<Conversation>, key: Conversation -> int)
    requires forall k :: 0 <= k < |xs| ==> key(xs[k]) == key(xs[0])
    ensures SortDesc(xs, key) == xs
  {
    if xs != [] {
      SortByConstantKey(xs[1..], key);
      assert xs == [xs[0]] + xs[1..];
    }
  }

  lemma SortShort(xs: seq<Conversation>, key: Conversation -> int)
    requires |xs| < 2
    ensures SortDesc(xs, key) == xs
  {
    if xs != [] {
      assert xs == [xs[0]] + xs[1..];
    }
  }

  /** list_conversations with the corrected ordering. Every counterpart is
      listed once, the caller never, and only users the caller may chat
      with. */
  method ListConversations(db: Database, me: int) returns (convs: seq<Conversation>)
    ensures SortedDesc(convs, OrderKey)
    ensures forall i, j :: 0 <= i < j < |convs| ==> convs[i].otherId != convs[j].otherId
    ensures forall k :: 0 <= k < |convs| ==> convs[k].otherId != me
    ensures forall k :: 0 <= k < |convs| ==> convs[k] == ConversationWith(db.messages, me, convs[k].otherId)
    ensures forall x :: Listed(convs, x) <==>
      IsCounterpart(db.mentorships, db.bookings, me, x) && Eligible(db.mentorships, db.bookings, db.users, me, x)
  {
    var candidates := ConversationCandidates(db.mentorships, db.bookings, db.users, db.messages, me);
    convs := OrderConversations(candidates);
    forall k | 0 <= k < |convs|
      ensures convs[k] in candidates
    {
      assert convs[k] in multiset(candidates);
    }
    forall x | Listed(candidates, x)
      ensures Listed(convs, x)
    {
      var a :| 0 <= a < |candidates| && candidates[a].otherId == x;
      assert candidates[a] in multiset(convs);
    }
    forall k | 0 <= k < |convs|
      ensures convs[k].otherId != me
    {
      var a :| 0 <= a < |candidates| && candidates[a] == convs[k];
      assert Listed(candidates, candidates[a].otherId);
    }
    DistinctPermutation(candidates, convs);
  }
}

=== FILE: common.dfy ===
/** Shared vocabulary of the model: optional values, the HTTP errors the route
    handlers raise, and the handful of string operations (strip, lower-case,
    substring test, split, join) that the Python and JavaScript code uses. */
module Common {

  datatype Option<T> = None | Some(value: T)

  /** The HTTPException status codes raised by the route handlers. */
  datatype Error = BadRequest | Forbidden | NotFound | Conflict | Unprocessable | ServerError
  {
    function Code(): int
    {
      match this
      case BadRequest => 400
      case Forbidden => 403
      case NotFound => 404
      case Conflict => 409
      case Unprocessable => 422
      case ServerError => 500
    }
  }

  datatype Result<T> = Ok(value: T) | Err(error: Error)

  /** Python truthiness of an optional string: present and non-empty. */
  predicate Truthy(s: Option<string>)
  {
    s.Some? && s.value != []
  }

  // ---------------------------------------------------------------------
  // Characters
  // ---------------------------------------------------------------------

  /** ASCII whitespace, as stripped by Python's str.strip and JavaScript's trim. */
  predicate IsSpace(c: char)
  {
    c == ' ' || c == '\t' || c == '\n' || c == '\r' || c == '\U{000B}' || c == '\U{000C}'
  }

  predicate IsUpper(c: char) { 'A' <= c <= 'Z' }
  predicate IsLowerLetter(c: char) { 'a' <= c <= 'z' }
  predicate IsLetter(c: char) { IsUpper(c) || IsLowerLetter(c) }
  predicate IsDigit(c: char) { '0' <= c <= '9' }

  function LowerChar(c: char): char
  {
    if IsUpper(c) then (c as int + 32) as char else c
  }

  function UpperChar(c: char): char
  {
    if IsLowerLetter(c) then (c as int - 32) as char else c
  }

  /** str.lower() / String.prototype.toLowerCase() on ASCII letters. */
  function Lower(s: string): (r: string)
    ensures |r| == |s|
    ensures forall k :: 0 <= k < |s| ==> r[k] == LowerChar(s[k])
  {
    if s == [] then [] else [LowerChar(s[0])] + Lower(s[1..])
  }

  lemma LowerIdempotent(s: string)
    ensures Lower(Lower(s)) == Lower(s)
  {
  }

  // ---------------------------------------------------------------------
  // Prefixes, suffixes, substrings
  // ---------------------------------------------------------------------

  predicate StartsWith(s: string, p: string)
  {
    |p| <= |s| && s[..|p|] == p
  }

  predicate EndsWith(s: string, p: string)
  {
    |p| <= |s| && s[|s| - |p|..] == p
  }

  /** Python's `needle in hay`, JavaScript's hay.includes(needle). */
  predicate Contains(hay: string, needle: string)
    decreases |hay|
  {
    StartsWith(hay, needle) || (|hay| > 0 && Contains(hay[1..], needle))
  }

  lemma {:induction false} ContainsAt(hay: string, needle: string, i: nat)
    requires i <= |hay| && StartsWith(hay[i..], needle)
    ensures Contains(hay, needle)
    decreases i
  {
    if i > 0 {
      assert hay[1..][i - 1..] == hay[i..];
      ContainsAt(hay[1..], needle, i - 1);
    }
  }

  lemma {:induction false} ContainsWitness(hay: string, needle: string) returns (i: nat)
    requires Contains(hay, needle)
    ensures i <= |hay| && StartsWith(hay[i..], needle)
    decreases |hay|
  {
    if StartsWith(hay, needle) {
      i := 0;
    } else {
      var j := ContainsWitness(hay[1..], needle);
      assert hay[1..][j..] == hay[j + 1..];
      i := j + 1;
    }
  }

  /** A character occurs in `hay` exactly when the one-character string does. */
  lemma {:induction false} ContainsChar(hay: string, c: char)
    ensures Contains(hay, [c]) <==> c in hay
    decreases |hay|
  {
    if |hay| > 0 {
      ContainsChar(hay[1..], c);
      assert hay == [hay[0]] + hay[1..];
    }
  }

  /** A substring of a substring is a substring. */
  lemma ContainsTrans(a: string, b: string, c: string)
    requires Contains(a, b) && Contains(b, c)
    ensures Contains(a, c)
  {
    var i := ContainsWitness(a, b);
    var j := ContainsWitness(b, c);
    assert a[i..][..|b|] == b;
    assert b[j..][..|c|] == c;
    assert a[i + j..][..|c|] == c by {
      forall k | 0 <= k < |c| ensures a[i + j + k] == c[k] {
        assert a[i + j + k] == a[i..][..|b|][j + k];
        assert b[j + k] == b[j..][..|c|][k];
      }
    }
    ContainsAt(a, c, i + j);
  }

  lemma EmptyIsContained(hay: string)
    ensures Contains(hay, [])
  {
    assert StartsWith(hay, []);
  }

  // ---------------------------------------------------------------------
  // Stripping whitespace
  // ---------------------------------------------------------------------

  function TrimStart(s: string): (r: string)
    ensures |r| <= |s| && r == s[|s| - |r|..]
    ensures r == [] || !IsSpace(r[0])
    ensures forall k :: 0 <= k < |s| - |r| ==> IsSpace(s[k])
  {
    if |s| > 0 && IsSpace(s[0]) then
      var t := TrimStart(s[1..]);
      assert s[1..][|s| - 1 - |t|..] == s[|s| - |t|..];
      forall k | 1 <= k < |s| - |t| ensures IsSpace(s[k]) {
        assert s[k] == s[1..][k - 1];
      }
      t
    else s
  }

  /** No leading and no trailing whitespace. */
  predicate Trimmed(s: string)
  {
    s == [] || (!IsSpace(s[0]) && !IsSpace(s[|s| - 1]))
  }

  /** Number of leading whitespace characters. */
  function LeadingSpace(s: string): (n: nat)
    ensures n <= |s| && (n == |s| || !IsSpace(s[n]))
    ensures forall k :: 0 <= k < n ==> IsSpace(s[k])
  {
    if |s| > 0 && IsSpace(s[0]) then LeadingSpace(s[1..]) + 1 else 0
  }

  /** Number of trailing whitespace characters. */
  function TrailingSpace(s: string): (n: nat)
    ensures n <= |s| && (n == |s| || !IsSpace(s[|s| - 1 - n]))
    ensures forall k :: |s| - n <= k < |s| ==> IsSpace(s[k])
  {
    if |s| > 0 && IsSpace(s[|s| - 1]) then TrailingSpace(s[..|s| - 1]) + 1 else 0
  }

  /** str.strip() / String.prototype.trim(): the infix of `s` that starts after
      its leading whitespace, neither starts nor ends with whitespace, and is
      followed only by whitespace; it is empty exactly for all-blank input. */
  function Strip(s: string): (r: string)
    ensures Trimmed(r)
    ensures LeadingSpace(s) + |r| <= |s|
    ensures s[LeadingSpace(s)..LeadingSpace(s) + |r|] == r
    ensures forall k :: LeadingSpace(s) + |r| <= k < |s| ==> IsSpace(s[k])
    ensures r == [] <==> forall k :: 0 <= k < |s| ==> IsSpace(s[k])
  {
    var i := LeadingSpace(s);
    if i == |s| then []
    else
      var j := |s| - TrailingSpace(s);
      s[i..j]
  }

  lemma StripTrimmed(s: string)
    requires Trimmed(s)
    ensures Strip(s) == s
  {
  }

  // ---------------------------------------------------------------------
  // Splitting and joining
  // ---------------------------------------------------------------------

  /** Index of the first occurrence of `c` in `s`. */
  function IndexOf(s: string, c: char): (i: nat)
    requires c in s
    ensures i < |s| && s[i] == c && c !in s[..i]
  {
    if s[0] == c then 0 else IndexOf(s[1..], c) + 1
  }

  /** str.split(sep) / String.prototype.split(sep) with a one-character
      separator: k separators give k + 1 pieces, none of which holds `sep`. */
  function Split(s: string, sep: char): (r: seq<string>)
    ensures |r| >= 1
    ensures forall k :: 0 <= k < |r| ==> sep !in r[k]
    decreases |s|
  {
    if sep !in s then [s]
    else
      var i := IndexOf(s, sep);
      [s[..i]] + Split(s[i + 1..], sep)
  }

  /** sep.join(parts) / parts.join(sep). */
  function Join(parts: seq<string>, sep: string): string
  {
    if |parts| == 0 then []
    else if |parts| == 1 then parts[0]
    else parts[0] + sep + Join(parts[1..], sep)
  }

  /** Joining a first part in front of one or more others. */
  lemma JoinCons(a: string, rest: seq<string>, sep: string)
    requires |rest| >= 1
    ensures Join([a] + rest, sep) == a + sep + Join(rest, sep)
  {
    assert ([a] + rest)[1..] == rest;
  }

  /** Joining the pieces of a split restores the input. */
  lemma {:induction false} JoinSplit(s: string, sep: char)
    ensures Join(Split(s, sep), [sep]) == s
    decreases |s|
  {
    if sep in s {
      var i := IndexOf(s, sep);
      var rest := Split(s[i + 1..], sep);
      assert Split(s, sep) == [s[..i]] + rest;
      JoinCons(s[..i], rest, [sep]);
      JoinSplit(s[i + 1..], sep);
      assert s == s[..i] + [sep] + s[i + 1..];
    }
  }

  /** A join of two or more parts starts with the first part and a
      separator and ends with a separator and the last part. */
  lemma {:induction false} JoinEnds(parts: seq<string>, sep: string)
    requires |parts| >= 2
    ensures StartsWith(Join(parts, sep), parts[0] + sep)
    ensures EndsWith(Join(parts, sep), sep + parts[|parts| - 1])
    decreases |parts|
  {
    var rest := Join(parts[1..], sep);
    var s := parts[0] + sep + rest;
    assert Join(parts, sep) == s;
    assert s[..|parts[0] + sep|] == parts[0] + sep;
    var t := sep + parts[|parts| - 1];
    if |parts| == 2 {
      assert rest == parts[1];
      assert s == parts[0] + t;
      assert s[|s| - |t|..] == t;
    } else {
      JoinEnds(parts[1..], sep);
      assert s[|s| - |t|..] == rest[|rest| - |t|..];
    }
  }

  /** A join of two or more parts starts with the first two parts and the
      separator between them. */
  lemma JoinStartsWithTwo(parts: seq<string>, sep: string)
    requires |parts| >= 2
    ensures StartsWith(Join(parts, sep), parts[0] + sep + parts[1])
  {
    var rest := Join(parts[1..], sep);
    var s := parts[0] + sep + rest;
    assert Join(parts, sep) == s;
    var p := parts[0] + sep + parts[1];
    if |parts| == 2 {
      assert rest == parts[1];
    } else {
      JoinEnds(parts[1..], sep);
      assert rest[..|parts[1]|] == parts[1];
    }
    assert s[..|p|] == p;
  }

  /** Splitting at a first separator that follows a separator-free prefix. */
  lemma SplitCons(a: string, sep: char, b: string)
    requires sep !in a
    ensures Split(a + [sep] + b, sep) == [a] + Split(b, sep)
  {
    var s := a + [sep] + b;
    assert s[|a|] == sep;
    assert forall j :: 0 <= j < |a| ==> s[j] == a[j];
    assert IndexOf(s, sep) == |a|;
    assert s[..|a|] == a;
    assert s[|a| + 1..] == b;
  }

  /** Splitting a join of separator-free parts gives the parts back. */
  lemma {:induction false} SplitJoin(parts: seq<string>, sep: char)
    requires |parts| >= 1
    requires forall k :: 0 <= k < |parts| ==> sep !in parts[k]
    ensures Split(Join(parts, [sep]), sep) == parts
    decreases |parts|
  {
    if |parts| > 1 {
      var rest := Join(parts[1..], [sep]);
      assert Join(parts, [sep]) == parts[0] + [sep] + rest;
      SplitCons(parts[0], sep, rest);
      SplitJoin(parts[1..], sep);
      assert parts == [parts[0]] + parts[1..];
    }
  }

  /** Length of the leading run of non-whitespace characters. */
  function WordLen(s: string): (n: nat)
    ensures n <= |s|
    ensures forall k :: 0 <= k < n ==> !IsSpace(s[k])
    ensures n == |s| || IsSpace(s[n])
  {
    if s == [] || IsSpace(s[0]) then 0 else WordLen(s[1..]) + 1
  }

  /** A string without whitespace. */
  predicate Unspaced(w: string)
  {
    forall j :: 0 <= j < |w| ==> !IsSpace(w[j])
  }

  /** Python's str.split() with no argument: the maximal runs of
      non-whitespace characters, in order. */
  function Words(s: string): (r: seq<string>)
    decreases |s|
  {
    var t := TrimStart(s);
    if t == [] then []
    else
      var n := WordLen(t);
      [t[..n]] + Words(t[n..])
  }

  /** Every word is non-empty and holds no whitespace. */
  lemma {:induction false} WordsUnspaced(s: string)
    ensures forall k :: 0 <= k < |Words(s)| ==> Words(s)[k] != [] && Unspaced(Words(s)[k])
    decreases |s|
  {
    var t := TrimStart(s);
    if t != [] {
      var n := WordLen(t);
      var word := t[..n];
      var rest := Words(t[n..]);
      assert Words(s) == [word] + rest;
      WordsUnspaced(t[n..]);
      assert word != [] && Unspaced(word) by {
        assert n > 0;
        forall j | 0 <= j < |word| ensures !IsSpace(word[j]) {
          assert word[j] == t[j];
        }
      }
      UnspacedCons(word, rest);
    }
  }

  lemma UnspacedCons(word: string, rest: seq<string>)
    requires word != [] && Unspaced(word)
    requires forall k :: 0 <= k < |rest| ==> rest[k] != [] && Unspaced(rest[k])
    ensures forall k :: 0 <= k < |[word] + rest| ==> ([word] + rest)[k] != [] && Unspaced(([word] + rest)[k])
  {
    var ws := [word] + rest;
    forall k | 0 < k < |ws| ensures ws[k] != [] && Unspaced(ws[k]) {
      assert ws[k] == rest[k - 1];
    }
  }

  // ---------------------------------------------------------------------
  // Python list helpers
  // ---------------------------------------------------------------------

  /** Python's `xs[:n]` for any integer `n` (a negative `n` counts from the end). */
  function PyTake<T>(xs: seq<T>, n: int): (r: seq<T>)
    ensures n >= 0 ==> |r| == if n < |xs| then n else |xs|
    ensures n < 0 ==> |r| == if -n < |xs| then |xs| + n else 0
    ensures r == xs[..|r|]
  {
    if n >= 0 then (if n < |xs| then xs[..n] else xs)
    else (if -n < |xs| then xs[..|xs| + n] else [])
  }

  // ---------------------------------------------------------------------
  // Query helpers: `.filter(...).first()` and `.filter(...).all()`
  // ---------------------------------------------------------------------

  /** Index of the first element satisfying `p`, if any. */
  function FirstIndex<T>(xs: seq<T>, p: T -> bool): (r: Option<nat>)
    ensures r.Some? ==> r.value < |xs| && p(xs[r.value])
    ensures r.Some? ==> forall k :: 0 <= k < r.value ==> !p(xs[k])
    ensures r.None? <==> forall k :: 0 <= k < |xs| ==> !p(xs[k])
  {
    if xs == [] then None
    else if p(xs[0]) then Some(0)
    else
      match FirstIndex(xs[1..], p)
      case None => None
      case Some(i) => Some(i + 1)
  }

  /** Appending keeps an existing first match, and otherwise the new
      element is the first match exactly when it satisfies `p`. */
  lemma {:induction false} FirstIndexAppend<T>(xs: seq<T>, x: T, p: T -> bool)
    ensures FirstIndex(xs + [x], p) ==
      if FirstIndex(xs, p).Some? then FirstIndex(xs, p) else if p(x) then Some(|xs|) else None
    decreases |xs|
  {
    if xs == [] {
      assert xs + [x] == [x];
    } else {
      assert (xs + [x])[1..] == xs[1..] + [x];
      FirstIndexAppend(xs[1..], x, p);
    }
  }

  /** Replacing an element by one that agrees on `p` keeps the first match. */
  lemma FirstIndexUpdate<T>(xs: seq<T>, i: nat, y: T, p: T -> bool)
    requires i < |xs| && p(y) == p(xs[i])
    ensures FirstIndex(xs[i := y], p) == FirstIndex(xs, p)
  {
    var ys := xs[i := y];
    assert forall k :: 0 <= k < |xs| ==> p(ys[k]) == p(xs[k]);
  }

  /** The elements satisfying `p`, in their original order. */
  function Filter<T>(xs: seq<T>, p: T -> bool): (r: seq<T>)
    ensures |r| <= |xs|
    ensures forall k :: 0 <= k < |r| ==> p(r[k]) && r[k] in xs
    ensures forall k :: 0 <= k < |xs| && p(xs[k]) ==> xs[k] in r
  {
    if xs == [] then []
    else if p(xs[0]) then [xs[0]] + Filter(xs[1..], p)
    else Filter(xs[1..], p)
  }

  /** Filtering keeps everything when every element qualifies. */
  lemma {:induction false} FilterAll<T>(xs: seq<T>, p: T -> bool)
    requires forall k :: 0 <= k < |xs| ==> p(xs[k])
    ensures Filter(xs, p) == xs
    decreases |xs|
  {
    if xs != [] {
      FilterAll(xs[1..], p);
      assert xs == [xs[0]] + xs[1..];
    }
  }

  lemma FilterSingle<T>(x: T, p: T -> bool)
    ensures Filter([x], p) == if p(x) then [x] else []
  {
    assert [x][1..] == [];
  }

  /** Filtering distributes over concatenation. */
  lemma {:induction false} FilterAppend<T>(xs: seq<T>, ys: seq<T>, p: T -> bool)
    ensures Filter(xs + ys, p) == Filter(xs, p) + Filter(ys, p)
    decreases |xs|
  {
    if xs == [] {
      assert xs + ys == ys;
    } else {
      assert (xs + ys)[1..] == xs[1..] + ys;
      FilterAppend(xs[1..], ys, p);
    }
  }

  /** Filtering a prefix gives a prefix of the filtered sequence. */
  lemma {:induction false} FilterPrefix<T>(xs: seq<T>, n: nat, p: T -> bool)
    requires n <= |xs|
    ensures Filter(xs[..n], p) <= Filter(xs, p)
  {
    var a, b := xs[..n], xs[n..];
    assert xs == a + b;
    FilterAppend(a, b, p);
    var fa := Filter(a, p);
    assert Filter(xs, p)[..|fa|] == fa;
  }

  /** Filtering by `p` and then by a stricter `q` is filtering by `q`. */
  lemma {:induction false} FilterNarrower<T>(xs: seq<T>, p: T -> bool, q: T -> bool)
    requires forall x :: q(x) ==> p(x)
    ensures Filter(Filter(xs, p), q) == Filter(xs, q)
    decreases |xs|
  {
    if xs != [] {
      FilterNarrower(xs[1..], p, q);
      if p(xs[0]) {
        assert Filter(xs, p) == [xs[0]] + Filter(xs[1..], p);
        assert ([xs[0]] + Filter(xs[1..], p))[1..] == Filter(xs[1..], p);
      }
    }
  }
}

=== FILE: dashboards.dfy ===
/** The mentee and mentor dashboards: the split of a user's bookings into
    upcoming and past sessions, the amount a mentee has spent, and the
    mentor's earnings. A start time is a number of milliseconds, or None
    where the browser cannot parse it (an invalid Date, whose every
    comparison is false). Money is in whole pence. */
module Dashboards {
  import opened Common

  /** The fields of a booking the dashboards read; `None` amounts are
      absent, and absent strings are "". */
  datatype DashBooking = DashBooking(
    start: Option<int>, status: string, paymentStatus: string,
    totalAmount: Option<int>, mentorPayout: Option<int>)

  // ---------------------------------------------------------------------
  // Upcoming and past
  // ---------------------------------------------------------------------

  /** `new Date(start) > now && status !== 'cancelled'` */
  predicate IsUpcoming(b: DashBooking, now: int)
  {
    b.start.Some? && b.start.value > now && b.status != "cancelled"
  }

  /** `new Date(start) <= now || status === 'cancelled'` */
  predicate IsPast(b: DashBooking, now: int)
  {
    (b.start.Some? && b.start.value <= now) || b.status == "cancelled"
  }

  function UpcomingAt(now: int): DashBooking -> bool
  {
    (b: DashBooking) => IsUpcoming(b, now)
  }

  function PastAt(now: int): DashBooking -> bool
  {
    (b: DashBooking) => IsPast(b, now)
  }

  /** The upcoming list: exactly the bookings that are upcoming. */
  function Upcoming(bookings: seq<DashBooking>, now: int): (r: seq<DashBooking>)
    ensures forall k :: 0 <= k < |r| ==> IsUpcoming(r[k], now) && r[k] in bookings
    ensures forall k :: 0 <= k < |bookings| && IsUpcoming(bookings[k], now) ==> bookings[k] in r
  {
    Filter(bookings, UpcomingAt(now))
  }

  /** The past list: exactly the bookings that are past. */
  function Past(bookings: seq<DashBooking>, now: int): (r: seq<DashBooking>)
    ensures forall k :: 0 <= k < |r| ==> IsPast(r[k], now) && r[k] in bookings
    ensures forall k :: 0 <= k < |bookings| && IsPast(bookings[k], now) ==> bookings[k] in r
  {
    Filter(bookings, PastAt(now))
  }

  /** A booking with a readable start lands in exactly one list; one with an
      unreadable start lands in the past list only when cancelled. */
  lemma OneListEach(b: DashBooking, now: int)
    ensures b.start.Some? ==> (IsUpcoming(b, now) <==> !IsPast(b, now))
    ensures b.start.None? ==> !IsUpcoming(b, now) && (IsPast(b, now) <==> b.status == "cancelled")
  {
  }

  /** Bookings whose start cannot be read and that are not cancelled. */
  predicate Unplaced(b: DashBooking)
  {
    b.start.None? && b.status != "cancelled"
  }

  /** The two lists account for every booking except the unplaced ones. */
  lemma {:induction false} PartitionCounts(bookings: seq<DashBooking>, now: int)
    ensures |Upcoming(bookings, now)| + |Past(bookings, now)| + |Filter(bookings, Unplaced)| == |bookings|
    decreases |bookings|
  {
    if bookings != [] {
      PartitionCounts(bookings[1..], now);
    }
  }

  // ---------------------------------------------------------------------
  // Sums
  // ---------------------------------------------------------------------

  /** `x || 0` on a number. */
  function OrZero(v: Option<int>): int
  {
    if v.Some? then v.value else 0
  }

  function TotalAmountOf(b: DashBooking): int { OrZero(b.totalAmount) }
  function PayoutOf(b: DashBooking): int { OrZero(b.mentorPayout) }

  /** `reduce((sum, b) => sum + f(b), 0)` */
  function Sum(bookings: seq<DashBooking>, f: DashBooking -> int): int
  {
    if bookings == [] then 0 else f(bookings[0]) + Sum(bookings[1..], f)
  }

  lemma {:induction false} SumAppend(xs: seq<DashBooking>, ys: seq<DashBooking>, f: DashBooking -> int)
    ensures Sum(xs + ys, f) == Sum(xs, f) + Sum(ys, f)
    decreases |xs|
  {
    if xs == [] {
      assert xs + ys == ys;
    } else {
      assert (xs + ys)[1..] == xs[1..] + ys;
      SumAppend(xs[1..], ys, f);
    }
  }

  /** With no negative terms, the sum over a filtered list is at most the
      sum over the whole list, and neither is negative. */
  lemma {:induction false} SumFilterLe(xs: seq<DashBooking>, p: DashBooking -> bool, f: DashBooking -> int)
    requires forall k :: 0 <= k < |xs| ==> f(xs[k]) >= 0
    ensures 0 <= Sum(Filter(xs, p), f) <= Sum(xs, f)
    decreases |xs|
  {
    if xs != [] {
      SumFilterLe(xs[1..], p, f);
      if p(xs[0]) {
        assert Filter(xs, p) == [xs[0]] + Filter(xs[1..], p);
        assert (([xs[0]] + Filter(xs[1..], p)))[1..] == Filter(xs[1..], p);
      }
    }
  }

  /** Filtering keeps only terms of the list, so it keeps them non-negative. */
  lemma FilterKeepsNonNegative(xs: seq<DashBooking>, p: DashBooking -> bool, f: DashBooking -> int)
    requires forall k :: 0 <= k < |xs| ==> f(xs[k]) >= 0
    ensures forall k :: 0 <= k < |Filter(xs, p)| ==> f(Filter(xs, p)[k]) >= 0
  {
    var r := Filter(xs, p);
    forall k | 0 <= k < |r| ensures f(r[k]) >= 0 {
      var j :| 0 <= j < |xs| && xs[j] == r[k];
    }
  }

  // ---------------------------------------------------------------------
  // Mentee dashboard
  // ---------------------------------------------------------------------

  predicate IsPaid(b: DashBooking) { b.paymentStatus == "paid" }
  predicate IsConfirmed(b: DashBooking) { b.status == "confirmed" }

  /** Total spent: the amounts of the paid bookings, whatever their status. */
  function TotalSpent(bookings: seq<DashBooking>): (r: int)
    ensures (forall k :: 0 <= k < |bookings| ==> TotalAmountOf(bookings[k]) >= 0) ==> r >= 0
  {
    if forall k :: 0 <= k < |bookings| ==> TotalAmountOf(bookings[k]) >= 0 then
      SumFilterLe(bookings, IsPaid, TotalAmountOf);
      Sum(Filter(bookings, IsPaid), TotalAmountOf)
    else
      Sum(Filter(bookings, IsPaid), TotalAmountOf)
  }

  /** The "Completed Sessions" figure: past bookings that are confirmed. */
  function CompletedCount(bookings: seq<DashBooking>, now: int): (n: nat)
    ensures n <= |Past(bookings, now)|
  {
    |Filter(Past(bookings, now), IsConfirmed)|
  }

  /** Paying for one more booking adds its amount to the total spent;
      an unpaid booking changes nothing. */
  lemma TotalSpentAppend(bookings: seq<DashBooking>, b: DashBooking)
    ensures TotalSpent(bookings + [b]) == TotalSpent(bookings) + (if IsPaid(b) then TotalAmountOf(b) else 0)
  {
    FilterAppend(bookings, [b], IsPaid);
    FilterSingle(b, IsPaid);
    SumAppend(Filter(bookings, IsPaid), Filter([b], IsPaid), TotalAmountOf);
    assert Sum([b], TotalAmountOf) == TotalAmountOf(b) + Sum([b][1..], TotalAmountOf);
  }

  // ---------------------------------------------------------------------
  // Mentor dashboard
  // ---------------------------------------------------------------------

  /** Past confirmed bookings: the sessions that earned money. */
  function CompletedSessions(bookings: seq<DashBooking>, now: int): seq<DashBooking>
  {
    Filter(Past(bookings, now), IsConfirmed)
  }

  /** Payouts of the completed sessions; never negative when no payout is. */
  function TotalEarnings(bookings: seq<DashBooking>, now: int): (r: int)
    ensures (forall k :: 0 <= k < |bookings| ==> PayoutOf(bookings[k]) >= 0) ==> r >= 0
  {
    var done := CompletedSessions(bookings, now);
    if forall k :: 0 <= k < |bookings| ==> PayoutOf(bookings[k]) >= 0 then
      FilterKeepsNonNegative(bookings, PastAt(now), PayoutOf);
      FilterKeepsNonNegative(Past(bookings, now), IsConfirmed, PayoutOf);
      SumFilterLe(done, IsConfirmed, PayoutOf);
      Sum(done, PayoutOf)
    else
      Sum(done, PayoutOf)
  }

  /** `new Date(start) >= thisMonth`; an unreadable start is never in it. */
  function StartsFrom(monthStart: int): DashBooking -> bool
  {
    (b: DashBooking) => b.start.Some? && b.start.value >= monthStart
  }

  /** Payouts of the completed sessions that started this month: with no
      negative payout, between 0 and the total earnings. */
  function MonthEarnings(bookings: seq<DashBooking>, now: int, monthStart: int): (r: int)
    ensures (forall k :: 0 <= k < |bookings| ==> PayoutOf(bookings[k]) >= 0) ==> 0 <= r <= TotalEarnings(bookings, now)
  {
    var done := CompletedSessions(bookings, now);
    if forall k :: 0 <= k < |bookings| ==> PayoutOf(bookings[k]) >= 0 then
      FilterKeepsNonNegative(bookings, PastAt(now), PayoutOf);
      FilterKeepsNonNegative(Past(bookings, now), IsConfirmed, PayoutOf);
      SumFilterLe(done, StartsFrom(monthStart), PayoutOf);
      Sum(Filter(done, StartsFrom(monthStart)), PayoutOf)
    else
      Sum(Filter(done, StartsFrom(monthStart)), PayoutOf)
  }

  /** Payouts of the upcoming sessions; never negative when no payout is. */
  function PendingEarnings(bookings: seq<DashBooking>, now: int): (r: int)
    ensures (forall k :: 0 <= k < |bookings| ==> PayoutOf(bookings[k]) >= 0) ==> r >= 0
  {
    var up := Upcoming(bookings, now);
    if forall k :: 0 <= k < |bookings| ==> PayoutOf(bookings[k]) >= 0 then
      FilterKeepsNonNegative(bookings, UpcomingAt(now), PayoutOf);
      SumFilterLe(up, UpcomingAt(now), PayoutOf);
      Sum(up, PayoutOf)
    else
      Sum(up, PayoutOf)
  }

  /** One more booking adds one term to a sum. */
  lemma SumOneMore(xs: seq<DashBooking>, b: DashBooking, f: DashBooking -> int)
    ensures Sum(xs + [b], f) == Sum(xs, f) + f(b)
  {
    SumAppend(xs, [b], f);
    assert Sum([b], f) == f(b) + Sum([b][1..], f);
  }

  /** One more booking is one more completed session exactly when it is
      past and confirmed; the earlier ones keep their order. */
  lemma CompletedSessionsAppend(bookings: seq<DashBooking>, b: DashBooking, now: int)
    ensures CompletedSessions(bookings + [b], now) ==
      CompletedSessions(bookings, now) + (if IsPast(b, now) && IsConfirmed(b) then [b] else [])
  {
    FilterAppend(bookings, [b], PastAt(now));
    FilterSingle(b, PastAt(now));
    FilterAppend(Past(bookings, now), Filter([b], PastAt(now)), IsConfirmed);
    FilterSingle(b, IsConfirmed);
    assert Filter([], IsConfirmed) == [];
  }

  /** The "Completed Sessions" figure counts one per past confirmed booking. */
  lemma CompletedCountAppend(bookings: seq<DashBooking>, b: DashBooking, now: int)
    ensures CompletedCount(bookings + [b], now) ==
      CompletedCount(bookings, now) + (if IsPast(b, now) && IsConfirmed(b) then 1 else 0)
  {
    CompletedSessionsAppend(bookings, b, now);
  }

  /** Total earnings: the payout of each past confirmed booking, and nothing else. */
  lemma TotalEarningsAppend(bookings: seq<DashBooking>, b: DashBooking, now: int)
    ensures TotalEarnings(bookings + [b], now) ==
      TotalEarnings(bookings, now) + (if IsPast(b, now) && IsConfirmed(b) then PayoutOf(b) else 0)
  {
    var done := CompletedSessions(bookings, now);
    CompletedSessionsAppend(bookings, b, now);
    if IsPast(b, now) && IsConfirmed(b) {
      SumOneMore(done, b, PayoutOf);
    } else {
      assert done + [] == done;
    }
  }

  /** This month's earnings: the payout of each past confirmed booking that
      started on or after the first of the month. */
  lemma MonthEarningsAppend(bookings: seq<DashBooking>, b: DashBooking, now: int, monthStart: int)
    ensures MonthEarnings(bookings + [b], now, monthStart) ==
      MonthEarnings(bookings, now, monthStart)
        + (if IsPast(b, now) && IsConfirmed(b) && StartsFrom(monthStart)(b) then PayoutOf(b) else 0)
  {
    var done := CompletedSessions(bookings, now);
    CompletedSessionsAppend(bookings, b, now);
    if IsPast(b, now) && IsConfirmed(b) {
      FilterAppend(done, [b], StartsFrom(monthStart));
      FilterSingle(b, StartsFrom(monthStart));
      if StartsFrom(monthStart)(b) {
        SumOneMore(Filter(done, StartsFrom(monthStart)), b, PayoutOf);
      } else {
        assert Filter(done, StartsFrom(monthStart)) + [] == Filter(done, StartsFrom(monthStart));
      }
    } else {
      assert done + [] == done;
    }
  }

  /** Pending earnings: the payout of each upcoming booking, whatever its status. */
  lemma PendingEarningsAppend(bookings: seq<DashBooking>, b: DashBooking, now: int)
    ensures PendingEarnings(bookings + [b], now) ==
      PendingEarnings(bookings, now) + (if IsUpcoming(b, now) then PayoutOf(b) else 0)
  {
    FilterAppend(bookings, [b], UpcomingAt(now));
    FilterSingle(b, UpcomingAt(now));
    if IsUpcoming(b, now) {
      SumOneMore(Upcoming(bookings, now), b, PayoutOf);
    } else {
      assert Upcoming(bookings, now) + [] == Upcoming(bookings, now);
    }
  }

  /** A booking in the future is pending and not yet earned; once its start
      has passed, a confirmed booking counts as earned. */
  lemma EarnedOrPending(b: DashBooking, now: int)
    requires b.start.Some? && b.status == "confirmed"
    ensures b.start.value > now ==> Filter([b], UpcomingAt(now)) == [b] && Filter(Filter([b], PastAt(now)), IsConfirmed) == []
    ensures b.start.value <= now ==> Filter([b], UpcomingAt(now)) == [] && Filter(Filter([b], PastAt(now)), IsConfirmed) == [b]
  {
    FilterSingle(b, UpcomingAt(now));
    FilterSingle(b, PastAt(now));
    FilterSingle(b, IsConfirmed);
  }
}

=== FILE: feedback_routes.dfy ===
/** Session completion by the mentor, rating by the mentee, and the rating
    summary of a mentor. A feedback row with rating 0 stands for "completed,
    not yet rated". The role dependency compares roles exactly. */
module FeedbackRoutes {
  import opened Common
  import opened Models
  import opened FeedbackSchema

  /** The tables these routes touch. */
  datatype Sessions = Sessions(bookings: seq<Booking>, feedback: seq<SessionFeedback>, nextId: int)

  function BookingAt(bookings: seq<Booking>, bookingId: int): Option<nat>
  {
    FirstIndex(bookings, (b: Booking) => b.id == bookingId)
  }

  function FeedbackAt(feedback: seq<SessionFeedback>, bookingId: int): Option<nat>
  {
    FirstIndex(feedback, (f: SessionFeedback) => f.bookingId == bookingId)
  }

  /** The feedback table's own rules: one row per booking, and every rating
      between 0 (not yet rated) and 5. */
  predicate FeedbackValid(feedback: seq<SessionFeedback>)
  {
    && (forall i, j :: 0 <= i < j < |feedback| ==> feedback[i].bookingId != feedback[j].bookingId)
    && (forall i :: 0 <= i < |feedback| ==> 0 <= feedback[i].rating <= MaxRating)
  }

  // =====================================================================
  // complete_session
  // =====================================================================

  /** complete_session: mentors only (403), a known booking (404) of the
      caller (403), not completed before (400). The session's feedback row
      is marked completed, or created unrated, and the booking becomes
      completed whatever its status was. */
  function CompleteSessionOutcome(s: Sessions, actor: User, req: SessionCompleteRequest): (r: Result<Sessions>)
    ensures actor.role != "mentor" ==> r == Err(Forbidden)
    ensures BookingAt(s.bookings, req.bookingId).None? && actor.role == "mentor" ==> r == Err(NotFound)
    ensures var k, i := BookingAt(s.bookings, req.bookingId), FeedbackAt(s.feedback, req.bookingId);
      r.Ok? <==> (actor.role == "mentor" && k.Some? && s.bookings[k.value].mentorId == actor.id
                  && !(i.Some? && s.feedback[i.value].sessionCompleted))
    ensures var k, i := BookingAt(s.bookings, req.bookingId), FeedbackAt(s.feedback, req.bookingId);
      actor.role == "mentor" && k.Some? ==>
        && (s.bookings[k.value].mentorId != actor.id ==> r == Err(Forbidden))
        && (s.bookings[k.value].mentorId == actor.id && i.Some? && s.feedback[i.value].sessionCompleted ==> r == Err(BadRequest))
    ensures r.Ok? ==>
      var k := BookingAt(s.bookings, req.bookingId).value;
      r.value.bookings == s.bookings[k := s.bookings[k].(status := Completed)]
    ensures r.Ok? ==> var i := FeedbackAt(r.value.feedback, req.bookingId);
      i.Some? && r.value.feedback[i.value].sessionCompleted
    ensures r.Ok? && FeedbackAt(s.feedback, req.bookingId).None? ==>
      r.value.feedback == s.feedback + [SessionFeedback(s.nextId, req.bookingId, 0, None,
        s.bookings[BookingAt(s.bookings, req.bookingId).value].menteeId, actor.id, true)]
    ensures r.Ok? && FeedbackAt(s.feedback, req.bookingId).Some? ==>
      var i := FeedbackAt(s.feedback, req.bookingId).value;
      r.value.feedback == s.feedback[i := s.feedback[i].(sessionCompleted := true)]
  {
    if actor.role != "mentor" then Err(Forbidden)
    else
      match BookingAt(s.bookings, req.bookingId)
      case None => Err(NotFound)
      case Some(k) =>
        var booking := s.bookings[k];
        if booking.mentorId != actor.id then Err(Forbidden)
        else
          var bookings := s.bookings[k := booking.(status := Completed)];
          match FeedbackAt(s.feedback, req.bookingId)
          case Some(i) =>
            if s.feedback[i].sessionCompleted then Err(BadRequest)
            else
              var fs := s.feedback[i := s.feedback[i].(sessionCompleted := true)];
              FirstIndexUpdate(s.feedback, i, fs[i], (f: SessionFeedback) => f.bookingId == req.bookingId);
              Ok(Sessions(bookings, fs, s.nextId))
          case None =>
            var row := SessionFeedback(s.nextId, req.bookingId, 0, None, booking.menteeId, booking.mentorId, true);
            FirstIndexAppend(s.feedback, row, (f: SessionFeedback) => f.bookingId == req.bookingId);
            Ok(Sessions(bookings, s.feedback + [row], s.nextId + 1))
  }

  /** A session is completed once: a second completion is refused. */
  lemma {:induction false} CompleteTwiceRefused(s: Sessions, actor: User, req: SessionCompleteRequest)
    requires CompleteSessionOutcome(s, actor, req).Ok?
    ensures CompleteSessionOutcome(CompleteSessionOutcome(s, actor, req).value, actor, req) == Err(BadRequest)
  {
    var t := CompleteSessionOutcome(s, actor, req).value;
    var k := BookingAt(s.bookings, req.bookingId).value;
    FirstIndexUpdate(s.bookings, k, t.bookings[k], (b: Booking) => b.id == req.bookingId);
  }

  /** Completion keeps the feedback table's rules. */
  lemma {:induction false} CompleteKeepsFeedbackValid(s: Sessions, actor: User, req: SessionCompleteRequest)
    requires FeedbackValid(s.feedback)
    requires CompleteSessionOutcome(s, actor, req).Ok?
    ensures FeedbackValid(CompleteSessionOutcome(s, actor, req).value.feedback)
  {
    var t := CompleteSessionOutcome(s, actor, req).value;
    if FeedbackAt(s.feedback, req.bookingId).None? {
      assert forall i :: 0 <= i < |s.feedback| ==> t.feedback[i] == s.feedback[i] && s.feedback[i].bookingId != req.bookingId;
    }
  }

  method CompleteSession(db: Database, actor: User, req: SessionCompleteRequest) returns (r: Result<()>)
    modifies db`bookings, db`feedback, db`nextId
    ensures var out := CompleteSessionOutcome(Sessions(old(db.bookings), old(db.feedback), old(db.nextId)), actor, req);
      if out.Err? then r == Err(out.error) && db.bookings == old(db.bookings) && db.feedback == old(db.feedback)
                       && db.nextId == old(db.nextId)
      else r == Ok(()) && Sessions(db.bookings, db.feedback, db.nextId) == out.value
  {
    var out := CompleteSessionOutcome(Sessions(db.bookings, db.feedback, db.nextId), actor, req);
    if out.Err? {
      return Err(out.error);
    }
    db.bookings, db.feedback, db.nextId := out.value.bookings, out.value.feedback, out.value.nextId;
    return Ok(());
  }

  // =====================================================================
  // submit_feedback
  // =====================================================================

  /** submit_feedback, for a validated request: mentees only (403), a known
      booking (404) of the caller (403) that is completed (400) and not yet
      rated (400). The rating and text are stored on the session's row, or
      on a new one. The result is the row. */
  function SubmitFeedbackOutcome(s: Sessions, actor: User, req: FeedbackCreateRequest): (r: Result<(SessionFeedback, Sessions)>)
    ensures actor.role != "mentee" ==> r == Err(Forbidden)
    ensures var k, i := BookingAt(s.bookings, req.bookingId), FeedbackAt(s.feedback, req.bookingId);
      r.Ok? <==> (actor.role == "mentee" && k.Some? && s.bookings[k.value].menteeId == actor.id
                  && s.bookings[k.value].status == Completed && !(i.Some? && s.feedback[i.value].rating > 0))
    ensures actor.role == "mentee" && BookingAt(s.bookings, req.bookingId).None? ==> r == Err(NotFound)
    ensures var k, i := BookingAt(s.bookings, req.bookingId), FeedbackAt(s.feedback, req.bookingId);
      actor.role == "mentee" && k.Some? ==>
        && (s.bookings[k.value].menteeId != actor.id ==> r == Err(Forbidden))
        && (s.bookings[k.value].menteeId == actor.id && s.bookings[k.value].status != Completed ==> r == Err(BadRequest))
        && ((s.bookings[k.value].menteeId == actor.id && s.bookings[k.value].status == Completed
             && i.Some? && s.feedback[i.value].rating > 0) ==> r == Err(BadRequest))
    ensures r.Ok? ==> (r.value.0.rating == req.rating && r.value.0.feedbackText == req.feedbackText
      && r.value.0.bookingId == req.bookingId)
    ensures r.Ok? ==> r.value.1.bookings == s.bookings
    ensures r.Ok? ==> var i := FeedbackAt(r.value.1.feedback, req.bookingId);
      i.Some? && r.value.1.feedback[i.value] == r.value.0
    ensures r.Ok? && FeedbackAt(s.feedback, req.bookingId).Some? ==>
      var i := FeedbackAt(s.feedback, req.bookingId).value;
      s.feedback[i].rating <= 0 && r.value.1.feedback == s.feedback[i := r.value.0]
    ensures r.Ok? && FeedbackAt(s.feedback, req.bookingId).None? ==> r.value.1.feedback == s.feedback + [r.value.0]
    ensures r.Ok? && FeedbackAt(s.feedback, req.bookingId).Some? ==>
      var i := FeedbackAt(s.feedback, req.bookingId).value;
      r.value.0 == s.feedback[i].(rating := req.rating, feedbackText := req.feedbackText) && r.value.1.nextId == s.nextId
    ensures r.Ok? && FeedbackAt(s.feedback, req.bookingId).None? ==>
      && r.value.0 == SessionFeedback(s.nextId, req.bookingId, req.rating, req.feedbackText, actor.id,
                                      s.bookings[BookingAt(s.bookings, req.bookingId).value].mentorId, false)
      && r.value.1.nextId == s.nextId + 1
    ensures FeedbackAt(s.feedback, req.bookingId).Some? && s.feedback[FeedbackAt(s.feedback, req.bookingId).value].rating > 0
      ==> r.Err?
  {
    if actor.role != "mentee" then Err(Forbidden)
    else
      match BookingAt(s.bookings, req.bookingId)
      case None => Err(NotFound)
      case Some(k) =>
        var booking := s.bookings[k];
        if booking.menteeId != actor.id then Err(Forbidden)
        else if booking.status != Completed then Err(BadRequest)
        else
          match FeedbackAt(s.feedback, req.bookingId)
          case Some(i) =>
            if s.feedback[i].rating > 0 then Err(BadRequest)
            else
              var row := s.feedback[i].(rating := req.rating, feedbackText := req.feedbackText);
              FirstIndexUpdate(s.feedback, i, row, (f: SessionFeedback) => f.bookingId == req.bookingId);
              Ok((row, Sessions(s.bookings, s.feedback[i := row], s.nextId)))
          case None =>
            var row := SessionFeedback(s.nextId, req.bookingId, req.rating, req.feedbackText, actor.id, booking.mentorId, false);
            FirstIndexAppend(s.feedback, row, (f: SessionFeedback) => f.bookingId == req.bookingId);
            Ok((row, Sessions(s.bookings, s.feedback + [row], s.nextId + 1)))
  }

  /** A session is rated once: after a valid rating, a second one is refused. */
  lemma {:induction false} SubmitTwiceRefused(s: Sessions, actor: User, req: FeedbackCreateRequest, again: FeedbackCreateRequest)
    requires ValidateFeedbackCreate(req).Ok?
    requires SubmitFeedbackOutcome(s, actor, req).Ok?
    requires again.bookingId == req.bookingId
    ensures SubmitFeedbackOutcome(SubmitFeedbackOutcome(s, actor, req).value.1, actor, again) == Err(BadRequest)
  {
  }

  /** Submitting a valid rating keeps the feedback table's rules. */
  lemma {:induction false} SubmitKeepsFeedbackValid(s: Sessions, actor: User, req: FeedbackCreateRequest)
    requires FeedbackValid(s.feedback)
    requires ValidateFeedbackCreate(req).Ok?
    requires SubmitFeedbackOutcome(s, actor, req).Ok?
    ensures FeedbackValid(SubmitFeedbackOutcome(s, actor, req).value.1.feedback)
  {
    var t := SubmitFeedbackOutcome(s, actor, req).value.1;
    if FeedbackAt(s.feedback, req.bookingId).None? {
      assert forall i :: 0 <= i < |s.feedback| ==> t.feedback[i] == s.feedback[i] && s.feedback[i].bookingId != req.bookingId;
    }
  }

  method SubmitFeedback(db: Database, actor: User, req: FeedbackCreateRequest) returns (r: Result<SessionFeedback>)
    modifies db`feedback, db`nextId
    ensures var out := SubmitFeedbackOutcome(Sessions(db.bookings, old(db.feedback), old(db.nextId)), actor, req);
      if out.Err? then r == Err(out.error) && db.feedback == old(db.feedback) && db.nextId == old(db.nextId)
      else r == Ok(out.value.0) && db.feedback == out.value.1.feedback && db.nextId == out.value.1.nextId
  {
    var out := SubmitFeedbackOutcome(Sessions(db.bookings, db.feedback, db.nextId), actor, req);
    if out.Err? {
      return Err(out.error);
    }
    db.feedback, db.nextId := out.value.1.feedback, out.value.1.nextId;
    return Ok(out.value.0);
  }

  // =====================================================================
  // get_mentor_ratings
  // =====================================================================

  /** A row that counts towards the mentor's summary: theirs and rated. */
  function RatedFor(mentorId: int): SessionFeedback -> bool
  {
    (f: SessionFeedback) => f.mentorId == mentorId && f.rating > 0
  }

  /** The ratings a mentor has received, in table order; unrated rows (0)
      are skipped. The k-th rating is that of the k-th row the query
      selects. */
  function RatingsOf(feedback: seq<SessionFeedback>, mentorId: int): (r: seq<int>)
    ensures forall k :: 0 <= k < |r| ==> r[k] > 0
    ensures |r| == |Filter(feedback, RatedFor(mentorId))|
    ensures forall k :: 0 <= k < |r| ==> r[k] == Filter(feedback, RatedFor(mentorId))[k].rating
  {
    if feedback == [] then []
    else
      var rest := RatingsOf(feedback[1..], mentorId);
      if feedback[0].mentorId == mentorId && feedback[0].rating > 0 then [feedback[0].rating] + rest else rest
  }

  function Sum(xs: seq<int>): int
  {
    if xs == [] then 0 else xs[0] + Sum(xs[1..])
  }

  /** The rating summary: the number of ratings and their total (from which
      the average is derived), and how often each star value occurs. */
  datatype RatingsSummary = RatingsSummary(
    mentorId: int, totalSessions: nat, ratingSum: int, fiveStar: nat, fourStar: nat, threeStar: nat, twoStar: nat, oneStar: nat)

  function MentorRatings(feedback: seq<SessionFeedback>, mentorId: int): (r: RatingsSummary)
    ensures r.mentorId == mentorId
    ensures r.totalSessions == |RatingsOf(feedback, mentorId)|
    ensures r.ratingSum == Sum(RatingsOf(feedback, mentorId))
    ensures r.totalSessions == 0 ==> r == RatingsSummary(mentorId, 0, 0, 0, 0, 0, 0, 0)
    ensures var m := multiset(RatingsOf(feedback, mentorId));
      r.fiveStar == m[5] && r.fourStar == m[4] && r.threeStar == m[3] && r.twoStar == m[2] && r.oneStar == m[1]
  {
    var rs := RatingsOf(feedback, mentorId);
    if rs == [] then RatingsSummary(mentorId, 0, 0, 0, 0, 0, 0, 0)
    else
      var m := multiset(rs);
      RatingsSummary(mentorId, |rs|, Sum(rs), m[5], m[4], m[3], m[2], m[1])
  }

  /** With ratings of one to five stars, the star counts add up to the
      number of ratings, and the total lies between one and five stars per
      rating. */
  lemma StarCountsAddUp(rs: seq<int>)
    requires forall k :: 0 <= k < |rs| ==> 1 <= rs[k] <= 5
    ensures var m := multiset(rs); m[5] + m[4] + m[3] + m[2] + m[1] == |rs|
    ensures |rs| <= Sum(rs) <= 5 * |rs|
  {
    StarCountsTotal(rs);
    SumBounds(rs);
  }

  lemma {:induction false} StarCountsTotal(rs: seq<int>)
    requires forall k :: 0 <= k < |rs| ==> 1 <= rs[k] <= 5
    ensures var m := multiset(rs); m[5] + m[4] + m[3] + m[2] + m[1] == |rs|
    decreases |rs|
  {
    if rs != [] {
      var t := rs[1..];
      StarCountsTotal(t);
      assert rs == [rs[0]] + t;
      var m, mt := multiset(rs), multiset(t);
      assert m == multiset{rs[0]} + mt;
      var x := rs[0];
      assert m[1] == mt[1] + (if x == 1 then 1 else 0);
      assert m[2] == mt[2] + (if x == 2 then 1 else 0);
      assert m[3] == mt[3] + (if x == 3 then 1 else 0);
      assert m[4] == mt[4] + (if x == 4 then 1 else 0);
      assert m[5] == mt[5] + (if x == 5 then 1 else 0);
    }
  }

  lemma {:induction false} SumBounds(rs: seq<int>)
    requires forall k :: 0 <= k < |rs| ==> 1 <= rs[k] <= 5
    ensures |rs| <= Sum(rs) <= 5 * |rs|
    decreases |rs|
  {
    if rs != [] {
      SumBounds(rs[1..]);
    }
  }

  /** A table that keeps its rules yields a consistent summary. */
  lemma {:induction false} RatingsSummaryConsistent(feedback: seq<SessionFeedback>, mentorId: int)
    requires FeedbackValid(feedback)
    ensures var r := MentorRatings(feedback, mentorId);
      && r.fiveStar + r.fourStar + r.threeStar + r.twoStar + r.oneStar == r.totalSessions
      && r.totalSessions <= r.ratingSum <= 5 * r.totalSessions
  {
    RatingsInRange(feedback, mentorId);
    StarCountsAddUp(RatingsOf(feedback, mentorId));
  }

  lemma {:induction false} RatingsInRange(feedback: seq<SessionFeedback>, mentorId: int)
    requires forall i :: 0 <= i < |feedback| ==> feedback[i].rating <= MaxRating
    ensures forall k :: 0 <= k < |RatingsOf(feedback, mentorId)| ==> 1 <= RatingsOf(feedback, mentorId)[k] <= 5
  {
    if feedback != [] {
      RatingsInRange(feedback[1..], mentorId);
    }
  }

  /** Every rated row of the mentor is counted, and nothing else. */
  lemma {:induction false} RatingsOfMembers(feedback: seq<SessionFeedback>, mentorId: int, i: nat)
    requires i < |feedback| && feedback[i].mentorId == mentorId && feedback[i].rating > 0
    ensures feedback[i].rating in RatingsOf(feedback, mentorId)
  {
    if i > 0 {
      RatingsOfMembers(feedback[1..], mentorId, i - 1);
    }
  }

  /** Rating a session whose row had no rating adds exactly that rating to
      the summary of the row's mentor, and leaves every other mentor's
      ratings as they were. */
  lemma {:induction false} RatingsOfRated(feedback: seq<SessionFeedback>, i: nat, row: SessionFeedback, mentorId: int)
    requires i < |feedback| && feedback[i].rating <= 0 && row.rating > 0 && row.mentorId == feedback[i].mentorId
    ensures multiset(RatingsOf(feedback[i := row], mentorId)) ==
      multiset(RatingsOf(feedback, mentorId)) + (if row.mentorId == mentorId then multiset{row.rating} else multiset{})
  {
    if i > 0 {
      assert feedback[i := row][1..] == feedback[1..][i - 1 := row];
      RatingsOfRated(feedback[1..], i - 1, row, mentorId);
    } else {
      assert feedback[i := row][1..] == feedback[1..];
    }
  }

  /** Appending a row adds its rating to its mentor's summary, if it is rated. */
  lemma {:induction false} RatingsOfAppend(feedback: seq<SessionFeedback>, row: SessionFeedback, mentorId: int)
    ensures RatingsOf(feedback + [row], mentorId) ==
      RatingsOf(feedback, mentorId) + (if row.mentorId == mentorId && row.rating > 0 then [row.rating] else [])
  {
    if feedback == [] {
      assert feedback + [row] == [row];
    } else {
      assert (feedback + [row])[1..] == feedback[1..] + [row];
      RatingsOfAppend(feedback[1..], row, mentorId);
    }
  }

  /** A successful submission reaches get_mentor_ratings: the stored row's
      mentor has one more rating, the submitted one, and a new row belongs
      to the booking's mentor. */
  lemma SubmitReachesRatings(s: Sessions, actor: User, req: FeedbackCreateRequest)
    requires ValidateFeedbackCreate(req).Ok?
    requires SubmitFeedbackOutcome(s, actor, req).Ok?
    ensures var (row, t) := SubmitFeedbackOutcome(s, actor, req).value;
      multiset(RatingsOf(t.feedback, row.mentorId)) == multiset(RatingsOf(s.feedback, row.mentorId)) + multiset{req.rating}
    ensures var (row, t) := SubmitFeedbackOutcome(s, actor, req).value;
      forall m :: m != row.mentorId ==> multiset(RatingsOf(t.feedback, m)) == multiset(RatingsOf(s.feedback, m))
    ensures FeedbackAt(s.feedback, req.bookingId).None? ==>
      SubmitFeedbackOutcome(s, actor, req).value.0.mentorId == s.bookings[BookingAt(s.bookings, req.bookingId).value].mentorId
  {
    var (row, t) := SubmitFeedbackOutcome(s, actor, req).value;
    match FeedbackAt(s.feedback, req.bookingId)
    case Some(i) =>
      forall m | true
        ensures multiset(RatingsOf(t.feedback, m)) ==
          multiset(RatingsOf(s.feedback, m)) + (if row.mentorId == m then multiset{row.rating} else multiset{})
      {
        RatingsOfRated(s.feedback, i, row, m);
      }
    case None =>
      forall m | true
        ensures RatingsOf(t.feedback, m) ==
          RatingsOf(s.feedback, m) + (if row.mentorId == m && row.rating > 0 then [row.rating] else [])
      {
        RatingsOfAppend(s.feedback, row, m);
      }
  }
}

=== FILE: feedback_schema.dfy ===
/** Request and response shapes of the session-feedback endpoints. */
module FeedbackSchema {
  import opened Common
  import opened Models

  /** Body of a completion request: the booking id is its only field. */
  datatype SessionCompleteRequest = SessionCompleteRequest(bookingId: int)

  /** Body of a feedback submission, before validation. */
  datatype FeedbackCreateRequest = FeedbackCreateRequest(bookingId: int, rating: int, feedbackText: Option<string>)

  const MinRating := 1
  const MaxRating := 5
  const MaxFeedbackLength := 1000

  /** The rating is 1 to 5 stars; the text is optional and at most 1000
      characters long. Anything else is rejected with 422. */
  function ValidateFeedbackCreate(req: FeedbackCreateRequest): (r: Result<FeedbackCreateRequest>)
    ensures r.Ok? <==> MinRating <= req.rating <= MaxRating
                       && (req.feedbackText.None? || |req.feedbackText.value| <= MaxFeedbackLength)
    ensures r.Ok? ==> r.value == req
    ensures r.Err? ==> r.error == Unprocessable
  {
    if req.rating < MinRating || req.rating > MaxRating then Err(Unprocessable)
    else if req.feedbackText.Some? && |req.feedbackText.value| > MaxFeedbackLength then Err(Unprocessable)
    else Ok(req)
  }

  /** A feedback row as returned; the completion time is absent until the
      mentor completes the session. */
  datatype FeedbackResponse = FeedbackResponse(
    id: int, bookingId: int, rating: int, feedbackText: Option<string>,
    menteeId: int, mentorId: int, sessionCompletedAt: Option<int>)

  /** `completedAt` stands for the stored completion time. */
  function ToFeedbackResponse(f: SessionFeedback, completedAt: int): (r: FeedbackResponse)
    ensures r.sessionCompletedAt.Some? <==> f.sessionCompleted
    ensures r.id == f.id && r.bookingId == f.bookingId && r.rating == f.rating && r.feedbackText == f.feedbackText
    ensures r.menteeId == f.menteeId && r.mentorId == f.mentorId
  {
    FeedbackResponse(f.id, f.bookingId, f.rating, f.feedbackText, f.menteeId, f.mentorId,
                     if f.sessionCompleted then Some(completedAt) else None)
  }
}

=== FILE: mentor_list.dfy ===
/** The mentor directory page: splitting a mentor's comma-separated skills
    or domains into tags, and the search box that narrows the list. */
module MentorList {
  import opened Common

  // ---------------------------------------------------------------------
  // Tags from a comma-separated field
  // ---------------------------------------------------------------------

  /** `.map((s) => s.trim())` */
  function StripAll(parts: seq<string>): (r: seq<string>)
    ensures |r| == |parts|
  {
    if parts == [] then [] else [Strip(parts[0])] + StripAll(parts[1..])
  }

  lemma {:induction false} StripAllItems(parts: seq<string>)
    ensures forall k :: 0 <= k < |parts| ==> StripAll(parts)[k] == Strip(parts[k])
    decreases |parts|
  {
    if parts != [] {
      StripAllItems(parts[1..]);
      var r, t := StripAll(parts), StripAll(parts[1..]);
      assert r == [Strip(parts[0])] + t;
      forall k | 0 < k < |parts| ensures r[k] == Strip(parts[k]) {
        assert r[k] == t[k - 1];
        assert parts[1..][k - 1] == parts[k];
      }
    }
  }

  predicate NonEmpty(s: string)
  {
    s != []
  }

  /** splitList: `String(value || '')`, split at commas, each piece
      trimmed, empty pieces dropped. */
  function SplitList(value: Option<string>): (r: seq<string>)
    ensures forall k :: 0 <= k < |r| ==> r[k] != [] && Trimmed(r[k]) && ',' !in r[k]
  {
    var s := if value.Some? then value.value else "";
    var parts := Split(s, ',');
    TagsClean(parts);
    Filter(StripAll(parts), NonEmpty)
  }

  /** Stripping keeps only characters of the input. */
  lemma StripKeepsChars(s: string, c: char)
    requires c !in s
    ensures c !in Strip(s)
  {
    var i := LeadingSpace(s);
    var r := Strip(s);
    assert s[i..i + |r|] == r;
  }

  /** Comma-free pieces that survive trimming and the emptiness filter
      are non-empty, have no surrounding whitespace and hold no comma. */
  lemma TagsClean(parts: seq<string>)
    requires forall k :: 0 <= k < |parts| ==> ',' !in parts[k]
    ensures forall k :: 0 <= k < |Filter(StripAll(parts), NonEmpty)| ==>
      var t := Filter(StripAll(parts), NonEmpty)[k]; t != [] && Trimmed(t) && ',' !in t
  {
    var stripped := StripAll(parts);
    var tags := Filter(stripped, NonEmpty);
    StripAllItems(parts);
    forall k | 0 <= k < |tags| ensures tags[k] != [] && Trimmed(tags[k]) && ',' !in tags[k] {
      var t := tags[k];
      assert t in stripped;
      var j :| 0 <= j < |stripped| && stripped[j] == t;
      StripKeepsChars(parts[j], ',');
    }
  }

  /** A missing or empty field has no tags. */
  lemma SplitListEmpty(value: Option<string>)
    requires value.None? || value == Some("")
    ensures SplitList(value) == []
  {
    var parts := Split("", ',');
    assert parts == [""];
    assert StripAll(parts) == [""];
    assert Strip("") == "";
    assert StripAll(parts)[1..] == [];
  }

  /** Trimming trimmed pieces changes nothing. */
  lemma {:induction false} StripAllTrimmed(parts: seq<string>)
    requires forall k :: 0 <= k < |parts| ==> Trimmed(parts[k])
    ensures StripAll(parts) == parts
    decreases |parts|
  {
    if parts != [] {
      StripTrimmed(parts[0]);
      StripAllTrimmed(parts[1..]);
      assert parts == [parts[0]] + parts[1..];
    }
  }

  /** Tags that are already clean survive a join with commas unchanged and
      in order. */
  lemma SplitListJoin(tags: seq<string>)
    requires forall k :: 0 <= k < |tags| ==> tags[k] != [] && Trimmed(tags[k]) && ',' !in tags[k]
    ensures SplitList(Some(Join(tags, ","))) == tags
  {
    if tags == [] {
      SplitListEmpty(Some(Join(tags, ",")));
    } else {
      assert [','] == ",";
      SplitJoin(tags, ',');
      StripAllTrimmed(tags);
      FilterAll(tags, NonEmpty);
    }
  }

  // ---------------------------------------------------------------------
  // The search box
  // ---------------------------------------------------------------------

  /** The fields of a mentor card the search looks at; each may be absent. */
  datatype MentorCard = MentorCard(id: int, fullName: Option<string>, skills: Option<string>, domains: Option<string>)

  /** `field?.toLowerCase().includes(filter.toLowerCase())`: an absent field
      never matches. */
  predicate FieldMatches(field: Option<string>, filter: string)
  {
    field.Some? && Contains(Lower(field.value), Lower(filter))
  }

  /** A mentor is shown when the lower-cased filter occurs in the
      lower-cased name, skills or domains. */
  predicate Shown(m: MentorCard, filter: string)
  {
    FieldMatches(m.fullName, filter) || FieldMatches(m.skills, filter) || FieldMatches(m.domains, filter)
  }

  function ShownFor(filter: string): MentorCard -> bool
  {
    (m: MentorCard) => Shown(m, filter)
  }

  /** filteredMentors: the shown mentors, in list order. */
  function FilteredMentors(mentors: seq<MentorCard>, filter: string): (r: seq<MentorCard>)
    ensures forall k :: 0 <= k < |r| ==> r[k] in mentors && Shown(r[k], filter)
    ensures forall k :: 0 <= k < |mentors| && Shown(mentors[k], filter) ==> mentors[k] in r
  {
    Filter(mentors, ShownFor(filter))
  }

  /** The search ignores letter case. */
  lemma SearchIgnoresCase(m: MentorCard, filter: string)
    ensures Shown(m, filter) <==> Shown(m, Lower(filter))
  {
    LowerIdempotent(filter);
  }

  /** With an empty search box, exactly the mentors with at least one of
      the three fields are shown. */
  lemma EmptyFilterShowsCardsWithFields(m: MentorCard)
    ensures Shown(m, "") <==> m.fullName.Some? || m.skills.Some? || m.domains.Some?
  {
    assert Lower("") == "";
    if m.fullName.Some? { EmptyIsContained(Lower(m.fullName.value)); }
    if m.skills.Some? { EmptyIsContained(Lower(m.skills.value)); }
    if m.domains.Some? { EmptyIsContained(Lower(m.domains.value)); }
  }

  lemma FieldNarrows(field: Option<string>, shorter: string, longer: string)
    requires Contains(Lower(longer), Lower(shorter))
    requires FieldMatches(field, longer)
    ensures FieldMatches(field, shorter)
  {
    ContainsTrans(Lower(field.value), Lower(longer), Lower(shorter));
  }

  /** Typing more narrows the list: a mentor shown for a search text is
      shown for every part of it. */
  lemma TypingNarrows(mentors: seq<MentorCard>, shorter: string, longer: string)
    requires Contains(Lower(longer), Lower(shorter))
    ensures forall m :: m in FilteredMentors(mentors, longer) ==> m in FilteredMentors(mentors, shorter)
  {
    forall m | m in FilteredMentors(mentors, longer) ensures m in FilteredMentors(mentors, shorter) {
      var r := FilteredMentors(mentors, longer);
      var k :| 0 <= k < |r| && r[k] == m;
      if FieldMatches(m.fullName, longer) { FieldNarrows(m.fullName, shorter, longer); }
      if FieldMatches(m.skills, longer) { FieldNarrows(m.skills, shorter, longer); }
      if FieldMatches(m.domains, longer) { FieldNarrows(m.domains, shorter, longer); }
      var j :| 0 <= j < |mentors| && mentors[j] == m;
    }
  }
}

=== FILE: mentorship_routes.dfy ===
/** Mentorship requests and mentorships: a mentee asks a mentor, the mentor
    accepts (opening an active mentorship) or rejects, and either party
    completes an active mentorship. Roles are compared exactly here. */
module MentorshipRoutes {
  import opened Common
  import opened Models

  // =====================================================================
  // The "one open item per pair" invariant
  // =====================================================================

  /** No two pending requests, no two active mentorships, and no pending
      request beside an active mentorship, for the same mentee and mentor. */
  predicate AtMostOneOpen(requests: seq<MentorshipRequest>, mentorships: seq<Mentorship>)
  {
    && (forall i, j :: 0 <= i < j < |requests| && requests[i].status == Pending && requests[j].status == Pending
          ==> requests[i].menteeId != requests[j].menteeId || requests[i].mentorId != requests[j].mentorId)
    && (forall i, j :: 0 <= i < j < |mentorships| && mentorships[i].status == Active && mentorships[j].status == Active
          ==> mentorships[i].menteeId != mentorships[j].menteeId || mentorships[i].mentorId != mentorships[j].mentorId)
    && (forall i, j :: 0 <= i < |requests| && 0 <= j < |mentorships| && requests[i].status == Pending
          && mentorships[j].status == Active
          ==> requests[i].menteeId != mentorships[j].menteeId || requests[i].mentorId != mentorships[j].mentorId)
  }

  predicate PendingBetween(requests: seq<MentorshipRequest>, menteeId: int, mentorId: int)
  {
    FirstIndex(requests, (q: MentorshipRequest) => q.menteeId == menteeId && q.mentorId == mentorId && q.status == Pending).Some?
  }

  predicate ActiveBetween(mentorships: seq<Mentorship>, menteeId: int, mentorId: int)
  {
    FirstIndex(mentorships, (m: Mentorship) => m.menteeId == menteeId && m.mentorId == mentorId && m.status == Active).Some?
  }

  // =====================================================================
  // create_request
  // =====================================================================

  /** The guards of create_request, in order: the caller is a mentee (403),
      the first user with the mentor's id is a mentor (404) with a profile
      (404), no pending request (400) and no active mentorship (400) links
      the pair. On success the new request is pending. */
  function CreateRequestOutcome(users: seq<User>, profiles: seq<MentorProfile>, requests: seq<MentorshipRequest>,
                                mentorships: seq<Mentorship>, actor: User, mentorId: int, message: Option<string>,
                                newId: int): (r: Result<MentorshipRequest>)
    ensures actor.role != "mentee" ==> r == Err(Forbidden)
    ensures r.Ok? ==> r.value == MentorshipRequest(newId, actor.id, mentorId, message, Pending)
    ensures r.Ok? <==>
      && actor.role == "mentee"
      && FirstIndex(users, (u: User) => u.id == mentorId).Some?
      && users[FirstIndex(users, (u: User) => u.id == mentorId).value].role == "mentor"
      && FirstIndex(profiles, (p: MentorProfile) => p.userId == mentorId).Some?
      && !PendingBetween(requests, actor.id, mentorId)
      && !ActiveBetween(mentorships, actor.id, mentorId)
    ensures PendingBetween(requests, actor.id, mentorId) && actor.role == "mentee" ==> r.Err?
  {
    if actor.role != "mentee" then Err(Forbidden)
    else
      var mentor := FirstIndex(users, (u: User) => u.id == mentorId);
      if mentor.None? || users[mentor.value].role != "mentor" then Err(NotFound)
      else if FirstIndex(profiles, (p: MentorProfile) => p.userId == mentorId).None? then Err(NotFound)
      else if PendingBetween(requests, actor.id, mentorId) then Err(BadRequest)
      else if ActiveBetween(mentorships, actor.id, mentorId) then Err(BadRequest)
      else Ok(MentorshipRequest(newId, actor.id, mentorId, message, Pending))
  }

  method CreateRequest(db: Database, actor: User, mentorId: int, message: Option<string>)
    returns (r: Result<MentorshipRequest>)
    modifies db`requests, db`nextId
    ensures r == CreateRequestOutcome(db.users, db.profiles, old(db.requests), db.mentorships, actor, mentorId, message,
                                      old(db.nextId))
    ensures r.Ok? ==> db.requests == old(db.requests) + [r.value] && db.nextId == old(db.nextId) + 1
    ensures r.Err? ==> db.requests == old(db.requests) && db.nextId == old(db.nextId)
  {
    r := CreateRequestOutcome(db.users, db.profiles, db.requests, db.mentorships, actor, mentorId, message, db.nextId);
    if r.Ok? {
      var id := db.FreshId();
      db.requests := db.requests + [r.value];
    }
  }

  /** Creating a request keeps at most one open item per pair. */
  lemma {:induction false} CreateKeepsAtMostOneOpen(users: seq<User>, profiles: seq<MentorProfile>,
    requests: seq<MentorshipRequest>, mentorships: seq<Mentorship>, actor: User, mentorId: int,
    message: Option<string>, newId: int)
    requires AtMostOneOpen(requests, mentorships)
    requires CreateRequestOutcome(users, profiles, requests, mentorships, actor, mentorId, message, newId).Ok?
    ensures AtMostOneOpen(requests + [CreateRequestOutcome(users, profiles, requests, mentorships, actor, mentorId,
                                                           message, newId).value], mentorships)
  {
    var q := CreateRequestOutcome(users, profiles, requests, mentorships, actor, mentorId, message, newId).value;
    var rs := requests + [q];
    forall i | 0 <= i < |requests| && requests[i].status == Pending
      ensures requests[i].menteeId != q.menteeId || requests[i].mentorId != q.mentorId
    {
    }
    forall j | 0 <= j < |mentorships| && mentorships[j].status == Active
      ensures mentorships[j].menteeId != q.menteeId || mentorships[j].mentorId != q.mentorId
    {
    }
    assert forall i :: 0 <= i < |requests| ==> rs[i] == requests[i];
  }

  // =====================================================================
  // accept_request and reject_request
  // =====================================================================

  /** The request a mentor acts on: mentors only (403), and the request must
      be one addressed to the caller (404) that is still pending (400). */
  function DecideGuard(requests: seq<MentorshipRequest>, actor: User, requestId: int): (r: Result<nat>)
    ensures actor.role != "mentor" ==> r == Err(Forbidden)
    ensures r.Ok? ==> (r.value < |requests| && requests[r.value].id == requestId
      && requests[r.value].mentorId == actor.id && requests[r.value].status == Pending)
    ensures r.Ok? <==> (actor.role == "mentor"
      && FirstIndex(requests, (q: MentorshipRequest) => q.id == requestId && q.mentorId == actor.id).Some?
      && requests[FirstIndex(requests, (q: MentorshipRequest) => q.id == requestId && q.mentorId == actor.id).value].status == Pending)
    ensures actor.role == "mentor"
      && (forall k :: 0 <= k < |requests| ==> !(requests[k].id == requestId && requests[k].mentorId == actor.id))
      ==> r == Err(NotFound)
    ensures var i := FirstIndex(requests, (q: MentorshipRequest) => q.id == requestId && q.mentorId == actor.id);
      actor.role == "mentor" && i.Some? && requests[i.value].status != Pending ==> r == Err(BadRequest)
  {
    if actor.role != "mentor" then Err(Forbidden)
    else
      match FirstIndex(requests, (q: MentorshipRequest) => q.id == requestId && q.mentorId == actor.id)
      case None => Err(NotFound)
      case Some(i) => if requests[i].status != Pending then Err(BadRequest) else Ok(i)
  }

  /** accept_request: the request becomes accepted and exactly one active
      mentorship for its pair is added. */
  method AcceptRequest(db: Database, actor: User, requestId: int) returns (r: Result<Mentorship>)
    modifies db`requests, db`mentorships, db`nextId
    ensures var g := DecideGuard(old(db.requests), actor, requestId);
      if g.Err? then
        r == Err(g.error) && db.requests == old(db.requests) && db.mentorships == old(db.mentorships)
        && db.nextId == old(db.nextId)
      else
        var q := old(db.requests)[g.value];
        && r == Ok(Mentorship(old(db.nextId), actor.id, q.menteeId, Active))
        && db.requests == old(db.requests)[g.value := q.(status := Accepted)]
        && db.mentorships == old(db.mentorships) + [r.value]
        && db.nextId == old(db.nextId) + 1
  {
    var g := DecideGuard(db.requests, actor, requestId);
    if g.Err? {
      return Err(g.error);
    }
    var q := db.requests[g.value];
    db.requests := db.requests[g.value := q.(status := Accepted)];
    var id := db.FreshId();
    var m := Mentorship(id, actor.id, q.menteeId, Active);
    db.mentorships := db.mentorships + [m];
    return Ok(m);
  }

  /** Accepting keeps at most one open item per pair: the pending request
      the new mentorship replaces was the pair's only open item. */
  lemma {:induction false} AcceptKeepsAtMostOneOpen(requests: seq<MentorshipRequest>, mentorships: seq<Mentorship>,
                                                    actor: User, requestId: int, newId: int)
    requires AtMostOneOpen(requests, mentorships)
    requires DecideGuard(requests, actor, requestId).Ok?
    ensures var i := DecideGuard(requests, actor, requestId).value;
      AtMostOneOpen(requests[i := requests[i].(status := Accepted)],
                    mentorships + [Mentorship(newId, actor.id, requests[i].menteeId, Active)])
  {
    var i := DecideGuard(requests, actor, requestId).value;
    var q := requests[i];
    var rs := requests[i := q.(status := Accepted)];
    var m := Mentorship(newId, actor.id, q.menteeId, Active);
    var ms := mentorships + [m];
    assert forall j :: 0 <= j < |mentorships| ==> ms[j] == mentorships[j];
    forall k | 0 <= k < |rs| && rs[k].status == Pending
      ensures rs[k].menteeId != m.menteeId || rs[k].mentorId != m.mentorId
    {
      assert k != i && rs[k] == requests[k];
    }
    forall j | 0 <= j < |mentorships| && mentorships[j].status == Active
      ensures mentorships[j].menteeId != m.menteeId || mentorships[j].mentorId != m.mentorId
    {
      assert requests[i].status == Pending;
    }
  }

  /** reject_request: the request becomes rejected; no mentorship is made. */
  method RejectRequest(db: Database, actor: User, requestId: int) returns (r: Result<()>)
    modifies db`requests
    ensures var g := DecideGuard(old(db.requests), actor, requestId);
      if g.Err? then r == Err(g.error) && db.requests == old(db.requests)
      else r == Ok(()) && db.requests == old(db.requests)[g.value := old(db.requests)[g.value].(status := Rejected)]
  {
    var g := DecideGuard(db.requests, actor, requestId);
    if g.Err? {
      return Err(g.error);
    }
    db.requests := db.requests[g.value := db.requests[g.value].(status := Rejected)];
    return Ok(());
  }

  /** Rejecting only closes an open item, so the invariant is kept. */
  lemma {:induction false} RejectKeepsAtMostOneOpen(requests: seq<MentorshipRequest>, mentorships: seq<Mentorship>, i: nat)
    requires AtMostOneOpen(requests, mentorships) && i < |requests|
    ensures AtMostOneOpen(requests[i := requests[i].(status := Rejected)], mentorships)
  {
    var rs := requests[i := requests[i].(status := Rejected)];
    assert forall k :: 0 <= k < |rs| && rs[k].status == Pending ==> rs[k] == requests[k];
  }

  // =====================================================================
  // complete_mentorship
  // =====================================================================

  /** The mentorship either participant may complete: the first with the id
      that has the caller as mentor or mentee (404), and it must be active
      (400). The caller's role is not checked. */
  function CompleteGuard(mentorships: seq<Mentorship>, actorId: int, mentorshipId: int): (r: Result<nat>)
    ensures r.Ok? ==> (r.value < |mentorships| && mentorships[r.value].id == mentorshipId
      && (mentorships[r.value].mentorId == actorId || mentorships[r.value].menteeId == actorId)
      && mentorships[r.value].status == Active)
    ensures r.Err? ==> r.error in {NotFound, BadRequest}
    ensures r == Err(NotFound) <==> forall k :: 0 <= k < |mentorships| ==>
      mentorships[k].id != mentorshipId || (mentorships[k].mentorId != actorId && mentorships[k].menteeId != actorId)
  {
    match FirstIndex(mentorships, (m: Mentorship) => m.id == mentorshipId && (m.mentorId == actorId || m.menteeId == actorId))
    case None => Err(NotFound)
    case Some(i) => if mentorships[i].status != Active then Err(BadRequest) else Ok(i)
  }

  method CompleteMentorship(db: Database, actorId: int, mentorshipId: int) returns (r: Result<()>)
    modifies db`mentorships
    ensures var g := CompleteGuard(old(db.mentorships), actorId, mentorshipId);
      if g.Err? then r == Err(g.error) && db.mentorships == old(db.mentorships)
      else r == Ok(()) && db.mentorships == old(db.mentorships)[g.value := old(db.mentorships)[g.value].(status := Finished)]
  {
    var g := CompleteGuard(db.mentorships, actorId, mentorshipId);
    if g.Err? {
      return Err(g.error);
    }
    db.mentorships := db.mentorships[g.value := db.mentorships[g.value].(status := Finished)];
    return Ok(());
  }

  /** Completing only closes an open item, so the invariant is kept. */
  lemma {:induction false} CompleteKeepsAtMostOneOpen(requests: seq<MentorshipRequest>, mentorships: seq<Mentorship>, i: nat)
    requires AtMostOneOpen(requests, mentorships) && i < |mentorships|
    ensures AtMostOneOpen(requests, mentorships[i := mentorships[i].(status := Finished)])
  {
    var ms := mentorships[i := mentorships[i].(status := Finished)];
    assert forall k :: 0 <= k < |ms| && ms[k].status == Active ==> ms[k] == mentorships[k];
  }

  /** A completed mentorship frees the pair: the same mentee may ask the
      same mentor again. */
  lemma CompletedPairMayRequestAgain(mentorships: seq<Mentorship>, i: nat, requests: seq<MentorshipRequest>)
    requires i < |mentorships| && AtMostOneOpen(requests, mentorships)
    requires mentorships[i].status == Active
    ensures !ActiveBetween(mentorships[i := mentorships[i].(status := Finished)], mentorships[i].menteeId, mentorships[i].mentorId)
  {
    var ms := mentorships[i := mentorships[i].(status := Finished)];
    var m := mentorships[i];
    forall k | 0 <= k < |ms|
      ensures !(ms[k].menteeId == m.menteeId && ms[k].mentorId == m.mentorId && ms[k].status == Active)
    {
      if k != i && ms[k].status == Active {
        if k < i {
          assert mentorships[k].menteeId != m.menteeId || mentorships[k].mentorId != m.mentorId;
        } else {
          assert mentorships[i].menteeId != mentorships[k].menteeId || mentorships[i].mentorId != mentorships[k].mentorId;
        }
      }
    }
  }
}

=== FILE: models.dfy ===
/** The persistent records of the mentoring platform and the database that
    holds them. Each SQLAlchemy table becomes a sequence of immutable records
    (a row update is a sequence update); money is in integer pence, a time of
    day in minutes since midnight and a calendar date is its proleptic
    Gregorian ordinal (1 = Monday 1 January of year 1). */
module Models {
  import opened Common

  /** A time of day, in minutes after midnight. */
  type Minute = m: int | 0 <= m < 1440

  const MinutesPerDay := 1440

  /** A calendar date as Python's date.toordinal(). */
  type Date = int

  /** Python's date.weekday(): 0 = Monday … 6 = Sunday. */
  function Weekday(d: Date): (w: int)
    ensures 0 <= w < 7
  {
    (d + 6) % 7
  }

  /** Consecutive dates have consecutive weekdays, Sunday wrapping to Monday. */
  lemma WeekdayNext(d: Date)
    ensures Weekday(d + 1) == if Weekday(d) == 6 then 0 else Weekday(d) + 1
  {
  }

  // ---------------------------------------------------------------------
  // Users and profiles
  // ---------------------------------------------------------------------

  /** A user account; a missing role is the empty string, which no role
      comparison accepts. `balance` is the mentor credit written by the
      second payment module. */
  datatype User = User(id: int, email: string, role: string, fullName: Option<string>, balance: int)

  datatype MentorProfile = MentorProfile(
    userId: int,
    fullName: Option<string>,
    domains: Option<string>,
    skills: Option<string>,
    yearsExperience: Option<int>,
    bio: Option<string>,
    hourlyRate: int,        // pence per hour
    isVerified: bool)

  // ---------------------------------------------------------------------
  // Bookings, availability, blocked dates
  // ---------------------------------------------------------------------

  datatype BookingStatus = Requested | Confirmed | Completed | Cancelled
  {
    /** The string stored in the status column. */
    function Name(): string
    {
      match this
      case Requested => "requested"
      case Confirmed => "confirmed"
      case Completed => "completed"
      case Cancelled => "cancelled"
    }

    /** Statuses that hold a slot: only these take part in conflict checks. */
    predicate IsActive()
    {
      this == Requested || this == Confirmed
    }
  }

  datatype Booking = Booking(
    id: int,
    menteeId: int,
    mentorId: int,
    date: Date,
    start: Minute,
    end: Minute,
    duration: int,
    status: BookingStatus,
    amount: int,                      // pence
    paymentStatus: string,            // "pending", "paid", "refunded"
    paymentIntentId: Option<string>,
    menteeMessage: Option<string>,
    mentorNotes: Option<string>,
    cancellationReason: Option<string>)

  datatype Availability = Availability(
    id: int,
    mentorId: int,
    dayOfWeek: int,
    start: Minute,
    end: Minute,
    isActive: bool)

  datatype BlockedDate = BlockedDate(id: int, mentorId: int, date: Date, reason: Option<string>)

  // ---------------------------------------------------------------------
  // Payments
  // ---------------------------------------------------------------------

  /** A row of the card-payment table written by the webhook with a 10% fee. */
  datatype Payment = Payment(
    id: int,
    bookingId: int,
    intentId: string,
    amount: int,
    status: string,
    platformFee: int,
    mentorPayout: int,
    commissionPaid: bool,
    webhookProcessed: bool,
    webhookEventId: Option<string>)

  datatype MentorBalance = MentorBalance(
    mentorId: int,
    totalEarned: int,
    availableBalance: int,
    pendingBalance: int,
    withdrawn: int)

  /** A row of the payment-attempt table of the checkout flow with a
      configurable fee. */
  datatype PaymentAttempt = PaymentAttempt(
    id: int,
    bookingId: int,
    amount: int,
    intentId: Option<string>,
    status: string,
    platformFee: int,
    mentorPayoutAmount: int)

  datatype WebhookEvent = WebhookEvent(eventId: string, eventType: Option<string>)

  // ---------------------------------------------------------------------
  // Mentorships, feedback, chat
  // ---------------------------------------------------------------------

  datatype RequestStatus = Pending | Accepted | Rejected

  datatype MentorshipRequest = MentorshipRequest(
    id: int, menteeId: int, mentorId: int, message: Option<string>, status: RequestStatus)

  datatype MentorshipStatus = Active | Finished | Ended
  {
    function Name(): string
    {
      match this
      case Active => "active"
      case Finished => "completed"
      case Ended => "cancelled"
    }
  }

  datatype Mentorship = Mentorship(id: int, mentorId: int, menteeId: int, status: MentorshipStatus)

  /** `sessionCompleted` records whether session_completed_at is set. */
  datatype SessionFeedback = SessionFeedback(
    id: int,
    bookingId: int,
    rating: int,
    feedbackText: Option<string>,
    menteeId: int,
    mentorId: int,
    sessionCompleted: bool)

  /** `createdAt` is the insertion timestamp, as an abstract clock value. */
  datatype Message = Message(id: int, senderId: int, recipientId: int, content: string, createdAt: int)

  // ---------------------------------------------------------------------
  // Intake and matches
  // ---------------------------------------------------------------------

  datatype MenteeIntake = MenteeIntake(
    userId: int,
    careerStage: string,
    primaryGoal: string,
    specificGoal: string,
    desiredSkills: string,
    currentSkills: string,
    industryInterest: string,
    timeCommitment: string,
    budgetRange: string,
    timeline: string,
    preferredMentorStyle: string,
    communicationPreference: string,
    currentChallenges: string,
    pastExperience: string,
    learningStyle: string)

  datatype MentorMatch = MentorMatch(menteeId: int, mentorId: int, matchScore: int)

  // ---------------------------------------------------------------------
  // The database
  // ---------------------------------------------------------------------

  /** All tables, in insertion order. `nextId` is the next primary key. */
  class Database {
    var users: seq<User>
    var profiles: seq<MentorProfile>
    var bookings: seq<Booking>
    var availability: seq<Availability>
    var blocked: seq<BlockedDate>
    var payments: seq<Payment>
    var balances: seq<MentorBalance>
    var attempts: seq<PaymentAttempt>
    var events: seq<WebhookEvent>
    var requests: seq<MentorshipRequest>
    var mentorships: seq<Mentorship>
    var feedback: seq<SessionFeedback>
    var messages: seq<Message>
    var intakes: seq<MenteeIntake>
    var matches: seq<MentorMatch>
    var nextId: int

    constructor ()
      ensures users == [] && profiles == [] && bookings == [] && availability == []
      ensures blocked == [] && payments == [] && balances == [] && attempts == []
      ensures events == [] && requests == [] && mentorships == [] && feedback == []
      ensures messages == [] && intakes == [] && matches == []
      ensures nextId == 1
    {
      users, profiles, bookings, availability := [], [], [], [];
      blocked, payments, balances, attempts := [], [], [], [];
      events, requests, mentorships, feedback := [], [], [], [];
      messages, intakes, matches := [], [], [];
      nextId := 1;
    }

    /** Hands out a fresh primary key. */
    method FreshId() returns (id: int)
      modifies this`nextId
      ensures id == old(nextId) && nextId == old(nextId) + 1
    {
      id := nextId;
      nextId := nextId + 1;
    }
  }
}

=== FILE: money.dfy ===
/** Money in integer pence and the platform-commission split shared by both
    payment modules: the fee is the amount times the commission rate,
    rounded to the nearest penny (halves rounded up), and the mentor
    receives the rest. */
module Money {

  /** `percent`% of `amount` pence, rounded to the nearest penny, halves up. */
  function PercentOf(amount: int, percent: int): (fee: int)
    ensures -50 < 100 * fee - amount * percent <= 50
  {
    (amount * percent + 50) / 100
  }

  /** The rounding is the nearest penny: no other whole number of pence is
      closer to the exact share. */
  lemma PercentOfNearest(amount: int, percent: int, other: int)
    ensures var d := 100 * PercentOf(amount, percent) - amount * percent;
            var e := 100 * other - amount * percent;
            (if d < 0 then -d else d) <= (if e < 0 then -e else e)
  {
    var fee := PercentOf(amount, percent);
    if other > fee {
      assert 100 * other >= 100 * fee + 100;
    } else if other < fee {
      assert 100 * other <= 100 * fee - 100;
    }
  }

  /** For a rate of at most 100%, the fee of a non-negative amount is
      between nothing and the whole amount. */
  lemma PercentOfBounds(amount: int, percent: int)
    requires amount >= 0 && 0 <= percent <= 100
    ensures 0 <= PercentOf(amount, percent) <= amount
  {
    var fee := PercentOf(amount, percent);
    var share := amount * percent;
    ShareWithin(amount, percent);
    assert 0 <= share <= 100 * amount;
    assert -50 < 100 * fee - share <= 50;
  }

  lemma ShareWithin(amount: int, percent: int)
    requires amount >= 0 && 0 <= percent <= 100
    ensures 0 <= amount * percent <= 100 * amount
  {
    assert amount * (100 - percent) >= 0;
  }

  datatype Split = Split(platformFee: int, mentorPayout: int)

  /** The fee at the given rate and the payout that remains: the two always
      add up to the amount, and for a rate between 0 and 100% neither is
      negative. */
  function Commission(amount: int, percent: int): (s: Split)
    ensures s.platformFee + s.mentorPayout == amount
    ensures -50 < 100 * s.platformFee - amount * percent <= 50
    ensures amount >= 0 && 0 <= percent <= 100 ==> 0 <= s.platformFee <= amount && 0 <= s.mentorPayout <= amount
  {
    var fee := PercentOf(amount, percent);
    if amount >= 0 && 0 <= percent <= 100 then PercentOfBounds(amount, percent); Split(fee, amount - fee)
    else Split(fee, amount - fee)
  }
}

=== FILE: payment_routes.dfy ===
/** Card payments with a 10% platform commission: the checkout guards, the
    idempotent handling of the payment-succeeded webhook and the mentor
    balance it credits. An event is a record whose signature has already
    been checked; the payment processor's replies are parameters. */
module PaymentRoutes {
  import opened Common
  import opened Models
  import opened Money

  /** PLATFORM_COMMISSION_RATE, as a whole percentage. */
  const CommissionPercent := 10

  /** calculate_commission: the fee is 10% of the amount to the nearest
      penny, and fee and payout add up to the amount exactly. */
  function CalculateCommission(amount: int): (s: Split)
    ensures s.platformFee + s.mentorPayout == amount
    ensures -50 < 100 * s.platformFee - amount * CommissionPercent <= 50
    ensures amount >= 0 ==> 0 <= s.platformFee <= amount && 0 <= s.mentorPayout <= amount
  {
    Commission(amount, CommissionPercent)
  }

  // =====================================================================
  // Checkout
  // =====================================================================

  predicate BookingPaid(b: Booking)
  {
    Lower(b.paymentStatus) == "paid" || Lower(b.paymentStatus) == "completed"
  }

  /** The first payment of the booking exists and has succeeded. */
  predicate AlreadySucceeded(payments: seq<Payment>, bookingId: int)
  {
    var first := FirstIndex(payments, (p: Payment) => p.bookingId == bookingId);
    first.Some? && payments[first.value].status == "succeeded"
  }

  /** The guards of create_checkout_session, in order: unknown booking (404),
      not the caller's booking (403), not confirmed (400), already paid (400),
      a succeeded payment on record (400). The result is the booking's row. */
  function CheckoutGuard(bookings: seq<Booking>, payments: seq<Payment>, bookingId: int, actorId: int): (r: Result<nat>)
    ensures FirstIndex(bookings, (b: Booking) => b.id == bookingId).None? <==> r == Err(NotFound)
    ensures r.Ok? ==> r.value < |bookings| && r.value == FirstIndex(bookings, (b: Booking) => b.id == bookingId).value
    ensures r.Ok? <==> (r != Err(NotFound) &&
      var b := bookings[FirstIndex(bookings, (b: Booking) => b.id == bookingId).value];
      b.menteeId == actorId && b.status == Confirmed && !BookingPaid(b) && !AlreadySucceeded(payments, bookingId))
    ensures r != Err(NotFound) && bookings[FirstIndex(bookings, (b: Booking) => b.id == bookingId).value].menteeId != actorId
      ==> r == Err(Forbidden)
    ensures r.Err? ==> r.error in {NotFound, Forbidden, BadRequest}
  {
    match FirstIndex(bookings, (b: Booking) => b.id == bookingId)
    case None => Err(NotFound)
    case Some(i) =>
      var b := bookings[i];
      if b.menteeId != actorId then Err(Forbidden)
      else if b.status != Confirmed then Err(BadRequest)
      else if BookingPaid(b) then Err(BadRequest)
      else if AlreadySucceeded(payments, bookingId) then Err(BadRequest)
      else Ok(i)
  }

  /** What is sent to the payment processor for a checkout. */
  datatype CheckoutRequest = CheckoutRequest(unitAmount: int, bookingId: int, menteeId: int, mentorId: int)

  function CheckoutRequestFor(b: Booking): (c: CheckoutRequest)
    ensures c.unitAmount == b.amount && c.bookingId == b.id && c.menteeId == b.menteeId && c.mentorId == b.mentorId
  {
    CheckoutRequest(b.amount, b.id, b.menteeId, b.mentorId)
  }

  /** create_checkout_session. `processor` is the processor's answer to the
      request: None for a processor error (400), otherwise the session's
      payment intent id, which is stored on the booking. */
  method CreateCheckoutSession(db: Database, bookingId: int, actorId: int,
                               processor: CheckoutRequest -> Option<Option<string>>)
    returns (r: Result<Option<string>>)
    modifies db`bookings
    ensures var g := CheckoutGuard(old(db.bookings), db.payments, bookingId, actorId);
      if g.Err? then r == Err(g.error) && db.bookings == old(db.bookings)
      else
        var answer := processor(CheckoutRequestFor(old(db.bookings)[g.value]));
        if answer.None? then r == Err(BadRequest) && db.bookings == old(db.bookings)
        else (r == Ok(answer.value)
          && db.bookings == old(db.bookings)[g.value := old(db.bookings)[g.value].(paymentIntentId := answer.value)])
  {
    var g := CheckoutGuard(db.bookings, db.payments, bookingId, actorId);
    if g.Err? {
      return Err(g.error);
    }
    var b := db.bookings[g.value];
    var answer := processor(CheckoutRequestFor(b));
    if answer.None? {
      return Err(BadRequest);
    }
    db.bookings := db.bookings[g.value := b.(paymentIntentId := answer.value)];
    return Ok(answer.value);
  }

  // =====================================================================
  // The payment-succeeded webhook
  // =====================================================================

  /** A verified event: its id and type, and the intent's id, amount in
      pence and metadata booking id (None when absent or empty). */
  datatype IntentEvent = IntentEvent(
    eventId: string, eventType: string, intentId: string, amount: int, metadataBookingId: Option<int>)

  /** The tables the webhook reads and writes. */
  datatype Ledger = Ledger(bookings: seq<Booking>, payments: seq<Payment>, balances: seq<MentorBalance>, nextId: int)

  datatype WebhookReply =
    | AlreadyProcessed
    | PaymentAlreadyProcessed(paymentId: int)
    | Succeeded(paymentId: int, mentorPayout: int, platformFee: int)
    | EventReceived

  /** The booking the event pays for: by metadata id, or else by the
      payment intent id stored at checkout. */
  function EventBooking(bookings: seq<Booking>, ev: IntentEvent): (r: Option<nat>)
    ensures r.Some? ==> r.value < |bookings|
    ensures r.Some? && ev.metadataBookingId.Some? ==> bookings[r.value].id == ev.metadataBookingId.value
    ensures r.Some? && ev.metadataBookingId.None? ==> bookings[r.value].paymentIntentId == Some(ev.intentId)
  {
    if ev.metadataBookingId.None? then FirstIndex(bookings, (b: Booking) => b.paymentIntentId == Some(ev.intentId))
    else FirstIndex(bookings, (b: Booking) => b.id == ev.metadataBookingId.value)
  }

  /** The balance the source reads for a mentor; an absent row reads as zero. */
  function BalanceOf(balances: seq<MentorBalance>, mentorId: int): (m: MentorBalance)
    ensures m.mentorId == mentorId
  {
    match FirstIndex(balances, (m: MentorBalance) => m.mentorId == mentorId)
    case None => MentorBalance(mentorId, 0, 0, 0, 0)
    case Some(i) => balances[i]
  }

  /** Adds a payout to the mentor's earned and pending amounts; a missing
      balance row is created with nothing available. */
  function CreditPending(balances: seq<MentorBalance>, mentorId: int, payout: int): (r: seq<MentorBalance>)
    ensures BalanceOf(r, mentorId).totalEarned == BalanceOf(balances, mentorId).totalEarned + payout
    ensures BalanceOf(r, mentorId).pendingBalance == BalanceOf(balances, mentorId).pendingBalance + payout
    ensures BalanceOf(r, mentorId).availableBalance == BalanceOf(balances, mentorId).availableBalance
    ensures BalanceOf(r, mentorId).withdrawn == BalanceOf(balances, mentorId).withdrawn
    ensures forall m :: m != mentorId ==> BalanceOf(r, m) == BalanceOf(balances, m)
  {
    match FirstIndex(balances, (m: MentorBalance) => m.mentorId == mentorId)
    case None =>
      var r := balances + [MentorBalance(mentorId, payout, 0, payout, 0)];
      FirstIndexAppend(balances, MentorBalance(mentorId, payout, 0, payout, 0), (m: MentorBalance) => m.mentorId == mentorId);
      forall m | m != mentorId ensures BalanceOf(r, m) == BalanceOf(balances, m) {
        FirstIndexAppend(balances, MentorBalance(mentorId, payout, 0, payout, 0), (b: MentorBalance) => b.mentorId == m);
      }
      r
    case Some(i) =>
      var cur := balances[i];
      var r := balances[i := cur.(totalEarned := cur.totalEarned + payout, pendingBalance := cur.pendingBalance + payout)];
      FirstIndexUpdate(balances, i, r[i], (m: MentorBalance) => m.mentorId == mentorId);
      forall m | m != mentorId ensures BalanceOf(r, m) == BalanceOf(balances, m) {
        FirstIndexUpdate(balances, i, r[i], (b: MentorBalance) => b.mentorId == m);
      }
      r
  }

  /** stripe_webhook: only payment_intent.succeeded events act. The event id
      already on a payment, or a payment for the intent already marked
      processed, stops it before any change; an unknown booking is 404.
      Otherwise the intent's payment is marked succeeded and processed with
      the event id (created with the 10% split if missing), the booking is
      paid and the mentor's earned and pending amounts grow by the payout. */
  function ProcessWebhook(s: Ledger, ev: IntentEvent): (out: (Result<WebhookReply>, Ledger))
    ensures ev.eventType != "payment_intent.succeeded" ==> out == (Ok(EventReceived), s)
    ensures !(out.0.Ok? && out.0.value.Succeeded?) ==> out.1 == s
    ensures out.0.Err? <==>
      && ev.eventType == "payment_intent.succeeded"
      && FirstIndex(s.payments, (p: Payment) => p.webhookEventId == Some(ev.eventId)).None?
      && !(FirstIndex(s.payments, (p: Payment) => p.intentId == ev.intentId).Some? &&
           s.payments[FirstIndex(s.payments, (p: Payment) => p.intentId == ev.intentId).value].webhookProcessed)
      && EventBooking(s.bookings, ev).None?
    ensures out.0.Err? ==> out.0.error == NotFound
  {
    if ev.eventType != "payment_intent.succeeded" then (Ok(EventReceived), s)
    else if FirstIndex(s.payments, (p: Payment) => p.webhookEventId == Some(ev.eventId)).Some? then (Ok(AlreadyProcessed), s)
    else
      var byIntent := FirstIndex(s.payments, (p: Payment) => p.intentId == ev.intentId);
      if byIntent.Some? && s.payments[byIntent.value].webhookProcessed then
        (Ok(PaymentAlreadyProcessed(s.payments[byIntent.value].id)), s)
      else
        match EventBooking(s.bookings, ev)
        case None => (Err(NotFound), s)
        case Some(bi) => Settle(s, ev, byIntent, bi)
  }

  /** The changes of a successful delivery: `byIntent` is the intent's
      payment, if any, and `bi` the booking it pays for. */
  function Settle(s: Ledger, ev: IntentEvent, byIntent: Option<nat>, bi: nat): (out: (Result<WebhookReply>, Ledger))
    requires byIntent.Some? ==> byIntent.value < |s.payments|
    requires bi < |s.bookings|
    ensures out.0.Ok? && out.0.value.Succeeded?
    ensures out.0.value.mentorPayout == CalculateCommission(ev.amount).mentorPayout
    ensures out.0.value.platformFee == CalculateCommission(ev.amount).platformFee
    ensures out.1.bookings == s.bookings[bi := s.bookings[bi].(paymentStatus := "paid")]
    ensures out.1.balances == CreditPending(s.balances, s.bookings[bi].mentorId, out.0.value.mentorPayout)
    ensures byIntent.Some? ==>
      var p := s.payments[byIntent.value];
      && out.1.nextId == s.nextId && out.0.value.paymentId == p.id
      && out.1.payments == s.payments[byIntent.value := p.(status := "succeeded", webhookProcessed := true,
                                                          webhookEventId := Some(ev.eventId), commissionPaid := true)]
    ensures byIntent.None? ==>
      && out.1.nextId == s.nextId + 1 && out.0.value.paymentId == s.nextId
      && |out.1.payments| == |s.payments| + 1 && out.1.payments[..|s.payments|] == s.payments
      && var n := out.1.payments[|s.payments|];
         && n.id == s.nextId && n.bookingId == s.bookings[bi].id && n.intentId == ev.intentId && n.amount == ev.amount
         && n.status == "succeeded" && n.webhookProcessed && n.commissionPaid && n.webhookEventId == Some(ev.eventId)
         && n.platformFee + n.mentorPayout == ev.amount && n.mentorPayout == out.0.value.mentorPayout
  {
    var booking := s.bookings[bi];
    var split := CalculateCommission(ev.amount);
    var (payments, paymentId, nextId) :=
      if byIntent.Some? then
        var p := s.payments[byIntent.value];
        (s.payments[byIntent.value := p.(status := "succeeded", webhookProcessed := true,
                                         webhookEventId := Some(ev.eventId), commissionPaid := true)],
         p.id, s.nextId)
      else
        (s.payments + [Payment(s.nextId, booking.id, ev.intentId, ev.amount, "succeeded", split.platformFee,
                               split.mentorPayout, true, true, Some(ev.eventId))],
         s.nextId, s.nextId + 1);
    var bookings := s.bookings[bi := booking.(paymentStatus := "paid")];
    var balances := CreditPending(s.balances, booking.mentorId, split.mentorPayout);
    (Ok(Succeeded(paymentId, split.mentorPayout, split.platformFee)), Ledger(bookings, payments, balances, nextId))
  }

  /** After a successful delivery the payment carries the event id and is
      processed, and the booking is paid. */
  lemma {:induction false} SuccessRecordsEvent(s: Ledger, ev: IntentEvent)
    requires ProcessWebhook(s, ev).0.Ok? && ProcessWebhook(s, ev).0.value.Succeeded?
    ensures var t := ProcessWebhook(s, ev).1;
      exists k :: 0 <= k < |t.payments| && t.payments[k].webhookEventId == Some(ev.eventId)
        && t.payments[k].intentId == ev.intentId && t.payments[k].webhookProcessed && t.payments[k].status == "succeeded"
    ensures EventBooking(s.bookings, ev).Some? &&
      var t := ProcessWebhook(s, ev).1;
      var bi := EventBooking(s.bookings, ev).value;
      t.bookings == s.bookings[bi := s.bookings[bi].(paymentStatus := "paid")]
  {
    var t := ProcessWebhook(s, ev).1;
    var byIntent := FirstIndex(s.payments, (p: Payment) => p.intentId == ev.intentId);
    var bi := EventBooking(s.bookings, ev).value;
    assert t.bookings[bi].paymentStatus == "paid";
    if byIntent.Some? {
      assert t.payments[byIntent.value].webhookEventId == Some(ev.eventId);
    } else {
      assert t.payments[|s.payments|].webhookEventId == Some(ev.eventId);
    }
  }

  /** Replaying a delivered event is answered "already processed" and
      changes nothing, so a mentor is never credited twice for it. */
  lemma {:induction false} ReplayIsIgnored(s: Ledger, ev: IntentEvent)
    requires ProcessWebhook(s, ev).0.Ok? && ProcessWebhook(s, ev).0.value.Succeeded?
    ensures var t := ProcessWebhook(s, ev).1;
      ProcessWebhook(t, ev) == (Ok(AlreadyProcessed), t)
  {
    SuccessRecordsEvent(s, ev);
    var t := ProcessWebhook(s, ev).1;
    var k :| 0 <= k < |t.payments| && t.payments[k].webhookEventId == Some(ev.eventId);
    assert FirstIndex(t.payments, (p: Payment) => p.webhookEventId == Some(ev.eventId)).Some?;
  }

  /** A second event for an intent already paid, under a new event id, is
      answered "payment already processed" and changes nothing. */
  lemma {:induction false} SecondEventForIntentIgnored(s: Ledger, ev: IntentEvent, ev2: IntentEvent)
    requires ProcessWebhook(s, ev).0.Ok? && ProcessWebhook(s, ev).0.value.Succeeded?
    requires ev2.eventType == "payment_intent.succeeded" && ev2.intentId == ev.intentId
    requires var t := ProcessWebhook(s, ev).1;
      FirstIndex(t.payments, (p: Payment) => p.webhookEventId == Some(ev2.eventId)).None?
    ensures var t := ProcessWebhook(s, ev).1;
      ProcessWebhook(t, ev2).1 == t && ProcessWebhook(t, ev2).0.Ok? && ProcessWebhook(t, ev2).0.value.PaymentAlreadyProcessed?
  {
    var t := ProcessWebhook(s, ev).1;
    var byIntent := FirstIndex(s.payments, (p: Payment) => p.intentId == ev.intentId);
    var p := (p: Payment) => p.intentId == ev.intentId;
    if byIntent.Some? {
      var i := byIntent.value;
      FirstIndexUpdate(s.payments, i, t.payments[i], p);
      assert FirstIndex(t.payments, p) == Some(i);
      assert t.payments[i].webhookProcessed;
    } else {
      var n := t.payments[|s.payments|];
      FirstIndexAppend(s.payments, n, p);
      assert t.payments == s.payments + [n];
      assert FirstIndex(t.payments, p) == Some(|s.payments|);
    }
  }

  /** On success the mentor's earned and pending amounts rise by the payout
      and nothing becomes available; other mentors are untouched. */
  lemma {:induction false} SuccessCreditsPending(s: Ledger, ev: IntentEvent)
    requires ProcessWebhook(s, ev).0.Ok? && ProcessWebhook(s, ev).0.value.Succeeded?
    ensures var t := ProcessWebhook(s, ev).1;
      var mentor := s.bookings[EventBooking(s.bookings, ev).value].mentorId;
      var payout := CalculateCommission(ev.amount).mentorPayout;
      && BalanceOf(t.balances, mentor).totalEarned == BalanceOf(s.balances, mentor).totalEarned + payout
      && BalanceOf(t.balances, mentor).pendingBalance == BalanceOf(s.balances, mentor).pendingBalance + payout
      && BalanceOf(t.balances, mentor).availableBalance == BalanceOf(s.balances, mentor).availableBalance
      && forall m :: m != mentor ==> BalanceOf(t.balances, m) == BalanceOf(s.balances, m)
  {
  }

  /** The webhook handler on the database: the tables end up as
      ProcessWebhook says. */
  method StripeWebhook(db: Database, ev: IntentEvent) returns (r: Result<WebhookReply>)
    modifies db`bookings, db`payments, db`balances, db`nextId
    ensures (r, Ledger(db.bookings, db.payments, db.balances, db.nextId))
      == ProcessWebhook(Ledger(old(db.bookings), old(db.payments), old(db.balances), old(db.nextId)), ev)
  {
    if ev.eventType != "payment_intent.succeeded" {
      return Ok(EventReceived);
    }
    var seen := FirstIndex(db.payments, (p: Payment) => p.webhookEventId == Some(ev.eventId));
    if seen.Some? {
      return Ok(AlreadyProcessed);
    }
    var byIntent := FirstIndex(db.payments, (p: Payment) => p.intentId == ev.intentId);
    if byIntent.Some? && db.payments[byIntent.value].webhookProcessed {
      return Ok(PaymentAlreadyProcessed(db.payments[byIntent.value].id));
    }
    var bi := EventBooking(db.bookings, ev);
    if bi.None? {
      return Err(NotFound);
    }
    r := SettleOn(db, ev, byIntent, bi.value);
  }

  /** The writes of a successful delivery, as Settle describes them. */
  method SettleOn(db: Database, ev: IntentEvent, byIntent: Option<nat>, bi: nat) returns (r: Result<WebhookReply>)
    requires byIntent.Some? ==> byIntent.value < |db.payments|
    requires bi < |db.bookings|
    modifies db`bookings, db`payments, db`balances, db`nextId
    ensures (r, Ledger(db.bookings, db.payments, db.balances, db.nextId))
      == Settle(Ledger(old(db.bookings), old(db.payments), old(db.balances), old(db.nextId)), ev, byIntent, bi)
  {
    var booking := db.bookings[bi];
    var split := CalculateCommission(ev.amount);
    var paymentId;
    if byIntent.Some? {
      var p := db.payments[byIntent.value];
      db.payments := db.payments[byIntent.value := p.(status := "succeeded", webhookProcessed := true,
                                                       webhookEventId := Some(ev.eventId), commissionPaid := true)];
      paymentId := p.id;
    } else {
      paymentId := db.FreshId();
      db.payments := db.payments + [Payment(paymentId, booking.id, ev.intentId, ev.amount, "succeeded",
                                            split.platformFee, split.mentorPayout, true, true, Some(ev.eventId))];
    }
    db.bookings := db.bookings[bi := booking.(paymentStatus := "paid")];
    db.balances := CreditPending(db.balances, booking.mentorId, split.mentorPayout);
    return Ok(Succeeded(paymentId, split.mentorPayout, split.platformFee));
  }

  // =====================================================================
  // Reading a mentor's balance
  // =====================================================================

  /** get_mentor_balance: mentors only (role compared ignoring case); a
      mentor without a balance row gets one with every amount zero. */
  method GetMentorBalance(db: Database, actor: User) returns (r: Result<MentorBalance>)
    modifies db`balances
    ensures Lower(actor.role) != "mentor" ==> r == Err(Forbidden) && db.balances == old(db.balances)
    ensures Lower(actor.role) == "mentor" ==> r == Ok(BalanceOf(old(db.balances), actor.id))
    ensures Lower(actor.role) == "mentor" ==> BalanceOf(db.balances, actor.id) == BalanceOf(old(db.balances), actor.id)
    ensures Lower(actor.role) == "mentor" ==>
      db.balances == if FirstIndex(old(db.balances), (m: MentorBalance) => m.mentorId == actor.id).None?
                     then old(db.balances) + [MentorBalance(actor.id, 0, 0, 0, 0)]
                     else old(db.balances)
  {
    if Lower(actor.role) != "mentor" {
      return Err(Forbidden);
    }
    var found := FirstIndex(db.balances, (m: MentorBalance) => m.mentorId == actor.id);
    if found.None? {
      var zero := MentorBalance(actor.id, 0, 0, 0, 0);
      FirstIndexAppend(db.balances, zero, (m: MentorBalance) => m.mentorId == actor.id);
      db.balances := db.balances + [zero];
      return Ok(zero);
    }
    return Ok(db.balances[found.value]);
  }
}

=== FILE: payments_routes.dfy ===
/** The second payment flow, with a 20% commission: a pending payment
    attempt is recorded before the processor is asked for a session or an
    intent, and a payment is finalised at most once, either by the webhook
    or by an explicit confirmation, crediting the mentor's balance on the
    user record. Webhook events are deduplicated by their event id. */
module PaymentsRoutes {
  import opened Common
  import opened Models
  import opened Money

  /** PLATFORM_COMMISSION_PERCENT's default, as a whole percentage. */
  const CommissionPercent := 20

  /** Body of a payment request; the amount is in pence. */
  datatype PaymentCreate = PaymentCreate(bookingId: int, amount: int)

  /** What is sent to the processor: the charge in pence and the metadata
      linking it back to the attempt and the booking. */
  datatype ProcessorRequest = ProcessorRequest(unitAmount: int, paymentId: int, bookingId: int)

  /** The tables these routes touch. */
  datatype Store = Store(users: seq<User>, bookings: seq<Booking>, attempts: seq<PaymentAttempt>, events: seq<WebhookEvent>)

  function PendingAttempt(id: int, req: PaymentCreate): (a: PaymentAttempt)
    ensures a.id == id && a.bookingId == req.bookingId && a.amount == req.amount
    ensures a.status == "pending" && a.intentId.None? && a.platformFee == 0 && a.mentorPayoutAmount == 0
  {
    PaymentAttempt(id, req.bookingId, req.amount, None, "pending", 0, 0)
  }

  predicate BookingExists(bookings: seq<Booking>, bookingId: int)
  {
    FirstIndex(bookings, (b: Booking) => b.id == bookingId).Some?
  }

  /** create_checkout_session: 404 for an unknown booking; otherwise a
      pending attempt is stored first, so it remains even when the
      processor then fails (500). `processor` answers with a session id. */
  method CreateCheckoutSession(db: Database, req: PaymentCreate, processor: ProcessorRequest -> Option<string>)
    returns (r: Result<string>)
    modifies db`attempts, db`nextId
    ensures !BookingExists(db.bookings, req.bookingId) ==>
      r == Err(NotFound) && db.attempts == old(db.attempts) && db.nextId == old(db.nextId)
    ensures BookingExists(db.bookings, req.bookingId) ==>
      && db.attempts == old(db.attempts) + [PendingAttempt(old(db.nextId), req)]
      && db.nextId == old(db.nextId) + 1
      && var answer := processor(ProcessorRequest(req.amount, old(db.nextId), req.bookingId));
         r == if answer.None? then Err(ServerError) else Ok(answer.value)
  {
    if !BookingExists(db.bookings, req.bookingId) {
      return Err(NotFound);
    }
    var id := db.FreshId();
    db.attempts := db.attempts + [PendingAttempt(id, req)];
    var answer := processor(ProcessorRequest(req.amount, id, req.bookingId));
    if answer.None? {
      return Err(ServerError);
    }
    return Ok(answer.value);
  }

  /** create_payment_intent: as checkout, and the intent id the processor
      returns is stored on the new attempt. The result is the attempt's id
      and the intent id. */
  method CreatePaymentIntent(db: Database, req: PaymentCreate, processor: ProcessorRequest -> Option<string>)
    returns (r: Result<(int, string)>)
    modifies db`attempts, db`nextId
    ensures !BookingExists(db.bookings, req.bookingId) ==>
      r == Err(NotFound) && db.attempts == old(db.attempts) && db.nextId == old(db.nextId)
    ensures BookingExists(db.bookings, req.bookingId) ==>
      var id := old(db.nextId);
      var answer := processor(ProcessorRequest(req.amount, id, req.bookingId));
      && db.nextId == id + 1
      && (answer.None? ==> r == Err(ServerError) && db.attempts == old(db.attempts) + [PendingAttempt(id, req)])
      && (answer.Some? ==> (r == Ok((id, answer.value))
            && db.attempts == old(db.attempts) + [PendingAttempt(id, req).(intentId := Some(answer.value))]))
  {
    if !BookingExists(db.bookings, req.bookingId) {
      return Err(NotFound);
    }
    var id := db.FreshId();
    db.attempts := db.attempts + [PendingAttempt(id, req)];
    var answer := processor(ProcessorRequest(req.amount, id, req.bookingId));
    if answer.None? {
      return Err(ServerError);
    }
    var last := |db.attempts| - 1;
    db.attempts := db.attempts[last := db.attempts[last].(intentId := Some(answer.value))];
    return Ok((id, answer.value));
  }

  // =====================================================================
  // Finalising a payment
  // =====================================================================

  /** A user's balance as the source reads it; an unknown user reads as 0. */
  function BalanceOf(users: seq<User>, id: int): int
  {
    match FirstIndex(users, (u: User) => u.id == id)
    case None => 0
    case Some(i) => users[i].balance
  }

  /** Adds a payout to the balance of the user with the mentor's id, when
      there is one; nothing else changes. */
  function CreditMentor(users: seq<User>, mentorId: int, payout: int): (r: seq<User>)
    ensures FirstIndex(users, (u: User) => u.id == mentorId).None? ==> r == users
    ensures FirstIndex(users, (u: User) => u.id == mentorId).Some? ==>
      BalanceOf(r, mentorId) == BalanceOf(users, mentorId) + payout
    ensures forall m :: m != mentorId ==> BalanceOf(r, m) == BalanceOf(users, m)
  {
    match FirstIndex(users, (u: User) => u.id == mentorId)
    case None => users
    case Some(i) =>
      var r := users[i := users[i].(balance := users[i].balance + payout)];
      FirstIndexUpdate(users, i, r[i], (u: User) => u.id == mentorId);
      forall m | m != mentorId ensures BalanceOf(r, m) == BalanceOf(users, m) {
        FirstIndexUpdate(users, i, r[i], (u: User) => u.id == m);
      }
      r
  }

  /** The credit owed for a payment: to the mentor of its booking, when the
      booking exists and names a mentor (a mentor id of 0 is falsy). */
  function CreditFor(users: seq<User>, bookings: seq<Booking>, bookingId: int, payout: int): (r: seq<User>)
    ensures var bi := FirstIndex(bookings, (b: Booking) => b.id == bookingId);
      if bi.Some? && bookings[bi.value].mentorId != 0 then
        var m := bookings[bi.value].mentorId;
        && (FirstIndex(users, (u: User) => u.id == m).Some? ==> BalanceOf(r, m) == BalanceOf(users, m) + payout)
        && (FirstIndex(users, (u: User) => u.id == m).None? ==> r == users)
        && (forall other :: other != m ==> BalanceOf(r, other) == BalanceOf(users, other))
      else r == users
  {
    match FirstIndex(bookings, (b: Booking) => b.id == bookingId)
    case None => users
    case Some(bi) =>
      if bookings[bi].mentorId != 0 then CreditMentor(users, bookings[bi].mentorId, payout) else users
  }

  /** finalize_payment: a payment already succeeded is left alone; otherwise
      it succeeds with the 20% split and its payout is credited. */
  function Finalize(s: Store, i: nat): (t: Store)
    requires i < |s.attempts|
    ensures |t.attempts| == |s.attempts| && t.attempts[i].status == "succeeded"
    ensures t.bookings == s.bookings && t.events == s.events
    ensures s.attempts[i].status == "succeeded" ==> t == s
    ensures s.attempts[i].status != "succeeded" ==>
      t.users == CreditFor(s.users, s.bookings, s.attempts[i].bookingId, t.attempts[i].mentorPayoutAmount)
    ensures s.attempts[i].status != "succeeded" ==>
      && t.attempts == s.attempts[i := t.attempts[i]]
      && t.attempts[i].platformFee + t.attempts[i].mentorPayoutAmount == s.attempts[i].amount
      && -50 < 100 * t.attempts[i].platformFee - s.attempts[i].amount * CommissionPercent <= 50
      && t.attempts[i] == s.attempts[i].(status := "succeeded", platformFee := t.attempts[i].platformFee,
                                          mentorPayoutAmount := t.attempts[i].mentorPayoutAmount)
  {
    var p := s.attempts[i];
    if p.status == "succeeded" then s
    else
      var split := Commission(p.amount, CommissionPercent);
      var attempts := s.attempts[i := p.(status := "succeeded", platformFee := split.platformFee,
                                         mentorPayoutAmount := split.mentorPayout)];
      s.(attempts := attempts, users := CreditFor(s.users, s.bookings, p.bookingId, split.mentorPayout))
  }

  /** finalize_payment as the source runs it: the credit reads a balance
      column that the user model does not declare, and the error this raises
      is swallowed, so the payment still succeeds with its split while no
      balance changes. */
  function FinalizeAsWritten(s: Store, i: nat): (t: Store)
    requires i < |s.attempts|
    ensures t.users == s.users
    ensures t.attempts == Finalize(s, i).attempts && t.bookings == s.bookings && t.events == s.events
  {
    Finalize(s, i).(users := s.users)
  }

  /** A pending payment of 1000 pence for a booking whose mentor has a user
      record: the intended finalisation credits the mentor 800, the one the
      source runs credits nothing. */
  lemma AsWrittenCreditsNobody()
    ensures var mentor := User(7, "mentor@example.com", "mentor", None, 0);
      var booking := Booking(3, 9, 7, 0, 600, 660, 60, Requested, 1000, "pending", None, None, None, None);
      var s := Store([mentor], [booking], [PaymentAttempt(5, 3, 1000, None, "pending", 0, 0)], []);
      BalanceOf(Finalize(s, 0).users, 7) == 800 && BalanceOf(FinalizeAsWritten(s, 0).users, 7) == 0
  {
    var mentor := User(7, "mentor@example.com", "mentor", None, 0);
    var booking := Booking(3, 9, 7, 0, 600, 660, 60, Requested, 1000, "pending", None, None, None, None);
    var s := Store([mentor], [booking], [PaymentAttempt(5, 3, 1000, None, "pending", 0, 0)], []);
    assert FirstIndex(s.bookings, (b: Booking) => b.id == 3) == Some(0);
    assert FirstIndex(s.users, (u: User) => u.id == 7) == Some(0);
    assert Commission(1000, CommissionPercent).mentorPayout == 800;
  }

  /** Finalising twice is finalising once: the mentor is credited once. */
  lemma FinalizeIdempotent(s: Store, i: nat)
    requires i < |s.attempts|
    ensures Finalize(Finalize(s, i), i) == Finalize(s, i)
  {
  }

  /** A payment already succeeded is never credited again. */
  lemma FinalizeSettled(s: Store, i: nat)
    requires i < |s.attempts| && s.attempts[i].status == "succeeded"
    ensures Finalize(s, i) == s
  {
  }

  /** Pays the booking and confirms it, whatever its status was. */
  function MarkPaid(bookings: seq<Booking>, bookingId: int): (r: seq<Booking>)
    ensures |r| == |bookings|
    ensures forall k :: 0 <= k < |r| ==> r[k].id == bookings[k].id
    ensures match FirstIndex(bookings, (b: Booking) => b.id == bookingId)
      case None => r == bookings
      case Some(bi) => r == bookings[bi := bookings[bi].(paymentStatus := "paid", status := Confirmed)]
  {
    match FirstIndex(bookings, (b: Booking) => b.id == bookingId)
    case None => bookings
    case Some(bi) => bookings[bi := bookings[bi].(paymentStatus := "paid", status := Confirmed)]
  }

  // =====================================================================
  // The webhook
  // =====================================================================

  /** A verified event. `eventId` is None when absent or empty; `intentId`
      is the intent id the event carries (the session's payment_intent for a
      completed checkout, the intent's own id otherwise); the metadata ids
      are None when absent or empty. */
  datatype ProcessorEvent = ProcessorEvent(
    eventId: Option<string>, eventType: string, intentId: Option<string>,
    metadataPaymentId: Option<int>, metadataBookingId: Option<int>)

  datatype WebhookReply = AlreadyProcessed | Received

  /** The attempt a payment id in the metadata names. */
  function NamedAttempt(attempts: seq<PaymentAttempt>, paymentId: Option<int>): (r: Option<nat>)
    ensures r.Some? ==> paymentId.Some? && r.value < |attempts| && attempts[r.value].id == paymentId.value
  {
    if paymentId.None? then None
    else FirstIndex(attempts, (a: PaymentAttempt) => a.id == paymentId.value)
  }

  /** The two event types that finalise: the named payment takes the
      event's intent id and is finalised, then the named booking is paid
      and confirmed. Every other type changes nothing. */
  function ApplyEvent(s: Store, ev: ProcessorEvent): (t: Store)
    ensures t.events == s.events
    ensures |t.attempts| == |s.attempts|
    ensures ev.eventType != "checkout.session.completed" && ev.eventType != "payment_intent.succeeded" ==> t == s
    ensures ev.eventType == "checkout.session.completed" || ev.eventType == "payment_intent.succeeded" ==>
      && t.bookings == (if ev.metadataBookingId.Some? then MarkPaid(s.bookings, ev.metadataBookingId.value) else s.bookings)
      && match NamedAttempt(s.attempts, ev.metadataPaymentId)
         case None => t.attempts == s.attempts && t.users == s.users
         case Some(i) =>
           && t.attempts[i].status == "succeeded" && t.attempts[i].intentId == ev.intentId
           && t.attempts == s.attempts[i := t.attempts[i]]
           && (s.attempts[i].status == "succeeded" ==> t.users == s.users)
           && (s.attempts[i].status != "succeeded" ==>
                 && t.users == CreditFor(s.users, s.bookings, s.attempts[i].bookingId, t.attempts[i].mentorPayoutAmount)
                 && t.attempts[i].platformFee + t.attempts[i].mentorPayoutAmount == s.attempts[i].amount
                 && -50 < 100 * t.attempts[i].platformFee - s.attempts[i].amount * CommissionPercent <= 50)
  {
    if ev.eventType != "checkout.session.completed" && ev.eventType != "payment_intent.succeeded" then s
    else
      var s1 :=
        match NamedAttempt(s.attempts, ev.metadataPaymentId)
        case None => s
        case Some(i) => Finalize(s.(attempts := s.attempts[i := s.attempts[i].(intentId := ev.intentId)]), i);
      if ev.metadataBookingId.None? then s1
      else s1.(bookings := MarkPaid(s1.bookings, ev.metadataBookingId.value))
  }

  /** stripe_webhook: an event id seen before is answered "already
      processed" with no change; a new one is recorded before the event is
      applied. An event without an id is applied unrecorded. */
  function ProcessEvent(s: Store, ev: ProcessorEvent): (out: (WebhookReply, Store))
    ensures out.0 == AlreadyProcessed ==> out.1 == s
    ensures out.0 == AlreadyProcessed <==>
      ev.eventId.Some? && FirstIndex(s.events, (e: WebhookEvent) => e.eventId == ev.eventId.value).Some?
    ensures ev.eventId.None? ==> out == (Received, ApplyEvent(s, ev)) && out.1.events == s.events
    ensures ev.eventId.Some? && FirstIndex(s.events, (e: WebhookEvent) => e.eventId == ev.eventId.value).None? ==>
      && out.0 == Received
      && out.1.events == s.events + [WebhookEvent(ev.eventId.value, Some(ev.eventType))]
      && out.1 == ApplyEvent(s, ev).(events := out.1.events)
  {
    if ev.eventId.None? then (Received, ApplyEvent(s, ev))
    else if FirstIndex(s.events, (e: WebhookEvent) => e.eventId == ev.eventId.value).Some? then (AlreadyProcessed, s)
    else
      var recorded := s.(events := s.events + [WebhookEvent(ev.eventId.value, Some(ev.eventType))]);
      (Received, ApplyEvent(recorded, ev))
  }

  /** A redelivered event (one with an id) is answered "already processed"
      and changes nothing. */
  lemma {:induction false} ReplayIgnored(s: Store, ev: ProcessorEvent)
    requires ev.eventId.Some?
    ensures var t := ProcessEvent(s, ev).1;
      ProcessEvent(t, ev) == (AlreadyProcessed, t)
  {
    var t := ProcessEvent(s, ev).1;
    var p := (e: WebhookEvent) => e.eventId == ev.eventId.value;
    if FirstIndex(s.events, p).None? {
      var e := WebhookEvent(ev.eventId.value, Some(ev.eventType));
      FirstIndexAppend(s.events, e, p);
      assert t.events == s.events + [e];
    }
  }

  /** An event that names no payment, or a payment that already succeeded,
      credits no one. */
  lemma {:induction false} SettledEventNoCredit(s: Store, ev: ProcessorEvent)
    requires var i := NamedAttempt(s.attempts, ev.metadataPaymentId);
      i.None? || s.attempts[i.value].status == "succeeded"
    ensures ProcessEvent(s, ev).1.users == s.users
  {
    var s0 := if ev.eventId.None? || FirstIndex(s.events, (e: WebhookEvent) => e.eventId == ev.eventId.value).Some? then s
              else s.(events := s.events + [WebhookEvent(ev.eventId.value, Some(ev.eventType))]);
    assert NamedAttempt(s0.attempts, ev.metadataPaymentId) == NamedAttempt(s.attempts, ev.metadataPaymentId);
    var i := NamedAttempt(s0.attempts, ev.metadataPaymentId);
    if i.Some? {
      var s1 := s0.(attempts := s0.attempts[i.value := s0.attempts[i.value].(intentId := ev.intentId)]);
      FinalizeSettled(s1, i.value);
    }
  }

  /** Two different events for the same payment (a completed checkout and
      the intent's success, say) credit the mentor once: after the first,
      the second leaves every balance as it was. */
  lemma {:induction false} SecondEventNoCredit(s: Store, ev1: ProcessorEvent, ev2: ProcessorEvent)
    requires ev1.eventType == "checkout.session.completed" || ev1.eventType == "payment_intent.succeeded"
    requires ProcessEvent(s, ev1).0 == Received
    requires ev2.metadataPaymentId == ev1.metadataPaymentId
    ensures var t := ProcessEvent(s, ev1).1;
      ProcessEvent(t, ev2).1.users == t.users
  {
    var t := ProcessEvent(s, ev1).1;
    var s0 := if ev1.eventId.None? then s
              else s.(events := s.events + [WebhookEvent(ev1.eventId.value, Some(ev1.eventType))]);
    assert t == ApplyEvent(s0, ev1);
    var i := NamedAttempt(s0.attempts, ev1.metadataPaymentId);
    if i.Some? {
      var id := ev1.metadataPaymentId.value;
      var p := (a: PaymentAttempt) => a.id == id;
      var s1 := s0.(attempts := s0.attempts[i.value := s0.attempts[i.value].(intentId := ev1.intentId)]);
      var s2 := Finalize(s1, i.value);
      FirstIndexUpdate(s0.attempts, i.value, s1.attempts[i.value], p);
      FirstIndexUpdate(s1.attempts, i.value, s2.attempts[i.value], p);
      assert s2.attempts == s1.attempts[i.value := s2.attempts[i.value]];
      assert t.attempts == s2.attempts;
      assert NamedAttempt(t.attempts, ev2.metadataPaymentId) == i;
    } else {
      assert t.attempts == s0.attempts;
    }
    SettledEventNoCredit(t, ev2);
  }

  /** The booking an event names ends up paid and confirmed, even if it had
      been cancelled. */
  lemma {:induction false} EventConfirmsBooking(s: Store, ev: ProcessorEvent, k: nat)
    requires ev.eventType == "checkout.session.completed" || ev.eventType == "payment_intent.succeeded"
    requires ProcessEvent(s, ev).0 == Received
    requires ev.metadataBookingId.Some?
    requires FirstIndex(s.bookings, (b: Booking) => b.id == ev.metadataBookingId.value) == Some(k)
    ensures var t := ProcessEvent(s, ev).1;
      k < |t.bookings| && t.bookings[k].status == Confirmed && t.bookings[k].paymentStatus == "paid"
      && t.bookings[k].id == s.bookings[k].id
  {
    var t := ProcessEvent(s, ev).1;
    var s0 := if ev.eventId.None? then s
              else s.(events := s.events + [WebhookEvent(ev.eventId.value, Some(ev.eventType))]);
    var i := NamedAttempt(s0.attempts, ev.metadataPaymentId);
    var s1 := match i
      case None => s0
      case Some(j) => Finalize(s0.(attempts := s0.attempts[j := s0.attempts[j].(intentId := ev.intentId)]), j);
    assert s1.bookings == s.bookings;
    assert t.bookings == MarkPaid(s.bookings, ev.metadataBookingId.value);
  }

  /** Finalises the i-th attempt in the database as Finalize says. */
  method FinalizePayment(db: Database, i: nat)
    requires i < |db.attempts|
    modifies db`attempts, db`users
    ensures Store(db.users, db.bookings, db.attempts, db.events)
      == Finalize(Store(old(db.users), db.bookings, old(db.attempts), db.events), i)
  {
    var p := db.attempts[i];
    if p.status == "succeeded" {
      return;
    }
    var split := Commission(p.amount, CommissionPercent);
    db.attempts := db.attempts[i := p.(status := "succeeded", platformFee := split.platformFee,
                                       mentorPayoutAmount := split.mentorPayout)];
    var bi := FirstIndex(db.bookings, (b: Booking) => b.id == p.bookingId);
    if bi.Some? && db.bookings[bi.value].mentorId != 0 {
      db.users := CreditMentor(db.users, db.bookings[bi.value].mentorId, split.mentorPayout);
    }
  }

  /** The webhook handler on the database: the tables end up as
      ProcessEvent says. */
  method StripeWebhook(db: Database, ev: ProcessorEvent) returns (r: WebhookReply)
    modifies db`users, db`bookings, db`attempts, db`events
    ensures (r, Store(db.users, db.bookings, db.attempts, db.events))
      == ProcessEvent(Store(old(db.users), old(db.bookings), old(db.attempts), old(db.events)), ev)
  {
    if ev.eventId.Some? {
      var seen := FirstIndex(db.events, (e: WebhookEvent) => e.eventId == ev.eventId.value);
      if seen.Some? {
        return AlreadyProcessed;
      }
      db.events := db.events + [WebhookEvent(ev.eventId.value, Some(ev.eventType))];
    }
    if ev.eventType == "checkout.session.completed" || ev.eventType == "payment_intent.succeeded" {
      var i := NamedAttempt(db.attempts, ev.metadataPaymentId);
      if i.Some? {
        db.attempts := db.attempts[i.value := db.attempts[i.value].(intentId := ev.intentId)];
        FinalizePayment(db, i.value);
      }
      if ev.metadataBookingId.Some? {
        db.bookings := MarkPaid(db.bookings, ev.metadataBookingId.value);
      }
    }
    return Received;
  }

  // =====================================================================
  // Explicit confirmation
  // =====================================================================

  /** What the processor reports for an intent. */
  datatype IntentInfo = IntentInfo(id: string, status: string)

  /** The attempt a confirmation names: by payment id when given, else by
      intent id, else the request is malformed (400); none found is 404. */
  function ConfirmTarget(attempts: seq<PaymentAttempt>, paymentId: Option<int>, intentId: Option<string>): (r: Result<nat>)
    ensures paymentId.None? && intentId.None? <==> r == Err(BadRequest)
    ensures r.Ok? ==> r.value < |attempts|
    ensures r.Ok? && paymentId.Some? ==> attempts[r.value].id == paymentId.value
    ensures r.Ok? && paymentId.None? ==> attempts[r.value].intentId == intentId
    ensures r.Err? ==> r.error in {BadRequest, NotFound}
  {
    var found :=
      if paymentId.Some? then FirstIndex(attempts, (a: PaymentAttempt) => a.id == paymentId.value)
      else if intentId.Some? then FirstIndex(attempts, (a: PaymentAttempt) => a.intentId == intentId)
      else None;
    if paymentId.None? && intentId.None? then Err(BadRequest)
    else if found.None? then Err(NotFound)
    else Ok(found.value)
  }

  /** The processor's report on the intent a confirmation asks about: the
      intent id given with the request, else the one stored on the payment;
      None when there is neither or the processor cannot be reached. */
  function Reported(p: PaymentAttempt, intentId: Option<string>, retrieve: string -> Option<IntentInfo>): Option<IntentInfo>
  {
    if intentId.Some? then retrieve(intentId.value)
    else if p.intentId.Some? then retrieve(p.intentId.value)
    else None
  }

  /** confirm_payment: a payment already succeeded is returned as it is;
      otherwise the processor is asked about the given intent id, else the
      stored one (None when unreachable), and on "succeeded" the payment is
      finalised, taking the processor's intent id, and its booking is paid
      and confirmed. Any other answer returns the payment unchanged. */
  function ConfirmOutcome(s: Store, paymentId: Option<int>, intentId: Option<string>,
                          retrieve: string -> Option<IntentInfo>): (out: (Result<PaymentAttempt>, Store))
    ensures out.0.Err? ==> out.1 == s && ConfirmTarget(s.attempts, paymentId, intentId) == Err(out.0.error)
    ensures ConfirmTarget(s.attempts, paymentId, intentId).Ok? ==>
      var i := ConfirmTarget(s.attempts, paymentId, intentId).value;
      var p := s.attempts[i];
      var report := Reported(p, intentId, retrieve);
      if p.status == "succeeded" || report.None? || report.value.status != "succeeded" then out == (Ok(p), s)
      else
        && |out.1.attempts| == |s.attempts|
        && out.0 == Ok(out.1.attempts[i])
        && out.1.attempts == s.attempts[i := out.1.attempts[i]]
        && out.1.attempts[i] == p.(status := "succeeded", intentId := Some(report.value.id),
                                   platformFee := out.1.attempts[i].platformFee,
                                   mentorPayoutAmount := out.1.attempts[i].mentorPayoutAmount)
        && out.1.attempts[i].platformFee + out.1.attempts[i].mentorPayoutAmount == p.amount
        && -50 < 100 * out.1.attempts[i].platformFee - p.amount * CommissionPercent <= 50
        && out.1.users == CreditFor(s.users, s.bookings, p.bookingId, out.1.attempts[i].mentorPayoutAmount)
        && out.1.bookings == MarkPaid(s.bookings, p.bookingId)
    ensures out.1.events == s.events
  {
    match ConfirmTarget(s.attempts, paymentId, intentId)
    case Err(e) => (Err(e), s)
    case Ok(i) =>
      var p := s.attempts[i];
      if p.status == "succeeded" then (Ok(p), s)
      else
        var intent := Reported(p, intentId, retrieve);
        if intent.None? || intent.value.status != "succeeded" then (Ok(p), s)
        else
          var s1 := Finalize(s.(attempts := s.attempts[i := p.(intentId := Some(intent.value.id))]), i);
          (Ok(s1.attempts[i]), s1.(bookings := MarkPaid(s1.bookings, p.bookingId)))
  }

  /** A payment confirmed explicitly is not credited again by a webhook
      event for it. */
  lemma {:induction false} ConfirmThenEventNoCredit(s: Store, paymentId: int, retrieve: string -> Option<IntentInfo>,
                                                    ev: ProcessorEvent)
    requires ConfirmOutcome(s, Some(paymentId), None, retrieve).0.Ok?
    requires ConfirmOutcome(s, Some(paymentId), None, retrieve).0.value.status == "succeeded"
    requires ev.metadataPaymentId == Some(paymentId)
    ensures var t := ConfirmOutcome(s, Some(paymentId), None, retrieve).1;
      ProcessEvent(t, ev).1.users == t.users
  {
    var t := ConfirmOutcome(s, Some(paymentId), None, retrieve).1;
    var i := ConfirmTarget(s.attempts, Some(paymentId), None).value;
    var pr := (a: PaymentAttempt) => a.id == paymentId;
    assert FirstIndex(s.attempts, pr) == Some(i);
    if t != s {
      var p := s.attempts[i];
      var intent := if p.intentId.Some? then retrieve(p.intentId.value) else None;
      var s0 := s.(attempts := s.attempts[i := p.(intentId := Some(intent.value.id))]);
      var s1 := Finalize(s0, i);
      FirstIndexUpdate(s.attempts, i, s0.attempts[i], pr);
      FirstIndexUpdate(s0.attempts, i, s1.attempts[i], pr);
      assert s1.attempts == s0.attempts[i := s1.attempts[i]];
      assert t.attempts == s1.attempts;
      assert NamedAttempt(t.attempts, ev.metadataPaymentId) == Some(i);
    } else {
      assert NamedAttempt(t.attempts, ev.metadataPaymentId) == Some(i);
    }
    SettledEventNoCredit(t, ev);
  }

  /** confirm_payment on the database, as ConfirmOutcome says. */
  method ConfirmPayment(db: Database, paymentId: Option<int>, intentId: Option<string>,
                        retrieve: string -> Option<IntentInfo>) returns (r: Result<PaymentAttempt>)
    modifies db`users, db`bookings, db`attempts
    ensures (r, Store(db.users, db.bookings, db.attempts, db.events))
      == ConfirmOutcome(Store(old(db.users), old(db.bookings), old(db.attempts), db.events), paymentId, intentId, retrieve)
  {
    var target := ConfirmTarget(db.attempts, paymentId, intentId);
    if target.Err? {
      return Err(target.error);
    }
    var i := target.value;
    var p := db.attempts[i];
    if p.status == "succeeded" {
      return Ok(p);
    }
    var intent := None;
    if intentId.Some? {
      intent := retrieve(intentId.value);
    } else if p.intentId.Some? {
      intent := retrieve(p.intentId.value);
    }
    if intent.None? || intent.value.status != "succeeded" {
      return Ok(p);
    }
    db.attempts := db.attempts[i := p.(intentId := Some(intent.value.id))];
    FinalizePayment(db, i);
    db.bookings := MarkPaid(db.bookings, p.bookingId);
    return Ok(db.attempts[i]);
  }
}

=== FILE: sitemap.dfy ===
/** The sitemap generator: XML escaping, one `<url>` element per page, and
    the list of pages (four fixed pages, then one per blog post with a slug)
    that becomes sitemap.xml. Reading posts.json and writing the file are
    left to the caller; the build date is a parameter. */
module Sitemap {
  import opened Common
  import opened BlogStore

  // ---------------------------------------------------------------------
  // Escaping
  // ---------------------------------------------------------------------

  /** String.prototype.replace with a global one-character pattern. */
  function ReplaceAll(s: string, c: char, rep: string): string
  {
    if s == [] then []
    else (if s[0] == c then rep else [s[0]]) + ReplaceAll(s[1..], c, rep)
  }

  /** Replacing a character that does not occur changes nothing. */
  lemma {:induction false} ReplaceAbsent(s: string, c: char, rep: string)
    requires c !in s
    ensures ReplaceAll(s, c, rep) == s
    decreases |s|
  {
    if s != [] {
      ReplaceAbsent(s[1..], c, rep);
      assert s == [s[0]] + s[1..];
    }
  }

  lemma {:induction false} ReplaceAllAppend(a: string, b: string, c: char, rep: string)
    ensures ReplaceAll(a + b, c, rep) == ReplaceAll(a, c, rep) + ReplaceAll(b, c, rep)
    decreases |a|
  {
    if a == [] {
      assert a + b == b;
    } else {
      assert (a + b)[1..] == a[1..] + b;
      ReplaceAllAppend(a[1..], b, c, rep);
    }
  }

  /** escapeXml as written: `&` first, then `<`, `>`, `"` and `'`. Text
      without any of the five characters passes unchanged. */
  function EscapeXmlChain(s: string): (r: string)
    ensures '&' !in s && '<' !in s && '>' !in s && '"' !in s && '\'' !in s ==> r == s
  {
    if '&' !in s && '<' !in s && '>' !in s && '"' !in s && '\'' !in s then
      ReplaceAbsent(s, '&', "&amp;");
      LaterStepsKeep(s, 0);
      ReplaceAll(ReplaceAll(ReplaceAll(ReplaceAll(ReplaceAll(s, '&', "&amp;"), '<', "&lt;"), '>', "&gt;"), '"', "&quot;"), '\'', "&apos;")
    else
      ReplaceAll(ReplaceAll(ReplaceAll(ReplaceAll(ReplaceAll(s, '&', "&amp;"), '<', "&lt;"), '>', "&gt;"), '"', "&quot;"), '\'', "&apos;")
  }

  /** What one character becomes: never a markup character, and a
      character other than the five stays as it is. */
  function EscapeChar(c: char): (r: string)
    ensures '<' !in r && '>' !in r && '"' !in r && '\'' !in r
    ensures c !in "&<>\"'" ==> r == [c]
    ensures |r| >= 1
  {
    match c
    case '&' => "&amp;"
    case '<' => "&lt;"
    case '>' => "&gt;"
    case '"' => "&quot;"
    case '\'' => "&apos;"
    case _ => [c]
  }

  /** The escaping, one character at a time. The escaped text holds none
      of the four markup characters and is never shorter. */
  function EscapeXml(s: string): (r: string)
    ensures '<' !in r && '>' !in r && '"' !in r && '\'' !in r
    ensures |r| >= |s|
  {
    if s == [] then []
    else
      var e, t := EscapeChar(s[0]), EscapeXml(s[1..]);
      assert forall x :: x in e + t ==> x in e || x in t;
      e + t
  }

  lemma ChainAppend(a: string, b: string)
    ensures EscapeXmlChain(a + b) == EscapeXmlChain(a) + EscapeXmlChain(b)
  {
    var a1, b1 := ReplaceAll(a, '&', "&amp;"), ReplaceAll(b, '&', "&amp;");
    ReplaceAllAppend(a, b, '&', "&amp;");
    var a2, b2 := ReplaceAll(a1, '<', "&lt;"), ReplaceAll(b1, '<', "&lt;");
    ReplaceAllAppend(a1, b1, '<', "&lt;");
    var a3, b3 := ReplaceAll(a2, '>', "&gt;"), ReplaceAll(b2, '>', "&gt;");
    ReplaceAllAppend(a2, b2, '>', "&gt;");
    var a4, b4 := ReplaceAll(a3, '"', "&quot;"), ReplaceAll(b3, '"', "&quot;");
    ReplaceAllAppend(a3, b3, '"', "&quot;");
    ReplaceAllAppend(a4, b4, '\'', "&apos;");
  }

  lemma ReplaceOne(c: char, d: char, rep: string)
    ensures ReplaceAll([c], d, rep) == if c == d then rep else [c]
  {
    assert [c][1..] == [];
  }

  /** The replacement steps after step `k` of escapeXml. */
  function StepsAfter(s: string, k: nat): string
  {
    var s2 := if k < 1 then ReplaceAll(s, '<', "&lt;") else s;
    var s3 := if k < 2 then ReplaceAll(s2, '>', "&gt;") else s2;
    var s4 := if k < 3 then ReplaceAll(s3, '"', "&quot;") else s3;
    if k < 4 then ReplaceAll(s4, '\'', "&apos;") else s4
  }

  /** An entity holds none of the characters the later steps replace. */
  lemma LaterStepsKeep(e: string, k: nat)
    requires '<' !in e && '>' !in e && '"' !in e && '\'' !in e
    ensures StepsAfter(e, k) == e
  {
    ReplaceAbsent(e, '<', "&lt;");
    ReplaceAbsent(e, '>', "&gt;");
    ReplaceAbsent(e, '"', "&quot;");
    ReplaceAbsent(e, '\'', "&apos;");
  }

  /** On one character the chain gives that character's escape: the `&`
      of an entity written by one step is never touched by a later one. */
  lemma ChainChar(c: char)
    ensures EscapeXmlChain([c]) == EscapeChar(c)
  {
    ReplaceOne(c, '&', "&amp;");
    if c == '&' {
      LaterStepsKeep("&amp;", 0);
    } else {
      ReplaceOne(c, '<', "&lt;");
      if c == '<' {
        LaterStepsKeep("&lt;", 1);
      } else {
        ReplaceOne(c, '>', "&gt;");
        if c == '>' {
          LaterStepsKeep("&gt;", 2);
        } else {
          ReplaceOne(c, '"', "&quot;");
          if c == '"' {
            LaterStepsKeep("&quot;", 3);
          } else {
            ReplaceOne(c, '\'', "&apos;");
          }
        }
      }
    }
  }

  /** The chain of global replacements escapes each character on its own. */
  lemma {:induction false} ChainIsPerChar(s: string)
    ensures EscapeXmlChain(s) == EscapeXml(s)
    decreases |s|
  {
    if s == [] {
      ReplaceAbsent(s, '&', "&amp;");
      LaterStepsKeep(s, 0);
    } else {
      assert s == [s[0]] + s[1..];
      ChainAppend([s[0]], s[1..]);
      ChainChar(s[0]);
      ChainIsPerChar(s[1..]);
    }
  }

  /** Decoding of the five predefined entities of section 4.6 of XML 1.0;
      any other character is kept. */
  function Unescape(s: string): (r: string)
    ensures |r| <= |s|
    decreases |s|
  {
    if s == [] then []
    else if StartsWith(s, "&amp;") then "&" + Unescape(s[5..])
    else if StartsWith(s, "&lt;") then "<" + Unescape(s[4..])
    else if StartsWith(s, "&gt;") then ">" + Unescape(s[4..])
    else if StartsWith(s, "&quot;") then "\"" + Unescape(s[6..])
    else if StartsWith(s, "&apos;") then "'" + Unescape(s[6..])
    else [s[0]] + Unescape(s[1..])
  }

  /** A string that differs from `p` at some position of both does not
      start with `p`. */
  lemma DiffersAt(s: string, p: string, i: nat)
    requires i < |p| && i < |s| && s[i] != p[i]
    ensures !StartsWith(s, p)
  {
    if |p| <= |s| {
      assert s[..|p|][i] == s[i];
    }
  }

  lemma UnescapeChar(c: char, t: string)
    ensures Unescape(EscapeChar(c) + t) == [c] + Unescape(t)
  {
    var e := EscapeChar(c);
    var s := e + t;
    assert s[..|e|] == e;
    assert s[|e|..] == t;
    if c == '&' {
    } else if c == '<' {
      DiffersAt(s, "&amp;", 1);
    } else if c == '>' {
      DiffersAt(s, "&amp;", 1);
      DiffersAt(s, "&lt;", 1);
    } else if c == '"' {
      DiffersAt(s, "&amp;", 1);
      DiffersAt(s, "&lt;", 1);
      DiffersAt(s, "&gt;", 1);
    } else if c == '\'' {
      DiffersAt(s, "&amp;", 2);
      DiffersAt(s, "&lt;", 1);
      DiffersAt(s, "&gt;", 1);
      DiffersAt(s, "&quot;", 1);
    } else {
      assert e == [c];
      DiffersAt(s, "&amp;", 0);
      DiffersAt(s, "&lt;", 0);
      DiffersAt(s, "&gt;", 0);
      DiffersAt(s, "&quot;", 0);
      DiffersAt(s, "&apos;", 0);
    }
  }

  /** Escaping loses nothing: decoding the entities gives the input back. */
  lemma {:induction false} UnescapeEscape(s: string)
    ensures Unescape(EscapeXml(s)) == s
    decreases |s|
  {
    if s == [] {
      assert EscapeXml(s) == [];
    } else {
      UnescapeChar(s[0], EscapeXml(s[1..]));
      UnescapeEscape(s[1..]);
      assert s == [s[0]] + s[1..];
    }
  }

  /** One of the five entities starts at position `i`. */
  predicate EntityAt(r: string, i: nat)
    requires i < |r|
  {
    StartsWith(r[i..], "&amp;") || StartsWith(r[i..], "&lt;") || StartsWith(r[i..], "&gt;")
    || StartsWith(r[i..], "&quot;") || StartsWith(r[i..], "&apos;")
  }

  /** Every `&` of an escaped string starts an entity. */
  lemma {:induction false} AmpersandsStartEntities(s: string)
    ensures forall i :: 0 <= i < |EscapeXml(s)| && EscapeXml(s)[i] == '&' ==> EntityAt(EscapeXml(s), i)
    decreases |s|
  {
    if s == [] {
      assert EscapeXml(s) == [];
    } else {
      AmpersandsStartEntities(s[1..]);
      var e, t := EscapeChar(s[0]), EscapeXml(s[1..]);
      var r := e + t;
      assert EscapeXml(s) == r;
      EscapedCharEntity(s[0], t);
      forall i | 0 <= i < |r| && r[i] == '&' ensures EntityAt(r, i) {
        if i < |e| {
          assert r[i] == e[i];
        } else {
          assert t[i - |e|] == '&';
          EntityShifts(e, t, i - |e|);
        }
      }
    }
  }

  /** In an escaped character an `&` can only come first, and then it
      starts an entity, whatever follows. */
  lemma EscapedCharEntity(c: char, t: string)
    ensures forall i :: 0 < i < |EscapeChar(c)| ==> EscapeChar(c)[i] != '&'
    ensures EscapeChar(c)[0] == '&' ==> EntityAt(EscapeChar(c) + t, 0)
  {
    var r := EscapeChar(c) + t;
    assert r[0..] == r;
  }

  /** An entity in the tail is still an entity after a prefix. */
  lemma EntityShifts(e: string, t: string, i: nat)
    requires i < |t| && EntityAt(t, i)
    ensures EntityAt(e + t, |e| + i)
  {
    assert (e + t)[|e| + i..] == t[i..];
  }

  // ---------------------------------------------------------------------
  // One <url> element
  // ---------------------------------------------------------------------

  const SiteUrl := "https://www.mendforworks.com"

  /** The options of urlEntry; an absent option takes its default. */
  datatype EntryOptions = EntryOptions(lastmod: Option<string>, changefreq: Option<string>, priority: Option<string>)

  function Defaulted(v: Option<string>, otherwise: string): string
  {
    if v.Some? then v.value else otherwise
  }

  function Element(name: string, value: string): string
  {
    "    <" + name + ">" + EscapeXml(value) + "</" + name + ">"
  }

  /** The location line: the site address and the path, escaped. */
  function LocLine(locPath: string): string
  {
    "    <loc>" + EscapeXml(SiteUrl + locPath) + "</loc>"
  }

  /** An optional line is null when its value is the empty string. */
  function OptionalElement(name: string, value: string): Option<string>
  {
    if value != [] then Some(Element(name, value)) else None
  }

  /** The array literal of urlEntry, before `filter(Boolean)`. */
  function EntryLines(locPath: string, opts: EntryOptions, today: string): seq<Option<string>>
  {
    [ Some("  <url>"),
      Some(LocLine(locPath)),
      OptionalElement("lastmod", Defaulted(opts.lastmod, today)),
      OptionalElement("changefreq", Defaulted(opts.changefreq, "weekly")),
      OptionalElement("priority", Defaulted(opts.priority, "0.5")),
      Some("  </url>") ]
  }

  /** `filter(Boolean)` on a list of strings and nulls: the non-empty strings. */
  function Present(xs: seq<Option<string>>): (r: seq<string>)
    ensures |r| <= |xs|
  {
    if xs == [] then []
    else (if xs[0].Some? && xs[0].value != [] then [xs[0].value] else []) + Present(xs[1..])
  }

  lemma PresentCons(x: Option<string>, xs: seq<Option<string>>)
    ensures Present([x] + xs) == (if x.Some? && x.value != [] then [x.value] else []) + Present(xs)
  {
    assert ([x] + xs)[1..] == xs;
  }

  /** What `filter(Boolean)` keeps of one line. */
  function KeptLine(x: Option<string>): seq<string>
  {
    if x.Some? && x.value != [] then [x.value] else []
  }

  lemma PresentSix(a: Option<string>, b: Option<string>, c: Option<string>,
                   d: Option<string>, e: Option<string>, f: Option<string>)
    ensures Present([a, b, c, d, e, f]) ==
      KeptLine(a) + (KeptLine(b) + (KeptLine(c) + (KeptLine(d) + (KeptLine(e) + KeptLine(f)))))
  {
    var t6: seq<Option<string>> := [];
    var t5 := [f] + t6;
    var t4 := [e] + t5;
    var t3 := [d] + t4;
    var t2 := [c] + t3;
    var t1 := [b] + t2;
    var t0 := [a] + t1;
    PresentCons(f, t6);
    PresentCons(e, t5);
    PresentCons(d, t4);
    PresentCons(c, t3);
    PresentCons(b, t2);
    PresentCons(a, t1);
    assert Present(t5) == KeptLine(f);
    assert Present(t3) == KeptLine(d) + (KeptLine(e) + KeptLine(f));
    assert Present(t0) == KeptLine(a) + (KeptLine(b) + (KeptLine(c) + (KeptLine(d) + (KeptLine(e) + KeptLine(f)))));
    assert t0 == [a, b, c, d, e, f];
  }

  /** The optional line as it survives the filter. */
  function Kept(name: string, value: string): (r: seq<string>)
    ensures r == KeptLine(OptionalElement(name, value))
  {
    if value != [] then [Element(name, value)] else []
  }

  /** urlEntry: the surviving lines joined with newlines. */
  function UrlEntry(locPath: string, opts: EntryOptions, today: string): (r: string)
    ensures StartsWith(r, "  <url>" + "\n" + LocLine(locPath))
    ensures EndsWith(r, "\n" + "  </url>")
  {
    var lines := Present(EntryLines(locPath, opts, today));
    EntryLinesKept(locPath, opts, today);
    assert |lines| >= 3 && lines[0] == "  <url>" && lines[1] == LocLine(locPath);
    assert lines[|lines| - 1] == "  </url>";
    JoinEnds(lines, "\n");
    JoinStartsWithTwo(lines, "\n");
    Join(lines, "\n")
  }

  /** The lines of an entry: the opening tag, the escaped location, each
      optional element exactly when its value (after defaulting) is
      non-empty, and the closing tag. */
  lemma EntryLinesKept(locPath: string, opts: EntryOptions, today: string)
    ensures Present(EntryLines(locPath, opts, today)) ==
      ["  <url>", LocLine(locPath)]
      + (Kept("lastmod", Defaulted(opts.lastmod, today))
      + (Kept("changefreq", Defaulted(opts.changefreq, "weekly"))
      + (Kept("priority", Defaulted(opts.priority, "0.5"))
      + ["  </url>"])))
  {
    var lm, cf, pr := Defaulted(opts.lastmod, today), Defaulted(opts.changefreq, "weekly"), Defaulted(opts.priority, "0.5");
    var loc := LocLine(locPath);
    assert |loc| > 0;
    KeptSix("  <url>", loc, "  </url>", OptionalElement("lastmod", lm),
            OptionalElement("changefreq", cf), OptionalElement("priority", pr));
    assert Kept("lastmod", lm) == KeptLine(OptionalElement("lastmod", lm));
  }

  /** Six lines whose first, second and last are non-empty strings. */
  lemma KeptSix(open: string, loc: string, close: string, c: Option<string>, d: Option<string>, e: Option<string>)
    requires open != [] && loc != [] && close != []
    ensures Present([Some(open), Some(loc), c, d, e, Some(close)]) ==
      [open, loc] + (KeptLine(c) + (KeptLine(d) + (KeptLine(e) + [close])))
  {
    PresentSix(Some(open), Some(loc), c, d, e, Some(close));
    var rest := KeptLine(c) + (KeptLine(d) + (KeptLine(e) + [close]));
    assert KeptLine(Some(close)) == [close];
    assert [open] + ([loc] + rest) == [open, loc] + rest;
  }

  /** An optional element is written exactly when its value is non-empty. */
  lemma OptionalElementsOmittedWhenEmpty(locPath: string, opts: EntryOptions, today: string)
    ensures var lines := Present(EntryLines(locPath, opts, today));
      |lines| == 3 + (if Defaulted(opts.lastmod, today) != [] then 1 else 0)
                   + (if Defaulted(opts.changefreq, "weekly") != [] then 1 else 0)
                   + (if Defaulted(opts.priority, "0.5") != [] then 1 else 0)
  {
    EntryLinesKept(locPath, opts, today);
  }

  // ---------------------------------------------------------------------
  // The page list
  // ---------------------------------------------------------------------

  /** The home page, the blog index and the two legal pages, pushed first
      in this order. */
  function FixedUrls(today: string): (r: seq<string>)
    ensures |r| == 4
  {
    [ UrlEntry("/", EntryOptions(None, Some("weekly"), Some("1.0")), today),
      UrlEntry("/blog", EntryOptions(None, Some("weekly"), Some("0.7")), today),
      UrlEntry("/privacy-policy", EntryOptions(None, Some("yearly"), Some("0.3")), today),
      UrlEntry("/terms-of-service", EntryOptions(None, Some("yearly"), Some("0.3")), today) ]
  }

  /** `!post?.slug` skips a post. */
  predicate HasSlug(p: PostMeta)
  {
    Truthy(p.slug)
  }

  /** `post.lastmod || post.date || today`. */
  function PostLastmod(p: PostMeta, today: string): string
  {
    if Truthy(p.lastmod) then p.lastmod.value
    else if Truthy(p.date) then p.date.value
    else today
  }

  function PostUrl(p: PostMeta, today: string): string
    requires HasSlug(p)
  {
    UrlEntry("/blog/" + p.slug.value, EntryOptions(Some(PostLastmod(p, today)), Some("monthly"), Some("0.6")), today)
  }

  /** The entry the loop pushes for a post; a post without a slug is
      skipped before its entry is built. */
  function PostEntry(today: string): PostMeta -> string
  {
    (p: PostMeta) => if HasSlug(p) then PostUrl(p, today) else ""
  }

  /** The entries pushed by the loop over the posts, in posts order. */
  function PostUrls(posts: seq<PostMeta>, entry: PostMeta -> string): seq<string>
  {
    if posts == [] then []
    else
      var last := posts[|posts| - 1];
      PostUrls(posts[..|posts| - 1], entry) + (if HasSlug(last) then [entry(last)] else [])
  }

  /** One entry per post with a slug, in posts order. */
  lemma {:induction false} PostUrlsOfSlugged(posts: seq<PostMeta>, entry: PostMeta -> string)
    ensures var slugged := Filter(posts, HasSlug);
      |PostUrls(posts, entry)| == |slugged|
      && forall k :: 0 <= k < |slugged| ==> PostUrls(posts, entry)[k] == entry(slugged[k])
    decreases |posts|
  {
    if posts != [] {
      var init, last := posts[..|posts| - 1], posts[|posts| - 1];
      PostUrlsOfSlugged(init, entry);
      assert posts == init + [last];
      FilterAppend(init, [last], HasSlug);
      FilterSingle(last, HasSlug);
    }
  }

  /** The sitemap lists, after the fixed pages, the blog page of every post
      with a slug, in posts order. */
  lemma SitemapPostPages(posts: seq<PostMeta>, today: string)
    ensures var slugged := Filter(posts, HasSlug);
      |PostUrls(posts, PostEntry(today))| == |slugged|
      && forall k :: 0 <= k < |slugged| ==> HasSlug(slugged[k]) && PostUrls(posts, PostEntry(today))[k] == PostUrl(slugged[k], today)
  {
    PostUrlsOfSlugged(posts, PostEntry(today));
  }

  /** main: the fixed pages are pushed first, then every post with a slug. */
  method SitemapUrls(posts: seq<PostMeta>, today: string) returns (urls: seq<string>)
    ensures urls == FixedUrls(today) + PostUrls(posts, PostEntry(today))
    ensures |urls| == 4 + |Filter(posts, HasSlug)|
  {
    urls := FixedUrls(today);
    urls := PushPostUrls(urls, posts, PostEntry(today));
    PostUrlsOfSlugged(posts, PostEntry(today));
  }

  /** main's loop over the posts: one push per post with a slug. */
  method PushPostUrls(start: seq<string>, posts: seq<PostMeta>, entry: PostMeta -> string) returns (urls: seq<string>)
    ensures urls == start + PostUrls(posts, entry)
  {
    urls := start;
    for i := 0 to |posts|
      invariant urls == start + PostUrls(posts[..i], entry)
    {
      var post := posts[i];
      assert posts[..i + 1][..i] == posts[..i];
      if !HasSlug(post) {
        continue;
      }
      urls := urls + [entry(post)];
    }
    assert posts[..|posts|] == posts;
  }

  const XmlDeclaration := "<?xml version=\"1.0\" encoding=\"UTF-8\"?>"
  const UrlsetOpen := "<urlset xmlns=\"http://www.sitemaps.org/schemas/sitemap/0.9\">"

  /** The document written to sitemap.xml. */
  function SitemapXml(urls: seq<string>): (r: string)
    ensures StartsWith(r, XmlDeclaration + "\n" + UrlsetOpen + "\n")
    ensures EndsWith(r, "\n</urlset>\n")
  {
    var parts := [XmlDeclaration, UrlsetOpen, Join(urls, "\n"), "</urlset>", ""];
    var body := Join(urls, "\n");
    assert Join(parts[3..], "\n") == "</urlset>" + "\n" + "";
    assert Join(parts[2..], "\n") == body + "\n" + "</urlset>\n";
    assert Join(parts[1..], "\n") == UrlsetOpen + "\n" + (body + "\n" + "</urlset>\n");
    var r := Join(parts, "\n");
    assert r == XmlDeclaration + "\n" + (UrlsetOpen + "\n" + (body + "\n" + "</urlset>\n"));
    assert r[..|XmlDeclaration + "\n" + UrlsetOpen + "\n"|] == XmlDeclaration + "\n" + UrlsetOpen + "\n";
    assert r[|r| - |"\n</urlset>\n"|..] == "\n</urlset>\n";
    r
  }
}

=== FILE: sorting.dfy ===
/** Ordering of query results and in-memory lists by an integer key, largest
    first, as done by `ORDER BY … DESC` and Python's stable `list.sort(reverse=True)`. */
module Sorting {
  import opened Common

  predicate SortedDesc<T>(xs: seq<T>, key: T -> int)
  {
    forall i, j :: 0 <= i < j < |xs| ==> key(xs[i]) >= key(xs[j])
  }

  /** Inserts `x` in front of the first element whose key does not exceed
      its own, so that earlier elements stay ahead of later equal ones. */
  function Insert<T>(x: T, ys: seq<T>, key: T -> int): (r: seq<T>)
    requires SortedDesc(ys, key)
    ensures SortedDesc(r, key)
    ensures multiset(r) == multiset(ys) + multiset{x}
    ensures |r| == |ys| + 1
    ensures r[0] == x || (ys != [] && r[0] == ys[0])
  {
    if ys == [] || key(x) >= key(ys[0]) then [x] + ys
    else
      var rest := Insert(x, ys[1..], key);
      assert ys == [ys[0]] + ys[1..];
      [ys[0]] + rest
  }

  /** Insertion sort: a permutation of the input, sorted by key, largest first. */
  function SortDesc<T>(xs: seq<T>, key: T -> int): (r: seq<T>)
    ensures SortedDesc(r, key)
    ensures multiset(r) == multiset(xs)
    ensures |r| == |xs|
  {
    if xs == [] then []
    else
      assert xs == [xs[0]] + xs[1..];
      Insert(xs[0], SortDesc(xs[1..], key), key)
  }

  /** Membership is preserved by sorting. */
  lemma SortDescMembers<T>(xs: seq<T>, key: T -> int)
    ensures forall x :: x in SortDesc(xs, key) <==> x in xs
  {
    var r := SortDesc(xs, key);
    forall x ensures x in r <==> x in xs {
      assert x in r <==> x in multiset(r);
      assert x in xs <==> x in multiset(xs);
    }
  }

  /** The elements whose key is `v`. */
  function KeyIs<T>(key: T -> int, v: int): T -> bool
  {
    (x: T) => key(x) == v
  }

  /** Inserting keeps the relative order of the elements of any one key,
      with the inserted element first among them. */
  lemma {:induction false} InsertStable<T>(x: T, ys: seq<T>, key: T -> int, v: int)
    requires SortedDesc(ys, key)
    ensures Filter(Insert(x, ys, key), KeyIs(key, v)) == (if key(x) == v then [x] else []) + Filter(ys, KeyIs(key, v))
    decreases |ys|
  {
    var r := Insert(x, ys, key);
    var p := KeyIs(key, v);
    var head: seq<T> := if key(x) == v then [x] else [];
    if ys == [] || key(x) >= key(ys[0]) {
      assert r == [x] + ys;
      FilterCons(x, ys, p);
    } else {
      var y, rest := ys[0], Insert(x, ys[1..], key);
      InsertStable(x, ys[1..], key, v);
      assert r == [y] + rest;
      assert ys == [y] + ys[1..];
      FilterSingle(y, p);
      StableStep(y, rest, ys[1..], head, p);
    }
  }

  lemma FilterCons<T>(x: T, ys: seq<T>, p: T -> bool)
    ensures Filter([x] + ys, p) == (if p(x) then [x] else []) + Filter(ys, p)
  {
    FilterAppend([x], ys, p);
    FilterSingle(x, p);
  }

  /** An element in front of a filtered sequence that gained `head` (at
      most one of the two passing the filter) gives the same as putting
      `head` first. */
  lemma StableStep<T>(y: T, rest: seq<T>, tail: seq<T>, head: seq<T>, p: T -> bool)
    requires Filter(rest, p) == head + Filter(tail, p)
    requires !p(y) || head == []
    ensures Filter([y] + rest, p) == head + Filter([y] + tail, p)
  {
    FilterCons(y, rest, p);
    FilterCons(y, tail, p);
  }

  /** The sort is stable: the elements of any one key keep their order. */
  lemma {:induction false} SortDescStable<T>(xs: seq<T>, key: T -> int, v: int)
    ensures Filter(SortDesc(xs, key), KeyIs(key, v)) == Filter(xs, KeyIs(key, v))
    decreases |xs|
  {
    if xs != [] {
      SortDescStable(xs[1..], key, v);
      InsertStable(xs[0], SortDesc(xs[1..], key), key, v);
    }
  }

  /** A prefix of the sorted sequence holds the largest keys: whatever it
      leaves out has a key no larger than any it keeps. */
  lemma PrefixOfSortedIsTop<T>(xs: seq<T>, key: T -> int, n: nat)
    requires n <= |xs|
    ensures var top := SortDesc(xs, key)[..n];
      forall k, x :: 0 <= k < n && x in xs && x !in top ==> key(x) <= key(top[k])
  {
    var sorted := SortDesc(xs, key);
    SortDescMembers(xs, key);
    forall k, x | 0 <= k < n && x in xs && x !in sorted[..n] ensures key(x) <= key(sorted[..n][k]) {
      var j :| 0 <= j < |sorted| && sorted[j] == x;
      assert forall i :: 0 <= i < n ==> sorted[..n][i] == sorted[i];
    }
  }
}
